=== FILE: README.md ===
# Trading ledger — a Dafny model

This project models the core of a personal trading ledger. In this ledger, users
record buy and sell entries against symbols (crypto, stock, ETF, derivative),
grouped into operations that are open or closed. Deposits and withdrawals are
kept as transactions. An analytics layer computes balances, performance,
rankings, a product distribution and an investment curve from the stored rows.
A web client keeps stores of symbols, operations and transactions.

The model has three layers.

* **The API services.** These are users, accounts, transactions, operations,
  symbols and analytics. Each is a set of pure functions over one store, `Db`,
  which holds one sequence per table. A write returns the new store and the row
  the call answers (`Stored`), or the exception it throws (`Result`). A failing
  write changes nothing. Prisma's `$transaction` is one function that returns
  the whole new store.
* **The numeric and market helpers.** These are the per-operation metrics, the
  market-data service and its error mapping, the EODHD provider, the log
  writer, the authentication guard, and the request DTOs with their validation
  decorators.
* **The client stores.** These are the symbols, operations and transactions
  stores. Each action is a function from the store state and the answer of its
  API call to the new state and what the action returns or rethrows.

Modelling choices:

* Money and prices are `real`.
* Dates are whole day numbers. The clock is a parameter, `Clock(now, oneYearAgo)`.
* Anything the code gets from a library or the network is a function
  parameter. This covers the JWT check, the bcrypt hash, the ISO-date test,
  the HTTP call of a provider (including its URL parsing and the setting of
  the query parameters, so a malformed base URL is one of its errors), the locale's month name and a provider's quote
  lookup.
* Sequences are summed from the back (`SumOf`) and filtered in order (`Filter`).
* Groupings keep their keys in the order each key first appears (`GroupBy`).
* Sorting is a stable insertion sort by key (`SortAsc`, `SortDesc`).

Shared modules:

* `Common`: Option, Result, the thrown errors, sums, filters, maps, uniqueness of ids.
* `Text`: splitting, searching, number rendering.
* `Sorting`
* `Grouping`
* `Entities`: the rows and the store.

## Model

| member | source | states |
|---|---|---|
| UsersService.Create | api/src/users/users.service.ts:13-34 | Registration fails with 400 "El email ya existe con otro usuario." exactly when some user already has that email. Otherwise it appends one user under a fresh id with the hashed password and no session, and answers id, email and name. |
| UsersService.CreateKeepsKeysUnique | api/src/users/users.service.ts:13-34 | A successful registration keeps both ids and emails unique. |
| UsersService.CreateTwiceFails | api/src/users/users.service.ts:14-19 | A second registration with the same email is refused with the 400. |
| UsersService.Patched | api/src/users/users.service.ts:82-90 | Patching never changes the id, and an empty patch leaves the row as it is. |
| UsersService.EmailConflict | api/src/users/users.service.ts:74-81 | A conflict means the new email is non-empty and someone else holds it. When emails are unique, someone else holding a non-empty new email is always a conflict. |
| UsersService.Update | api/src/users/users.service.ts:66-102 | A missing id gives 404 "Usuario no encontrado", and only a missing id does. A conflict means someone else holds the non-empty email, and with unique emails that always conflicts. On success only the user's own row is patched, and the answer is that patched row's view. |
| UsersService.OwnEmailAllowed | api/src/users/users.service.ts:74-81 | A user may re-send their own email without a conflict. |
| UsersService.EmptyPatchChangesNothing | api/src/users/users.service.ts:66-102 | An empty patch writes nothing and answers the stored user. |
| UsersService.UpdateKeepsEmailsUnique | api/src/users/users.service.ts:66-102 | An update keeps ids and emails unique, unless the new email is empty (the empty string is not checked). |
| UsersService.PatchedEmailIsFree | api/src/users/users.service.ts:74-87 | After a successful update, the patched row's email differs from every other row's. |
| UsersService.Remove | api/src/users/users.service.ts:104-114 | An unknown id gives 404, and only an unknown id does. Otherwise the result is the deleted row, and exactly the rows with that id leave the table. |
| UsersService.CreateThenRemove | api/src/users/users.service.ts:13-114 | Registering a user and removing them gives back the store as it was. |
| UsersService.RemoveTwiceFails | api/src/users/users.service.ts:104-114 | A removed user cannot be removed again: the second call is a 404. |
| AccountsService.Create | api/src/accounts/accounts.service.ts:12-23 | One account is appended under a fresh id. If it is active, every other active account of the same user is deactivated. Nothing else changes, and other users' accounts are untouched. |
| AccountsService.CreateKeepsOneActive | api/src/accounts/accounts.service.ts:12-23 | Creating an account keeps each user at one active account at most. |
| AccountsService.FindCurrentAccount | api/src/accounts/accounts.service.ts:48-52 | The result is an active account of the user, and it is absent exactly when the user has none. When each user has at most one active account, it is that account. |
| AccountsService.CreateActiveBecomesCurrent | api/src/accounts/accounts.service.ts:12-23 | An account created active is what `findCurrentAccount` then finds. |
| AccountsService.Patched | api/src/accounts/accounts.service.ts:37-42 | An update keeps the id and sets `active` exactly when the patch gives it, and an empty patch changes nothing. |
| AccountsService.Update | api/src/accounts/accounts.service.ts:37-42 | A missing id throws Prisma's record-not-found, and only a missing id does. Otherwise exactly the row with that id is patched and returned. |
| AccountsService.UpdateCanLeaveTwoActive | api/src/accounts/accounts.service.ts:37-42 | `update` does not keep the one-active rule: activating a user's second account leaves two active accounts. |
| TransactionsService.GetTransactions | api/src/transactions/transactions.service.ts:10-15 | The result is a permutation of the rows the filter keeps (the same multiset), newest date first. |
| TransactionsService.CreateTransaction | api/src/transactions/transactions.service.ts:17-19 | Exactly one row is appended, under a fresh id, carrying the given data. |
| TransactionsService.RemoveTransaction | api/src/transactions/transactions.service.ts:21-29 | The call throws "Transaction not found" exactly when no row matches id, user and account together. Otherwise it answers `true`, removes exactly the matching rows, and leaves the table shorter. |
| TransactionsService.RemoveTwiceFails | api/src/transactions/transactions.service.ts:21-29 | The same removal made twice fails the second time. |
| TransactionsService.RemoveKeepsOthersRows | api/src/transactions/transactions.service.ts:22-24 | Another user's or another account's row survives even when its id matches. |
| TransactionsService.CreateThenRemove | api/src/transactions/transactions.service.ts:17-29 | A transaction created and then removed by its owner leaves the store as it was. |
| TransactionsService.CreateThenList | api/src/transactions/transactions.service.ts:10-19 | A created transaction is listed for its owner's account. |
| AuthGuard.ExtractToken | api/src/auth/guards/auth.guard.ts:41-44 | No header gives no token. Otherwise there is a token exactly when the first space-separated field is `Bearer` and a second field exists. The token is that second field and holds no space. |
| AuthGuard.ExtractBearer | api/src/auth/guards/auth.guard.ts:41-44 | `Bearer <token>` with a space-free token yields exactly that token, whatever follows after a further space. |
| AuthGuard.SchemeIsCaseSensitive | api/src/auth/guards/auth.guard.ts:43 | A lower-case `bearer` scheme yields no token. |
| AuthGuard.SchemeAloneHasNoToken | api/src/auth/guards/auth.guard.ts:42-43 | `Bearer` alone yields no token. |
| AuthGuard.DoubleSpaceGivesEmptyToken | api/src/auth/guards/auth.guard.ts:42-43 | Two spaces after the scheme yield the empty token. |
| AuthGuard.CanActivate | api/src/auth/guards/auth.guard.ts:19-39 | The guard answers "Missing Bearer token" exactly when the token is missing or empty. It answers "Invalid/expired token" exactly when the library rejects the token or its subject is not the configured one. It admits exactly a token verified with the configured subject, and hands that subject on. |
| AuthGuard.AdmittedCarriesBearer | api/src/auth/guards/auth.guard.ts:19-44 | Every admitted request sent a header starting with `Bearer `. |
| AuthGuard.WellFormedHeaderAdmitted | api/src/auth/guards/auth.guard.ts:19-32 | A well-formed `Bearer` header is admitted exactly when the library accepts its token with the configured subject. |
| AuthGuard.UnsetSubjectAdmitsSubjectless | api/src/auth/guards/auth.guard.ts:27-32 | With no subject configured, a verified token without `sub` is admitted. |
| LogWriter.Trim | api/src/common/utils/log-writer.ts:5 | `trim` gives the one slice of the input that has no white space at either end and only white space outside it. An all-white-space input gives the empty string. |
| LogWriter.Collapse | api/src/common/utils/log-writer.ts:5 | `replace(/\s+/g, ' ')` equals `Squeeze`, a per-character reference: a visible character is kept, and a white-space character becomes one space when it ends its run and vanishes when white space follows it. So each run becomes exactly one space. Every white space left is a plain space, no two are adjacent, and the non-space characters are kept in order. |
| LogWriter.Sanitize | api/src/common/utils/log-writer.ts:5 | `sanitize` is `Trim` of `Squeeze`: each run of white space becomes one space, then the ends are trimmed. The result is trimmed and collapsed, with the same non-space characters in order. |
| LogWriter.CollapseFixed | api/src/common/utils/log-writer.ts:5 | Collapsing an already collapsed string changes nothing. |
| LogWriter.TrimFixed | api/src/common/utils/log-writer.ts:5 | Trimming an already trimmed string changes nothing. |
| LogWriter.SanitizeIdempotent | api/src/common/utils/log-writer.ts:5 | Sanitizing twice is sanitizing once. |
| LogWriter.CleanMessageUnchanged | api/src/common/utils/log-writer.ts:5 | A trimmed, collapsed message is written as it is. |
| LogWriter.LogLine | api/src/common/utils/log-writer.ts:14-17 | The written text is `[timestamp] `, then the sanitized message, then one line feed. |
| LogWriter.OneLinePerCall | api/src/common/utils/log-writer.ts:14-17 | Each call writes exactly one line: the only line feed is the final one, whatever the message holds. |
| LogWriter.ReadBackIsClean | api/src/common/utils/log-writer.ts:15 | The message part of a written line is already sanitized. |
| MarketErrors.UnknownCodeMessage | api/src/market-data/utils/market-data-errors.ts:22-26 | The 404 message names the symbol code whenever one is given. |
| MarketErrors.MapMarketDataError | api/src/market-data/utils/market-data-errors.ts:14-45 | An error without a truthy response status is rethrown unchanged, and any other error is replaced. 401 and 403 map exactly to the credentials error, 404 to the unknown-code error, 429 to the rate limit, and 500 and up to "Proveedor de mercado no disponible". |
| MarketErrors.StatusIsReportedAs | api/src/market-data/utils/market-data-errors.ts:14-41 | Every truthy provider status reaches the client as 401, 404, 429, 503 or 502, decided by the status alone. |
| MarketErrors.OtherStatusNamesIt | api/src/market-data/utils/market-data-errors.ts:37-41 | Any other status gives a BadGateway whose message contains the status in decimal. |
| MarketData.ProviderKey | api/src/market-data/market-data.service.ts:43-47 | The key is the first truthy value among the override, the product's setting and the global setting. It is empty exactly when none of them is truthy. |
| MarketData.GetProviderForProduct | api/src/market-data/market-data.service.ts:39-56 | The result is the first registered provider under the resolved key. It is NotFound, with the product and key in the message, exactly when no provider has that key. |
| MarketData.GetLatestPrice | api/src/market-data/market-data.service.ts:26-34 | A failed resolution is passed on. Otherwise the answer is the chosen provider's own answer for the same code, product and exchange. |
| MarketData.OverrideWins | api/src/market-data/market-data.service.ts:43-47 | A truthy override decides the provider whatever the settings are. |
| MarketData.UnconfiguredIsNotFound | api/src/market-data/market-data.service.ts:43-54 | With nothing configured and no provider under the empty key, the lookup is NotFound. |
| MarketData.EnvOr | api/src/market-data/config.ts:3-7 | `process.env[name] \|\| fallback` is the variable's value when it is set and non-empty, and the fallback otherwise. |
| MarketData.SettingsFromEnv | api/src/market-data/config.ts:1-10 | The global provider and the stock, ETF and crypto settings are each read from their own variable, defaulting to `eodhd`. Only those three products have a per-product entry, and no setting is empty. |
| MarketData.DerivativeUsesGlobalProvider | api/src/market-data/config.ts:3-8 | A derivative has no per-product setting, so the global provider serves it. |
| Dtos.CreateEntryErrors | api/src/operations/dto/create-entry.dto.ts:6-26 | A create-entry body is refused on: entryType exactly when it is not `buy` or `sell`; quantity and price exactly when they are not finite numbers; tax exactly when it is present and not a finite number; date exactly when it is not a non-empty ISO date. |
| Dtos.AmountErrors | api/src/operations/dto/create-entry.dto.ts:11-21 | Quantity and price must be finite numbers, unless the body is an update and they are absent. Tax must be absent or a finite number. |
| Dtos.UpdateEntryErrors | api/src/operations/dto/update-entry.dto.ts:6-26 | In an update entry body each property is refused exactly when it is present and breaks its create rule. |
| Dtos.NegativeQuantityPasses | api/src/operations/dto/create-entry.dto.ts:11-17 | Zero and negative quantities and prices pass validation, since there is no sign rule. |
| Dtos.EmptyUpdatePasses | api/src/operations/dto/update-entry.dto.ts:6-26 | An empty update body passes. |
| Dtos.UpdateIsLaxer | api/src/operations/dto/update-entry.dto.ts:6-26 | Every property an update refuses, a create refuses too. |
| Dtos.CreateOperationErrors | api/src/operations/dto/create-operation.dto.ts:16-42 | A create-operation body is refused on: accountId and symbolId exactly when they are empty; product when it is outside crypto/stock/etf/derivative; type when it is not long or short; leverage when it is present and not a positive number with at most two decimals; firstEntry when it is present and fails its own rules. |
| Dtos.IdentityErrors | api/src/operations/dto/create-operation.dto.ts:17-31 | The rules on account, symbol, product and side, each refused exactly when it fails. |
| Dtos.SizingErrors | api/src/operations/dto/create-operation.dto.ts:33-41 | The leverage and nested first-entry rules, each refused exactly when it fails. |
| Dtos.LeverageRules | api/src/operations/dto/create-operation.dto.ts:33-36 | A leverage of 1.005 or 0 is refused, and 2.5 passes. |
| Dtos.CreateSymbolErrors | api/src/symbols/dto/create-symbol.dto.ts:6-28 | A create-symbol body is refused on code and name exactly when they are empty, and on product exactly when it is outside the four products. |
| Dtos.OptionalSymbolFieldsAreFree | api/src/symbols/dto/create-symbol.dto.ts:10-23 | The market code, provider, exchange and logo never decide whether a body passes. |
| Dtos.QueryErrors | api/src/analytics/dto/query.dto.ts:6-17 | A query is refused on period exactly when it is present and not one of the nine listed values, and on product exactly when it is present and not `trading` or `etf`. |
| Dtos.EffectivePeriod | api/src/analytics/analytics.controller.ts:28 | The period passed on, `query.period \|\| '30d'`, is always one the query accepts. |
| Dtos.AcceptedPeriodsWithoutCutoff | api/src/analytics/dto/query.dto.ts:8-9 | `1m`, `3m`, `6m` and `5y` pass validation, but the service knows no window for them and reports over all time. |
| Dtos.DefaultPeriod | api/src/analytics/analytics.controller.ts:28 | A query without a period is reported over the last thirty days. |
| SymbolsService.FindOne | api/src/symbols/symbols.service.ts:129-143 | The result is a stored symbol with that id, user and account. It is "Symbol with id … not found" exactly when there is none. |
| SymbolsService.MaxSortOrder | api/src/symbols/symbols.service.ts:51-54 | The maximum is absent exactly when the user has no symbol in the account. Otherwise it bounds every such symbol's order and is reached by one of them. |
| SymbolsService.Create | api/src/symbols/symbols.service.ts:31-65 | A code already used in the account, by any user, is a conflict, and only such a code is. Otherwise one row is appended under a fresh id with the given fields and no sync state. Its order is one past the user's largest in the account, or 0 for the first symbol. |
| SymbolsService.CreateKeepsCodesUnique | api/src/symbols/symbols.service.ts:36-49 | Creating a symbol keeps codes unique within each account. |
| SymbolsService.CreateThenFindOne | api/src/symbols/symbols.service.ts:57-64 | A symbol just created is found under its new id for its user and account. |
| SymbolsService.Patched | api/src/symbols/symbols.service.ts:182-185 | A patch never changes the id, owner, order or sync state. The code is the patch's when given, and an empty patch changes nothing. |
| SymbolsService.Update | api/src/symbols/symbols.service.ts:162-186 | The update fails exactly when the symbol is not the caller's (NotFound) or a truthy new code is used by another of the caller's symbols in the account (conflict). Otherwise exactly the rows with that id are patched. |
| SymbolsService.EmptyPatchChangesNothing | api/src/symbols/symbols.service.ts:162-186 | An empty patch of the caller's symbol writes nothing and answers the stored row. |
| SymbolsService.UpdateKeepsCodesUnique | api/src/symbols/symbols.service.ts:170-180 | When every account has one owner, the update's check keeps codes unique within the account. |
| SymbolsService.PatchedCodeIsFree | api/src/symbols/symbols.service.ts:170-185 | The patched row's code differs from every other row's in the account. |
| SymbolsService.Remove | api/src/symbols/symbols.service.ts:192-199 | A symbol that is not the caller's is NotFound. Otherwise exactly the rows with that id leave the table and the deleted row is answered. |
| SymbolsService.CreateThenRemove | api/src/symbols/symbols.service.ts:192-199 | Removing a symbol just created gives back the store as it was. |
| SymbolsService.ApplyOrdersUntouched | api/src/symbols/symbols.service.ts:115-122 | A row whose id is not in the list keeps its order. |
| SymbolsService.ApplyOrdersPosition | api/src/symbols/symbols.service.ts:115-122 | With no repeated id, the row named at list position k gets order k and nothing else changes in it. |
| SymbolsService.ApplyOrdersPositions | api/src/symbols/symbols.service.ts:115-122 | With no repeated id, every listed row takes its list position as its order, and every other row is untouched. |
| SymbolsService.ReorderSymbols | api/src/symbols/symbols.service.ts:99-123 | The call throws "Símbolos no encontrados o fuera de la cuenta activa" exactly when the caller's matching symbols are not as many as the list. Otherwise, with unique ids, each listed symbol gets its list position and every other row is untouched. |
| SymbolsService.FoundAreKnown | api/src/symbols/symbols.service.ts:104-107 | The ids the query finds are exactly the listed ids that name one of the caller's symbols. |
| SymbolsService.ReorderAccepted | api/src/symbols/symbols.service.ts:104-113 | With unique ids, the count check accepts exactly the lists that repeat no id and name only the caller's symbols. |
| SymbolsService.AddPrice | api/src/symbols/symbols.service.ts:204-221 | A symbol that is not the caller's is NotFound. Otherwise one price is appended under a fresh id, owned by that symbol, user and account, with the given price and day. |
| SymbolsService.GetPrices | api/src/symbols/symbols.service.ts:226-245 | The result is a permutation (the same multiset) of the caller's prices of the symbol dated no earlier than a year ago, newest first. A symbol that is not the caller's is NotFound. |
| SymbolsService.AddPriceThenGetPrices | api/src/symbols/symbols.service.ts:204-245 | A price added for a day within the last year is listed afterwards. |
| SymbolsService.OwnedPrice | api/src/symbols/symbols.service.ts:257-268 | A found price has that id and is the caller's price of that symbol. With unique price ids, nothing found means no such price. |
| SymbolsService.Repriced | api/src/symbols/symbols.service.ts:270-281 | The price and the day change only where the patch gives them, and the id and owner never change. |
| SymbolsService.UpdatePrice | api/src/symbols/symbols.service.ts:250-282 | With unique price ids, the edit fails exactly when the price is not the caller's price of that symbol, and fails as "Price with id … not found". Otherwise only the rows with that id are repriced. |
| SymbolsService.EmptyPricePatchChangesNothing | api/src/symbols/symbols.service.ts:270-281 | An empty price patch writes nothing. |
| SymbolsService.RemovePrice | api/src/symbols/symbols.service.ts:287-309 | With unique price ids, the delete fails exactly when the price is not the caller's price of that symbol. Otherwise exactly the rows with that id leave the table. |
| SymbolsService.AddThenRemovePrice | api/src/symbols/symbols.service.ts:287-309 | Removing a price just added gives back the store as it was. |
| SymbolsService.PriceMarketSync | api/src/symbols/symbols.service.ts:314-374 | An unknown id is NotFound, a symbol without a market code is "Market code no configurado", and a failing lookup passes its error on. The sync succeeds exactly when none of these happens. Every success marks the symbol "ok" with no error. It skips as "empty" exactly when there is no quote, and as "duplicate" exactly when a price of that symbol with the same day and price exists. Only otherwise is one price appended, owned by the symbol's user and account. |
| SymbolsService.MarkedRowFound | api/src/symbols/symbols.service.ts:335-338 | Marking a symbol's sync state does not change which row its id finds; only that row's sync fields change. |
| SymbolsService.SyncTwiceIsDuplicate | api/src/symbols/symbols.service.ts:342-356 | A second sync with the same provider answer adds no price. When the first one recorded or found the quote, the second reports a duplicate. |
| SymbolsService.OpenSymbolIds | api/src/symbols/symbols.service.ts:380-387 | The ids have no repeats and are exactly the symbols of the open operations. |
| SymbolsService.FailureMessage | api/src/symbols/symbols.service.ts:402-403 | The recorded error message is never empty. |
| SymbolsService.Synced | api/src/symbols/symbols.service.ts:398-409 | A handled symbol changes only in its sync fields. They become "ok" with no error when the sync went through, and "error" with the exception's message when it threw. |
| SymbolsService.SyncOneEffect | api/src/symbols/symbols.service.ts:398-409 | With unique ids, one turn of the job settles one symbol and touches no other row. Any price it adds belongs to that symbol. |
| SymbolsService.SyncOpenOperationsMarketPrices | api/src/symbols/symbols.service.ts:379-416 | After the job, each symbol of an open operation that has a market code and provider carries its own sync result. Every other symbol is unchanged. Prices are only appended, and each new one belongs to such a symbol. One failure does not stop the others. |
| Eodhd.OrEmpty | api/src/market-data/providers/eodhd-market-data.provider.ts:32-41 | A configured value is kept when it is truthy; a missing or empty one becomes the empty string. |
| Eodhd.Dispatch | api/src/market-data/providers/eodhd-market-data.provider.ts:52-61 | "crypto" and only "crypto" goes to the crypto fetcher, "etf" and only "etf" to the etf fetcher; every other product, "derivative" included, goes to the stock fetcher. |
| Eodhd.BuildEndpoint | api/src/market-data/providers/eodhd-market-data.provider.ts:214-225 | The endpoint is the crypto one for "crypto", the etf one for "etf", and the stock one for any other product. |
| Eodhd.NormalizedBase | api/src/market-data/providers/eodhd-market-data.provider.ts:232-234 | A base ending in a slash loses exactly that slash; any other base is kept. |
| Eodhd.NormalizedEndpoint | api/src/market-data/providers/eodhd-market-data.provider.ts:235-237 | The endpoint always starts with a slash, which is added only when it was missing. |
| Eodhd.WithSymbol | api/src/market-data/providers/eodhd-market-data.provider.ts:238-240 | The code replaces the first "{symbol}" placeholder when there is one, with its `$$`, `$&`, `` $` `` and `$'` patterns expanded as `String.prototype.replace` does. Otherwise the path ends in "/" and the code, with a slash added only when the endpoint lacks one. |
| Eodhd.BuildUrl | api/src/market-data/providers/eodhd-market-data.provider.ts:231-242 | The URL starts with the normalized base. Then comes the endpoint, with the code either substituted for the first placeholder, its `$`-patterns expanded, or appended after exactly one slash. A slash is added only when the endpoint does not already end with one. |
| Eodhd.BuildUrlJoinsOnce | api/src/market-data/providers/eodhd-market-data.provider.ts:231-242 | For every base ending in a slash and every endpoint with no slash at either end and no placeholder, the URL is the base, the endpoint, one slash and the code: the base's slash is the only joining slash. |
| Eodhd.BuildUrlKeepsTrailingSlash | api/src/market-data/providers/eodhd-market-data.provider.ts:231-242 | For every endpoint that starts and ends with a slash and has no placeholder, the code follows the endpoint directly, without a second slash. |
| Eodhd.MatchPatternExpands | api/src/market-data/providers/eodhd-market-data.provider.ts:239 | A symbol code `A$&B` puts the placeholder back: `/eod/{symbol}` becomes `/eod/A{symbol}B`. |
| Eodhd.DollarPatternExpands | api/src/market-data/providers/eodhd-market-data.provider.ts:239 | A symbol code `X$$Y` gives a single dollar: `/eod/{symbol}` becomes `/eod/X$Y`. |
| Text.ReplaceFirst | api/src/market-data/providers/eodhd-market-data.provider.ts:239 | `replace` with a string pattern changes only the first occurrence, into the expanded replacement, and leaves a string without the pattern unchanged. A replacement without `$` is inserted as it is. |
| Text.Substitution | api/src/market-data/providers/eodhd-market-data.provider.ts:239 | The replacement text is expanded as ECMAScript's GetSubstitution does for a string pattern. A replacement without `$` is unchanged. |
| Text.SubstitutionLiteralPrefix | api/src/market-data/providers/eodhd-market-data.provider.ts:239 | For every replacement, text without `$` at its front is copied unchanged and the rest is expanded after it. |
| Text.SubstitutionPatterns | api/src/market-data/providers/eodhd-market-data.provider.ts:239 | For every character after a `$`: `$$` gives `$`, `$&` the match, `` $` `` the text before it and `$'` the text after it; any other character leaves the `$` in place. |
| Eodhd.QueryFor | api/src/market-data/providers/eodhd-market-data.provider.ts:124-129 | The query always starts with the token and the json format. It names a type exactly for etf and crypto, and an exchange exactly when a truthy one is passed. |
| Eodhd.RequestFor | api/src/market-data/providers/eodhd-market-data.provider.ts:122-129 | A fetcher's request goes to the URL of its product's endpoint with the query above. |
| Eodhd.ExtractQuote | api/src/market-data/providers/eodhd-market-data.provider.ts:141-158 | A non-array or empty answer gives no quote. Otherwise the quote exists exactly when the last row has a truthy close date and a present close, and then it carries that row's close and day. |
| Eodhd.OnlyLastRowCounts | api/src/market-data/providers/eodhd-market-data.provider.ts:141-152 | Rows before the last one never change the quote. |
| Eodhd.Fetch | api/src/market-data/providers/eodhd-market-data.provider.ts:114-159 | An incomplete config throws BadRequest before any request. A failed request is rethrown through the market-data error mapping. A successful one is read as above. |
| Eodhd.CryptoHasNoExchange | api/src/market-data/providers/eodhd-market-data.provider.ts:52-58 | A crypto request never carries an exchange, since the crypto fetcher is called without one. Stock and etf requests carry it exactly when it is truthy. |
| Eodhd.RetryFrom | api/src/market-data/providers/eodhd-market-data.provider.ts:274-281 | A success is the first successful attempt from that point on. A failure means every remaining attempt failed, and the last one's error is the one thrown. |
| Eodhd.WithRetry | api/src/market-data/providers/eodhd-market-data.provider.ts:272-282 | The lookup succeeds exactly when one of the three attempts does; otherwise it throws the third attempt's error. |
| Eodhd.ExecuteWithRetry | api/src/market-data/providers/eodhd-market-data.provider.ts:272-282 | The loop makes between one and three tries and stops at the first success. Every earlier try failed, and a failure means all three were made. |
| Eodhd.AsProvider | api/src/market-data/providers/eodhd-market-data.provider.ts:21 | The provider registers under the key "eodhd". |
| Eodhd.IncompleteConfigIsBadRequest | api/src/market-data/providers/eodhd-market-data.provider.ts:46-74 | With the base URL, the token or the product's endpoint missing, every attempt throws the same BadRequest, and so does the lookup. |
| Eodhd.AttemptReadsAnswer | api/src/market-data/providers/eodhd-market-data.provider.ts:76-108 | With a complete config and a successful answer, an attempt returns the quote read from the dispatched request's answer. |
| Eodhd.SecondTrySucceeds | api/src/market-data/providers/eodhd-market-data.provider.ts:272-282 | A failing first attempt followed by a successful second one yields the second one's answer. |
| Metrics.NetInvested | api/src/analytics/analytics.service.ts:68-74 | The buy total minus the sell total is the signed sum over the entries: each buy adds its notional and each sell takes it back, whatever the order. |
| Metrics.NetInvestedIsSigned | api/src/analytics/analytics.service.ts:68-74 | The two filtered sums and the single signed sum always agree. |
| Metrics.AvgBuyPrice | api/src/analytics/analytics.service.ts:160 | With a positive bought quantity, the average price times that quantity is the amount paid. Otherwise the average is 0. |
| Metrics.Unrealized | api/src/analytics/analytics.service.ts:164-168 | A long gains the price times the held quantity minus the cost basis. Any other kind gains the reverse. |
| Metrics.LongShortMirror | api/src/analytics/analytics.service.ts:164-168 | A long and a non-long position on the same entries and price have opposite results. |
| Metrics.UnrealizedAtAverage | api/src/analytics/analytics.service.ts:160-168 | Priced at the average buy price, a position neither gains nor loses, long or short. |
| Metrics.NetInvestedExample | api/src/analytics/analytics.service.spec.ts:59-71 | Ten bought at 100 and two sold at 110 leave 780 invested. |
| Metrics.UnrealizedExamples | api/src/analytics/analytics.service.spec.ts:142-180 | Ten bought at 100: a long priced at 120 is up 200, and a short priced at 90 is up 100. |
| Analytics.DateFromPeriod | api/src/analytics/analytics.service.ts:23-38 | Only "7d", "30d", "90d" and "1y" have a cutoff: 7, 30 or 90 days back, or one calendar year back. On a valid clock the cutoff lies within the last 366 days. |
| Analytics.UnknownPeriodsHaveNoCutoff | api/src/analytics/analytics.service.ts:34-36 | "all" and the codes the service does not know report over the whole history. |
| Analytics.GetAccountBalance | api/src/analytics/analytics.service.ts:43-84 | The total is the sum of the scope's transactions. The invested amount is the net investment summed over the scope's open operations. Available cash is the first minus the second. |
| Analytics.TotalInvestedIsEntrySum | api/src/analytics/analytics.service.ts:56-75 | With unique operation ids, the invested amount is the signed sum of the entries of the scope's open operations, each entry counted once. |
| Analytics.Realized | api/src/analytics/analytics.service.ts:106-118 | The realized result sums the closed balances, with null taken as 0. Winners have a positive balance and losers a negative one, so together they never exceed the count. The win rate is a percentage between 0 and 100, and 0 with no operations. |
| Analytics.WinRate | api/src/analytics/analytics.service.ts:117-118 | The rate times the count is the winners times 100, and it is 0 when there is nothing to count. |
| Analytics.RealizedExample | api/src/analytics/analytics.service.spec.ts:116-133 | Balances 150, -50 and 200 give 300 realized, two winners, one loser and a two-in-three win rate. |
| Analytics.PriceHistory | api/src/analytics/analytics.service.ts:129-133 | The history is a sub-multiset of the symbol's own prices, newest first, with as many as exist up to n. Its first price is the newest of the symbol, and no own price it leaves out is newer than its last one, so it keeps the n newest. A missing symbol has none. |
| Analytics.LatestPrice | api/src/analytics/analytics.service.ts:141 | The latest price is the price of one of the symbol's newest-dated rows. It is missing exactly when the symbol is gone or has no price. |
| Analytics.PaperPnL | api/src/analytics/analytics.service.ts:140-168 | An open operation adds its paper result at the latest price only when that price is truthy and a positive quantity is held; otherwise it adds nothing. |
| Analytics.PaperCost | api/src/analytics/analytics.service.ts:152-162 | Under the same condition an open operation adds its cost basis to the current investment, and otherwise nothing. |
| Analytics.Percentage | api/src/analytics/analytics.service.ts:172-175 | A positive whole gives a percentage that, times the whole, is the part times 100. Any other whole gives 0. |
| Analytics.GetPerformance | api/src/analytics/analytics.service.ts:89-186 | The realized figures cover the closed operations updated within the window, and the win rate is winners over those operations times 100, or 0 when there are none. The unrealized result covers every open operation of the scope, whatever the window. The total is their sum, and its percentage is taken over the current investment. |
| Analytics.UnvaluedOperationsIgnored | api/src/analytics/analytics.service.ts:140-154 | Open operations without a symbol or price, with a zero price, or with nothing held change neither the unrealized result nor the investment. |
| Analytics.Sparkline | api/src/analytics/analytics.service.ts:239-241 | The sparkline is the price history reversed, so it reads oldest first. |
| Analytics.GetSymbolsRanking | api/src/analytics/analytics.service.ts:191-296 | There is one row per symbol of the scope's operations whose symbol exists, and every such operation is covered. Each row aggregates exactly its symbol's operations, carries the code, name, logo and product of its symbol, and has as sparkline the symbol's 30 newest prices, oldest first. Rows are ordered by total result, best first. |
| Analytics.RankingCoversEveryOperation | api/src/analytics/analytics.service.ts:220-249 | The row counts add up to the number of ranked operations, and the rows' realized results add up to the operations' closed balances. |
| Analytics.ProductLabel | api/src/analytics/analytics.service.ts:314-328 | crypto, stock and etf get their Spanish labels; any other product is labelled with its own name. |
| Analytics.GetProductDistribution | api/src/analytics/analytics.service.ts:301-359 | There is one row per product of the scope's open operations, each aggregating exactly that product's operations, largest investment first. The rows' investments add up to the invested amount of the account balance, and each percentage is the row's share of that total. |
| Analytics.PercentagesSumTo100 | api/src/analytics/analytics.service.ts:348-356 | The percentages of a distribution add up to 100 when anything is invested, and are all 0 otherwise. |
| Analytics.Interval | api/src/analytics/analytics.service.ts:392-393 | Points are a day apart for 7d and 30d, a week apart for 90d, and 30 days apart for any other period. |
| Analytics.EvolutionStart | api/src/analytics/analytics.service.ts:369-372 | The series starts at the window's cutoff, or one year ago when the period has none. |
| Analytics.EvolutionEntries | api/src/analytics/analytics.service.ts:375-389 | The series reads exactly the scope's entries dated on or after the start, whatever their operation's status, oldest first. |
| Analytics.GetPortfolioEvolution | api/src/analytics/analytics.service.ts:364-426 | Points run from the start in steps of the interval up to today and no further. Each point's investment is the signed notional of every entry dated on or before it. Its value equals its investment and its result is 0. |
| Analytics.Series | api/src/analytics/analytics.service.ts:397-423 | Given entries dated on or after the start, each point carries the running signed notional of the entries dated up to it. |
| Analytics.CatchUp | api/src/analytics/analytics.service.ts:404-413 | One pass adds each entry dated after the previous point and on or before the current one, exactly once, and marks it counted. |
| Analytics.PointIsEntrySum | api/src/analytics/analytics.service.ts:404-413 | A point's investment is the signed sum of exactly the entries dated on or before it. |
| OperationsService.EntryRow | api/src/operations/operations.service.ts:117-123 | The stored entry carries the new id, the operation's id and the input's type, quantity, price, tax and date. |
| OperationsService.Create | api/src/operations/operations.service.ts:19-51 | A missing or empty user id is rejected before any write. Otherwise one open operation with no balance and a fresh id is appended, with the input's fields and the creation time. A first entry, when given, is stored with it, both or neither. No other table changes. |
| OperationsService.FindAll | api/src/operations/operations.service.ts:56-77 | The list is a permutation (the same multiset) of the user's stored operations that pass each truthy filter, newest first. |
| OperationsService.FindAllUnfiltered | api/src/operations/operations.service.ts:62-76 | With no optional filter, the list holds all of the user's operations, each as often as it is stored. |
| OperationsService.OperationEntries | api/src/operations/operations.service.ts:88-90 | The detail's entries are a permutation (the same multiset) of the operation's entries, oldest first. |
| OperationsService.OperationPrices | api/src/operations/operations.service.ts:91-93 | The detail's prices are a permutation (the same multiset) of the prices recorded against the operation, newest first. |
| OperationsService.FindOne | api/src/operations/operations.service.ts:82-102 | An unknown id is NotFound. A known one gives that operation with a permutation of its entries, oldest first, and a permutation of its prices, newest first. |
| OperationsService.AddEntry | api/src/operations/operations.service.ts:108-124 | An unknown operation is NotFound. Otherwise one entry with a fresh id, linked to the operation, is appended and nothing else changes. The operation's status and balance stay as they were. |
| OperationsService.AddEntryMovesNetInvested | api/src/operations/operations.service.ts:108-124 | An added entry moves its operation's net investment by the entry's signed notional and leaves every other operation's alone. |
| OperationsService.RemoveEntry | api/src/operations/operations.service.ts:129-141 | The call succeeds exactly when the entry exists and belongs to that operation. An unknown entry and another operation's entry are both NotFound. On success only that entry leaves the table. |
| OperationsService.AddThenRemoveEntry | api/src/operations/operations.service.ts:108-141 | Removing an entry right after adding it restores the store. |
| OperationsService.AddPrice | api/src/operations/operations.service.ts:146-165 | An unknown operation is NotFound. Otherwise one price with a fresh id is recorded against the operation and nothing else changes. |
| OperationsService.AddPriceShowsInDetail | api/src/operations/operations.service.ts:82-165 | A price just added is listed in the operation's detail. |
| OperationsService.Remove | api/src/operations/operations.service.ts:170-182 | An unknown id is NotFound. Otherwise exactly the operation with that id leaves the table and no other table changes. |
| OperationsService.CreateThenRemove | api/src/operations/operations.service.ts:19-182 | Creating an operation without a first entry and removing it again restores the store. |
| OperationsService.CreateKeepsKeysUnique | api/src/operations/operations.service.ts:19-51 | Creating an operation keeps every table's primary keys unique. |
| OperationsService.AddEntryKeepsKeysUnique | api/src/operations/operations.service.ts:108-124 | Adding an entry keeps every table's primary keys unique. |
| OperationsService.AddPriceKeepsKeysUnique | api/src/operations/operations.service.ts:146-165 | Adding a price keeps every table's primary keys unique. |
| OperationsService.RemovalsKeepKeysUnique | api/src/operations/operations.service.ts:129-182 | Removing an entry or an operation keeps every table's primary keys unique. |
| OperationsStore.CreateOperation | app/src/modules/operations/OperationsStore.ts:167-181 | On success the created operation is put at the front and the rest of the list keeps its order. On failure only the error message is set. The API's answer or error is passed on. |
| OperationsStore.DeleteOperation | app/src/modules/operations/OperationsStore.ts:186-202 | On success the list keeps exactly the operations with another id, in list order and as often as they occur, and the error is cleared. The open operation is closed exactly when it is the deleted one. On failure only the error message is set. |
| OperationsStore.Merge | app/src/modules/operations/OperationsStore.ts:279 | Spreading the answer over the element makes every key the answer carries win, and an optional key it lacks keeps the element's value. |
| OperationsStore.UpdateOperationStatus | app/src/modules/operations/OperationsStore.ts:272-292 | On success only the first operation with that id is merged with the answer, and the open operation is replaced by the answer when it is that one. On failure only the error message is set. |
| OperationsStore.MergeIdempotent | app/src/modules/operations/OperationsStore.ts:279 | Merging the same answer twice is merging it once. |
| OperationsStore.MergeCompleteAnswer | app/src/modules/operations/OperationsStore.ts:279 | An answer that carries every optional key replaces the element outright. |
| OperationsStore.StatusChangeKeepsMetrics | app/src/modules/operations/OperationsStore.ts:276-280 | A status answer without metrics sets the new status but keeps the metrics the list element had. |
| OperationsStore.CreateThenDelete | app/src/modules/operations/OperationsStore.ts:167-202 | Deleting an operation just created, under an id the list did not hold, gives back the list as it was. |
| OperationsStore.OpenOperations | app/src/modules/operations/OperationsStore.ts:313-315 | The open getter lists exactly the operations whose status is "open", in list order, each as many times as the list holds it. |
| OperationsStore.ClosedOperations | app/src/modules/operations/OperationsStore.ts:320-322 | The closed getter lists exactly the operations whose status is "closed", in list order, each as many times as the list holds it. |
| OperationsStore.TotalBalanceSplits | app/src/modules/operations/OperationsStore.ts:327-337 | The total is the closed operations' balances (missing counts 0) plus the open operations' unrealized results (missing or null counts 0). |
| OperationsStore.OtherStatusAddsNothing | app/src/modules/operations/OperationsStore.ts:328-336 | An operation whose status is neither open nor closed leaves the total unchanged. |
| OperationsStore.MissingValuesCountZero | app/src/modules/operations/OperationsStore.ts:330-333 | A closed operation without a balance, or an open one without an unrealized result, adds 0. |
| OperationsStore.OperationsBySymbol | app/src/modules/operations/OperationsStore.ts:342-352 | There is one group per symbol in first-appearance order, covering every operation. Each group holds exactly its symbol's operations, in list order. |
| OperationsStore.OperationInItsSymbolGroup | app/src/modules/operations/OperationsStore.ts:342-352 | Each operation sits in a group, and only in the group of its own symbol. |
| OperationsStore.GroupsAddUpToTotal | app/src/modules/operations/OperationsStore.ts:327-352 | The group totals add up to the store's total balance. |
| SymbolsStore.CreateSymbol | app/src/modules/symbols/SymbolsStore.ts:168-182 | On success the created symbol goes to the front and the error is cleared. On failure only the error message is set. The answer or error is passed on. |
| SymbolsStore.UpdateSymbol | app/src/modules/symbols/SymbolsStore.ts:187-207 | On success the answer replaces only the first symbol with that id, and the open symbol when it is that one. On failure only the error message is set. |
| SymbolsStore.DeleteSymbol | app/src/modules/symbols/SymbolsStore.ts:212-228 | On success the list keeps exactly the symbols with another id, in list order and as often as they occur, and the error is cleared. The open symbol is closed exactly when it is the deleted one. On failure only the error message is set. |
| SymbolsStore.CreateThenDelete | app/src/modules/symbols/SymbolsStore.ts:168-228 | Deleting a symbol just created, under an id the list did not hold, gives back the list as it was. |
| SymbolsStore.UpdateThenFind | app/src/modules/symbols/SymbolsStore.ts:187-198 | After an update answered with a row of the same id, looking the id up finds the new row. |
| SymbolsStore.Position | app/src/modules/symbols/SymbolsStore.ts:259-262 | The position map gives the last index at which an id appears in the list of ids, and nothing for an unlisted id. |
| SymbolsStore.Renumber | app/src/modules/symbols/SymbolsStore.ts:268-271 | Each symbol keeps its fields except its sort order, which becomes its index. |
| SymbolsStore.Reordered | app/src/modules/symbols/SymbolsStore.ts:258-271 | The optimistic list is a permutation of the previous one, and every sort order equals its index. |
| SymbolsStore.ReorderSymbols | app/src/modules/symbols/SymbolsStore.ts:257-280 | When the API accepts, the list is the reordered one. When it fails, the list is exactly the previous one and the error is rethrown. |
| SymbolsStore.ByPositionAgrees | app/src/modules/symbols/SymbolsStore.ts:260-267 | When every symbol is listed in the ids, the comparator is the difference of their positions. |
| SymbolsStore.ReorderFollowsIds | app/src/modules/symbols/SymbolsStore.ts:259-267 | When the ids list every symbol, the new order follows their positions in the ids. |
| SymbolsStore.OfProduct | app/src/modules/symbols/SymbolsStore.ts:391-407 | The crypto, stock and etf getters keep exactly the symbols of that product, in list order and as often as they occur. |
| SymbolsStore.SymbolsByProduct | app/src/modules/symbols/SymbolsStore.ts:412-422 | There is one group per product, in first-appearance order, and each group holds exactly that product's symbols, in list order. |
| SymbolsStore.SymbolInItsProductGroup | app/src/modules/symbols/SymbolsStore.ts:412-422 | Each symbol sits in a group, and only in the group of its own product. |
| SymbolsStore.GetSymbolByCode | app/src/modules/symbols/SymbolsStore.ts:427-429 | The lookup finds the first symbol with that code, and nothing exactly when no symbol has it. |
| SymbolsStore.CreateThenGetByCode | app/src/modules/symbols/SymbolsStore.ts:168-429 | A symbol just created is what its code finds. |
| TransactionsStore.FetchTransactions | app/src/modules/transactions/TransactionsStore.ts:33-39 | On success the list is replaced by the answer and the balance is the sum of its amounts. A failed call changes nothing. |
| TransactionsStore.GroupedByMonth | app/src/modules/transactions/TransactionsStore.ts:64-87 | There is one group per month-year key, in first-appearance order, holding exactly that key's transactions in list order. Each group is labelled by its first transaction, has the sum of its amounts as balance, and is open only when it is the first group. |
| TransactionsStore.TransactionInItsMonth | app/src/modules/transactions/TransactionsStore.ts:67-82 | Each transaction sits in a group, and only in groups of its own month and year. |
| TransactionsStore.MonthKeysDistinct | app/src/modules/transactions/TransactionsStore.ts:74-81 | No two groups share a key. |
| TransactionsStore.GroupBalancesAddUp | app/src/modules/transactions/TransactionsStore.ts:36-83 | After a fetch, the group balances add up to the store's balance. |
| TransactionsStore.OnlyFirstGroupOpen | app/src/modules/transactions/TransactionsStore.ts:66-84 | An empty list has no groups. Otherwise only the first group is open, and it holds the first transaction. |

## Left out

- Controllers, guards' wiring, modules and the dashboard fan-out (`getDashboard`) are left out. They only route requests to the functions modelled here.
- Floating point is left out. Money is `real`, so the rounding of doubles and the `toFixed(2)` of the transactions store's `getBalance` are not reproduced. The 66.666… win rate of the tests is exact here.
- `Number(...)` coercion of stored decimals, and the NaN it can produce, is left out. Quantities, prices and balances are already numbers.
- Dates are whole days. `dayjs`, time zones, the 23:00 close time and ISO rendering of the series dates are left out.
- Files, the network and the clock are parameters or left out. This covers the append of `appendLog`, axios, `new Date()` and `toLocaleString`, which is a month-name parameter.
- Console logging is left out.
- Several reads are left out because they only forward a query to Prisma: `findAll`, `search` and `findByCode` of the symbols service; `findAll` and `findBy` of the accounts service; `findAll`, `findOne` and `findBy` of the users service.
- The accounts service's `remove` is left out. It forwards a delete by id to Prisma, whose cascades are not modelled either.
- Prisma is left out: its order among rows that tie on the sort key, schema defaults, cascading deletes and its own constraint errors. Rows that tie keep table order here.
- `toBoolean` is not part of this model. The account's `active` flag arrives already coerced.
- Request validation is modelled as functions listing the failing properties, but no validation pipe is registered in the program (api/src/main.ts only creates the application and listens on the configured port), so these rules never run there. The services' typed inputs assume what the program does not check: an entry type that is buy or sell, numeric quantities and prices, present required fields. A body that breaks these reaches the database unvalidated in the program, and is not representable in the model.
- The transaction's `origin` and `description` columns are left out. No modelled operation reads them, and they are passed through to the database unchanged.
- Analytics.ProductLabel: a product named like a key inherited from JavaScript's `Object.prototype` (such as "constructor") is not modelled. The source then gets the inherited value instead of the product's own name, while the model labels it with its name. Products reach the service unvalidated.
- SymbolsStore.SymbolsByProduct: a product named like an inherited `Object.prototype` key is not modelled. In the source `grouped[product]` is then already truthy, and the `push` throws. The model forms an ordinary group.
- The `leverage` of an operation body is validated but never stored.
- Explicit `null` versus missing keys in patch bodies is collapsed to one "absent" value.
- The client stores' `loading` flag, `manualMarketSync`, the fetch actions, the entry actions and the `clear*` actions are left out. They are API plumbing with no list logic.
- The transactions store's `deleteTransaction` and `saveTransaction` are left out. They forward to the API without touching the state.
- The key order of a JavaScript object whose keys look like integers is left out. Group keys are ids, products and month names here.
- The client operation's `symbol`, `entries`, `totalFees` and `createdAt` keys are left out. No getter reads them.
- The EODHD retry count is the constant 3, and the provider's console output is left out.
- SymbolsService.FailureMessage: an error's `response.data.message` is not modelled, because the errors of the model carry one message. Only that message and the "Unknown error" fallback are.
- UsersService.Update: the database's unique-email constraint is not modelled. An empty email held by somebody else is written instead of failing in the database.
- AccountsService.Create: the deactivation and the insert are two writes outside a transaction. The model makes them one step.
- Dtos.SizingErrors: `maxDecimalPlaces` counts digits of the exact decimal value, not of JavaScript's rendering of a double.
- Analytics.GetPortfolioEvolution: the point dates are day numbers, not ISO strings, and the "1y" start is the clock's one-year-ago day.
- OperationsService.FindAll: the joined `symbol` and `account` rows are not part of the result, and rows with equal creation times keep table order.

=== FILE: accounts_service.dfy ===
/** The accounts service: a user's trading accounts, at most one of which
    is meant to be active. Only `create` keeps that rule; `update` writes
    whatever it is given. */
module AccountsService {
  import opened Common
  import opened Entities

  /** A `CreateAccountDto` with the caller's `userId` merged in, after
      `balance` and `active` are coerced to a number and a boolean. */
  datatype NewAccount = NewAccount(userId: string, name: string, balance: real, active: bool)

  /** The fields of an update body; `None` leaves a column as it is. */
  datatype AccountPatch = AccountPatch(
    userId: Option<string>,
    name: Option<string>,
    balance: Option<real>,
    active: Option<bool>)

  function AccountIds(db: Db): seq<string> { Map(db.accounts, AccountId) }

  /** Every user has at most one active account. */
  ghost predicate OneActivePerUser(accounts: seq<Account>) {
    forall i, j ::
      (0 <= i < |accounts| && 0 <= j < |accounts| && accounts[i].active && accounts[j].active
       && accounts[i].userId == accounts[j].userId) ==> i == j
  }

  /** `updateMany({ where: { userId, active: true }, data: { active: false } })`. */
  function Deactivate(userId: string): Account -> Account {
    (a: Account) => if a.userId == userId && a.active then a.(active := false) else a
  }

  /** Inserts the account; when it is active, every other active account of
      the same user is deactivated first, and nothing else changes. */
  function Create(db: Db, input: NewAccount): (r: Stored<Account>)
    ensures r.value.id !in AccountIds(db)
    ensures r.value == Account(r.value.id, input.userId, input.name, input.balance, input.active)
    ensures |r.db.accounts| == |db.accounts| + 1 && r.db.accounts[|db.accounts|] == r.value
    ensures forall i :: 0 <= i < |db.accounts| && db.accounts[i].userId != input.userId ==>
      r.db.accounts[i] == db.accounts[i]
    ensures !input.active ==> r.db.accounts[..|db.accounts|] == db.accounts
    ensures input.active ==> forall i :: 0 <= i < |db.accounts| ==>
      r.db.accounts[i] == db.accounts[i].(active := db.accounts[i].active && db.accounts[i].userId != input.userId)
    ensures input.active ==> forall i ::
      (0 <= i < |r.db.accounts| && r.db.accounts[i].userId == input.userId && r.db.accounts[i].active) ==> i == |db.accounts|
    ensures r.db == db.(accounts := r.db.accounts)
  {
    var before := if input.active then Map(db.accounts, Deactivate(input.userId)) else db.accounts;
    assert !input.active ==> (db.accounts + [Account(FreshId(AccountIds(db)), input.userId, input.name, input.balance, input.active)])[..|db.accounts|] == db.accounts;
    var a := Account(FreshId(AccountIds(db)), input.userId, input.name, input.balance, input.active);
    Stored(db.(accounts := before + [a]), a)
  }

  /** `create` keeps every user at one active account at most. */
  lemma CreateKeepsOneActive(db: Db, input: NewAccount)
    requires OneActivePerUser(db.accounts)
    ensures OneActivePerUser(Create(db, input).db.accounts)
  {
    var after := Create(db, input).db.accounts;
    var n := |db.accounts|;
    forall i, j | 0 <= i < |after| && 0 <= j < |after| && after[i].active && after[j].active
                  && after[i].userId == after[j].userId
      ensures i == j
    {
      if i < n && j < n {
        assert db.accounts[i].active && db.accounts[j].active;
      }
    }
  }

  /** The first active account of the user, if there is one. */
  function FindCurrentAccount(db: Db, userId: string): (r: Option<Account>)
    ensures r.Some? ==> r.value in db.accounts && r.value.userId == userId && r.value.active
    ensures r.None? <==> forall i :: 0 <= i < |db.accounts| ==> !(db.accounts[i].userId == userId && db.accounts[i].active)
    ensures r.Some? && OneActivePerUser(db.accounts) ==>
      forall i :: 0 <= i < |db.accounts| && db.accounts[i].userId == userId && db.accounts[i].active ==> db.accounts[i] == r.value
  {
    var r := FindFirst(db.accounts, (a: Account) => a.userId == userId && a.active);
    assert r.Some? && OneActivePerUser(db.accounts) ==>
      forall i :: 0 <= i < |db.accounts| && db.accounts[i].userId == userId && db.accounts[i].active ==> db.accounts[i] == r.value
    by {
      if r.Some? && OneActivePerUser(db.accounts) {
        var k :| 0 <= k < |db.accounts| && db.accounts[k] == r.value;
        forall i | 0 <= i < |db.accounts| && db.accounts[i].userId == userId && db.accounts[i].active
          ensures db.accounts[i] == r.value
        {
          assert i == k;
        }
      }
    }
    r
  }

  /** An account created active becomes the user's current account. */
  lemma CreateActiveBecomesCurrent(db: Db, input: NewAccount)
    requires input.active
    ensures var s := Create(db, input);
      FindCurrentAccount(s.db, input.userId) == Some(s.value)
  {
    var s := Create(db, input);
    var k := |db.accounts|;
    assert s.db.accounts[k].userId == input.userId && s.db.accounts[k].active;
  }

  const RecordNotFound := "Record to update not found."

  /** The row with every given field of the patch written over it. */
  function Patched(a: Account, p: AccountPatch): (b: Account)
    ensures b.id == a.id
    ensures b.active == (if p.active.Some? then p.active.value else a.active)
    ensures p == AccountPatch(None, None, None, None) ==> b == a
  {
    a.(userId := p.userId.GetOr(a.userId), name := p.name.GetOr(a.name),
       balance := p.balance.GetOr(a.balance), active := p.active.GetOr(a.active))
  }

  function PatchRow(id: string, p: AccountPatch): Account -> Account {
    (a: Account) => if a.id == id then Patched(a, p) else a
  }

  /** `accounts.update({ where: { id }, data })`: a missing id throws, and
      otherwise the patch is written with no check of the single-active
      rule and no check of the owner. */
  function Update(db: Db, id: string, patch: AccountPatch): (r: Result<Stored<Account>>)
    ensures r.Err? <==> forall i :: 0 <= i < |db.accounts| ==> db.accounts[i].id != id
    ensures r.Err? ==> r.error == Thrown(RecordNotFound)
    ensures r.Ok? ==> exists i :: 0 <= i < |db.accounts| && db.accounts[i].id == id && r.value.value == Patched(db.accounts[i], patch)
    ensures r.Ok? ==>
      && |r.value.db.accounts| == |db.accounts|
      && (forall i :: 0 <= i < |db.accounts| ==>
            r.value.db.accounts[i] == if db.accounts[i].id == id then Patched(db.accounts[i], patch) else db.accounts[i])
      && r.value.db == db.(accounts := r.value.db.accounts)
  {
    match FindFirst(db.accounts, (a: Account) => a.id == id)
    case None => Err(Thrown(RecordNotFound))
    case Some(a) => Ok(Stored(db.(accounts := Map(db.accounts, PatchRow(id, patch))), Patched(a, patch)))
  }

  /** `update` does not keep the rule `create` keeps: activating a second
      account of a user leaves two active accounts. */
  lemma UpdateCanLeaveTwoActive()
    ensures var db := Db([], [], [], [], [], [Account("a", "u", "main", 0.0, true), Account("b", "u", "spare", 0.0, false)], []);
      && OneActivePerUser(db.accounts)
      && Update(db, "b", AccountPatch(None, None, None, Some(true))).Ok?
      && !OneActivePerUser(Update(db, "b", AccountPatch(None, None, None, Some(true))).value.db.accounts)
  {
    var db := Db([], [], [], [], [], [Account("a", "u", "main", 0.0, true), Account("b", "u", "spare", 0.0, false)], []);
    assert "a" != "b" by { assert "a"[0] != "b"[0]; }
    var after := Update(db, "b", AccountPatch(None, None, None, Some(true))).value.db.accounts;
    assert after[0].active && after[1].active && after[0].userId == after[1].userId;
  }
}

=== FILE: analytics.dfy ===
/** The dashboard queries of the analytics service, as pure functions of the
    store and the clock. */
module Analytics {
  import opened Common
  import opened Entities
  import opened Metrics
  import opened Sorting
  import opened Grouping

  // ---------------------------------------------------------------------
  // Periods and scope

  /** The start of the reporting window for a period code: 7, 30 or 90 days
      back, one calendar year back, or no cutoff at all for "all" and every
      other code. */
  function DateFromPeriod(period: string, clock: Clock): (r: Option<int>)
    ensures r.Some? <==> period in ["7d", "30d", "90d", "1y"]
    ensures period == "7d" ==> r == Some(clock.now - 7)
    ensures period == "30d" ==> r == Some(clock.now - 30)
    ensures period == "90d" ==> r == Some(clock.now - 90)
    ensures period == "1y" ==> r == Some(clock.oneYearAgo)
    ensures ValidClock(clock) && r.Some? ==> clock.now - 366 <= r.value < clock.now
  {
    if period == "7d" then Some(clock.now - 7)
    else if period == "30d" then Some(clock.now - 30)
    else if period == "90d" then Some(clock.now - 90)
    else if period == "1y" then Some(clock.oneYearAgo)
    else None
  }

  /** Codes the query accepts but the service does not know ("1m", "3m",
      "6m", "5y") report over the whole history, exactly like "all". */
  lemma UnknownPeriodsHaveNoCutoff(clock: Clock)
    ensures DateFromPeriod("1m", clock).None?
    ensures DateFromPeriod("3m", clock).None?
    ensures DateFromPeriod("6m", clock).None?
    ensures DateFromPeriod("5y", clock).None?
    ensures DateFromPeriod("all", clock).None?
  {
  }

  /** The `where` shared by every query: the user's rows, narrowed to one
      account only when `accountId` is truthy. */
  predicate InScope(userId: string, accountId: Option<string>, rowUser: string, rowAccount: string) {
    rowUser == userId && (Truthy(accountId) ==> rowAccount == accountId.value)
  }

  function OpInScope(userId: string, accountId: Option<string>): Operation -> bool {
    (o: Operation) => InScope(userId, accountId, o.userId, o.accountId)
  }

  function OpenInScope(userId: string, accountId: Option<string>): Operation -> bool {
    (o: Operation) => InScope(userId, accountId, o.userId, o.accountId) && o.status == "open"
  }

  /** Closed operations of the scope, last updated on or after the cutoff. */
  function ClosedSince(userId: string, accountId: Option<string>, dateFrom: Option<int>): Operation -> bool {
    (o: Operation) =>
      InScope(userId, accountId, o.userId, o.accountId) && o.status == "closed"
      && (dateFrom.Some? ==> o.updatedAt >= dateFrom.value)
  }

  function TxInScope(userId: string, accountId: Option<string>): Transaction -> bool {
    (t: Transaction) => InScope(userId, accountId, t.userId, t.accountId)
  }

  function Amount(t: Transaction): real { t.amount }

  function BelongsTo(opId: string): Entry -> bool {
    (e: Entry) => e.operationId == opId
  }

  function BelongsToAny(opIds: seq<string>): Entry -> bool {
    (e: Entry) => e.operationId in opIds
  }

  /** The `entries` relation of an operation. */
  function EntriesOf(db: Db, opId: string): seq<Entry> {
    Filter(db.entries, BelongsTo(opId))
  }

  function NetInvestedOf(db: Db): Operation -> real {
    (o: Operation) => NetInvested(EntriesOf(db, o.id))
  }

  // ---------------------------------------------------------------------
  // Account balance

  datatype AccountBalance = AccountBalance(totalFromTransactions: real, totalInvested: real, availableCash: real)

  /** Cash = deposits and withdrawals in scope (0 when there are none) minus
      the money tied up in the scope's open operations. */
  function GetAccountBalance(db: Db, userId: string, accountId: Option<string>): (r: AccountBalance)
    ensures r.totalFromTransactions == SumOf(Filter(db.transactions, TxInScope(userId, accountId)), Amount)
    ensures r.totalInvested == SumOf(Filter(db.operations, OpenInScope(userId, accountId)), NetInvestedOf(db))
    ensures r.availableCash == r.totalFromTransactions - r.totalInvested
  {
    var total := SumOf(Filter(db.transactions, TxInScope(userId, accountId)), Amount);
    var invested := SumOf(Filter(db.operations, OpenInScope(userId, accountId)), NetInvestedOf(db));
    AccountBalance(total, invested, total - invested)
  }

  /** With unique operation ids, the money tied up is the signed sum of every
      entry of the scope's open operations: buys add, sells subtract, and no
      entry is counted twice. */
  lemma TotalInvestedIsEntrySum(db: Db, userId: string, accountId: Option<string>)
    requires UniqueIds(db.operations, OperationId)
    ensures var open := Filter(db.operations, OpenInScope(userId, accountId));
      GetAccountBalance(db, userId, accountId).totalInvested
        == SumOf(Filter(db.entries, BelongsToAny(Map(open, OperationId))), Signed)
  {
    UniqueIdsFilter(db.operations, OperationId, OpenInScope(userId, accountId));
    InvestedIsEntrySum(db, Filter(db.operations, OpenInScope(userId, accountId)));
  }

  /** Summing each operation's entries separately is summing all their
      entries at once, because no entry belongs to two operations. */
  lemma {:induction false} InvestedIsEntrySum(db: Db, ops: seq<Operation>)
    requires UniqueIds(ops, OperationId)
    ensures SumOf(ops, NetInvestedOf(db)) == SumOf(Filter(db.entries, BelongsToAny(Map(ops, OperationId))), Signed)
  {
    if |ops| == 0 {
      assert Filter(db.entries, BelongsToAny([])) == [] by {
        FilterNone(db.entries, BelongsToAny([]));
      }
    } else {
      var n := |ops| - 1;
      var o := ops[n];
      var ids := Map(ops[..n], OperationId);
      assert Map(ops, OperationId) == ids + [o.id];
      assert o.id !in ids by {
        forall k | 0 <= k < |ids| ensures ids[k] != o.id {
          assert ops[k].id != ops[n].id;
        }
      }
      InvestedIsEntrySum(db, ops[..n]);
      SumOfFilterUnion(db.entries, BelongsToAny(ids), BelongsTo(o.id), BelongsToAny(ids + [o.id]), Signed);
    }
  }

  lemma {:induction false} FilterNone<T>(s: seq<T>, p: T -> bool)
    requires forall x :: x in s ==> !p(x)
    ensures Filter(s, p) == []
  {
    if |s| > 0 {
      FilterNone(s[..|s| - 1], p);
    }
  }

  // ---------------------------------------------------------------------
  // Performance

  /** `op.balance || 0`. */
  function BalanceOrZero(o: Operation): real { o.balance.GetOr(0.0) }

  function IsWin(o: Operation): bool { BalanceOrZero(o) > 0.0 }
  function IsLoss(o: Operation): bool { BalanceOrZero(o) < 0.0 }

  datatype RealizedStats = RealizedStats(realizedPnL: real, winning: nat, losing: nat, winRate: real)

  /** The realized side of the performance figures: the summed balances, the
      winners (positive balance) and losers (negative balance) and the
      percentage of winners. A zero balance is neither, so winners and losers
      together never exceed the closed operations. */
  function Realized(closed: seq<Operation>): (r: RealizedStats)
    ensures r.realizedPnL == SumOf(closed, BalanceOrZero)
    ensures r.winning == Count(closed, IsWin) && r.losing == Count(closed, IsLoss)
    ensures r.winning + r.losing <= |closed|
    ensures 0.0 <= r.winRate <= 100.0
    ensures |closed| == 0 ==> r.winRate == 0.0
    ensures r.winRate == WinRate(r.winning, |closed|)
  {
    var wins := Count(closed, IsWin);
    var losses := Count(closed, IsLoss);
    WinsAndLosses(closed);
    RealizedStats(SumOf(closed, BalanceOrZero), wins, losses, WinRate(wins, |closed|))
  }

  lemma WinsAndLosses(closed: seq<Operation>)
    ensures Count(closed, IsWin) + Count(closed, IsLoss) <= |closed|
  {
    CountDisjoint(closed, IsWin, IsLoss);
  }

  /** `n > 0 ? w / n * 100 : 0`: the share of `w` in `n`, as a percentage. */
  function WinRate(w: nat, n: nat): (r: real)
    requires w <= n
    ensures 0.0 <= r <= 100.0
    ensures n == 0 ==> r == 0.0
    ensures n > 0 ==> r * (n as real) == (w as real) * 100.0
  {
    if n > 0 then
      var q := (w as real) / (n as real);
      assert q * (n as real) == w as real;
      assert q <= 1.0 by {
        if q > 1.0 {
          assert q * (n as real) > n as real;
        }
      }
      q * 100.0
    else 0.0
  }

  function BalanceOp(id: string, b: real): Operation {
    Operation(id, "user-1", "", "", "", "", "closed", Some(b), 0, 0)
  }

  /** Balances 150, -50 and 200: 300 realized, two winners, one loser. */
  lemma RealizedExample()
    ensures var r := Realized([BalanceOp("op-1", 150.0), BalanceOp("op-2", -50.0), BalanceOp("op-3", 200.0)]);
      r.realizedPnL == 300.0 && r.winning == 2 && r.losing == 1 && r.winRate * 3.0 == 200.0
  {
    var a, b, c := BalanceOp("op-1", 150.0), BalanceOp("op-2", -50.0), BalanceOp("op-3", 200.0);
    var s := [a, b, c];
    assert s[..2] == [a, b] && [a, b][..1] == [a] && [a][..0] == [];
    assert Filter([a], IsWin) == [a] && Filter([a], IsLoss) == [];
    assert Filter([a, b], IsWin) == [a] && Filter([a, b], IsLoss) == [b];
    assert Filter(s, IsWin) == [a, c] && Filter(s, IsLoss) == [b];
    assert SumOf([a], BalanceOrZero) == 150.0;
    assert SumOf([a, b], BalanceOrZero) == 100.0;
    assert SumOf(s, BalanceOrZero) == 300.0;
  }

  /** The symbol row an operation points at, if it still exists. */
  function FindSymbol(db: Db, symbolId: string): Option<Symbol> {
    FindFirst(db.symbols, (s: Symbol) => s.id == symbolId)
  }

  function IsPriceOf(symbolId: string): PricePoint -> bool {
    (p: PricePoint) => p.owner.BySymbol? && p.owner.symbolId == symbolId
  }

  function PriceDay(p: PricePoint): real { p.date as real }
  function PriceValue(p: PricePoint): real { p.price }

  /** `symbol.priceHistory` ordered newest first, at most `n` rows; nothing
      when the operation's symbol does not exist. */
  function PriceHistory(db: Db, symbolId: string, n: nat): (r: seq<PricePoint>)
    ensures |r| <= n
    ensures forall i :: 0 <= i < |r| ==> r[i] in db.prices && IsPriceOf(symbolId)(r[i])
    ensures forall i, j :: 0 <= i < j < |r| ==> r[i].date >= r[j].date
    ensures FindSymbol(db, symbolId).Some? ==>
      |r| == if Count(db.prices, IsPriceOf(symbolId)) < n then Count(db.prices, IsPriceOf(symbolId)) else n
    ensures FindSymbol(db, symbolId).Some? && |r| > 0 ==>
      forall p :: p in db.prices && IsPriceOf(symbolId)(p) ==> p.date <= r[0].date
    ensures multiset(r) <= multiset(Filter(db.prices, IsPriceOf(symbolId)))
    ensures |r| > 0 ==>
      forall p :: p in multiset(Filter(db.prices, IsPriceOf(symbolId))) - multiset(r) ==> p.date <= r[|r| - 1].date
  {
    if FindSymbol(db, symbolId).None? then []
    else
      var own := Filter(db.prices, IsPriceOf(symbolId));
      HistoryOf(db.prices, symbolId, n);
      NewestKept(own, n);
      Take(SortDesc(own, PriceDay), n)
  }

  /** The newest-first history of an existing symbol, as one statement about
      its own prices. */
  lemma HistoryOf(prices: seq<PricePoint>, symbolId: string, n: nat)
    ensures var own := Filter(prices, IsPriceOf(symbolId));
      var r := Take(SortDesc(own, PriceDay), n);
      && |r| == (if Count(prices, IsPriceOf(symbolId)) < n then Count(prices, IsPriceOf(symbolId)) else n)
      && (forall i :: 0 <= i < |r| ==> r[i] in prices && IsPriceOf(symbolId)(r[i]))
      && (forall i, j :: 0 <= i < j < |r| ==> r[i].date >= r[j].date)
      && (|r| > 0 ==> forall p :: p in prices && IsPriceOf(symbolId)(p) ==> p.date <= r[0].date)
  {
    var own := Filter(prices, IsPriceOf(symbolId));
    NewestFirst(own, n);
  }

  lemma NewestFirst(own: seq<PricePoint>, n: nat)
    ensures var r := Take(SortDesc(own, PriceDay), n);
      && (forall i :: 0 <= i < |r| ==> r[i] in own)
      && (forall i, j :: 0 <= i < j < |r| ==> r[i].date >= r[j].date)
      && (|r| > 0 ==> forall p :: p in own ==> p.date <= r[0].date)
  {
    var sorted := SortDesc(own, PriceDay);
    var r := Take(sorted, n);
    forall i | 0 <= i < |r| ensures r[i] in own {
      assert r[i] == sorted[i];
      assert sorted[i] in multiset(own);
    }
    forall i, j | 0 <= i < j < |r| ensures r[i].date >= r[j].date {
      assert PriceDay(sorted[i]) >= PriceDay(sorted[j]);
    }
    if |r| > 0 {
      forall p | p in own ensures p.date <= r[0].date {
        assert p in multiset(sorted);
        var k :| 0 <= k < |sorted| && sorted[k] == p;
        if k > 0 {
          assert PriceDay(sorted[0]) >= PriceDay(sorted[k]);
        }
      }
    }
  }

  /** The rows `take` leaves out of the newest-first order are none of them
      newer than the last row it keeps. */
  lemma NewestKept(own: seq<PricePoint>, n: nat)
    ensures var r := Take(SortDesc(own, PriceDay), n);
      && multiset(r) <= multiset(own)
      && (|r| > 0 ==> forall p :: p in multiset(own) - multiset(r) ==> p.date <= r[|r| - 1].date)
  {
    var sorted := SortDesc(own, PriceDay);
    var r := Take(sorted, n);
    var rest := sorted[|r|..];
    assert sorted == r + rest;
    assert multiset(own) == multiset(r) + multiset(rest);
    if |r| > 0 {
      forall p | p in multiset(own) - multiset(r) ensures p.date <= r[|r| - 1].date {
        assert p in multiset(rest);
        var k :| 0 <= k < |rest| && rest[k] == p;
        assert sorted[|r| + k] == p;
        assert PriceDay(sorted[|r| - 1]) >= PriceDay(sorted[|r| + k]);
      }
    }
  }

  /** `op.symbol?.priceHistory?.[0]?.price`: the newest price of the symbol. */
  function LatestPrice(db: Db, symbolId: string): (r: Option<real>)
    ensures r.Some? ==> exists p :: p in db.prices && IsPriceOf(symbolId)(p) && p.price == r.value
    ensures r.Some? ==> exists p ::
      && p in db.prices && IsPriceOf(symbolId)(p) && p.price == r.value
      && forall q :: q in db.prices && IsPriceOf(symbolId)(q) ==> q.date <= p.date
    ensures r.None? <==> FindSymbol(db, symbolId).None? || Count(db.prices, IsPriceOf(symbolId)) == 0
  {
    var h := PriceHistory(db, symbolId, 1);
    if |h| == 0 then None else Some(h[0].price)
  }

  /** What an operation adds to the unrealized result: its paper result at
      the latest price when it is valued, nothing otherwise. */
  function PaperPnL(db: Db, o: Operation, es: seq<Entry>): (r: real)
    ensures !Valued(LatestPrice(db, o.symbolId), es) ==> r == 0.0
    ensures Valued(LatestPrice(db, o.symbolId), es) ==> r == Unrealized(o.kind, es, LatestPrice(db, o.symbolId).value)
  {
    var price := LatestPrice(db, o.symbolId);
    if Valued(price, es) then Unrealized(o.kind, es, price.value) else 0.0
  }

  /** What an operation adds to the current investment: its cost basis when
      it is valued, nothing otherwise. */
  function PaperCost(db: Db, o: Operation, es: seq<Entry>): (r: real)
    ensures !Valued(LatestPrice(db, o.symbolId), es) ==> r == 0.0
    ensures Valued(LatestPrice(db, o.symbolId), es) ==> r == CostBasis(es)
  {
    if Valued(LatestPrice(db, o.symbolId), es) then CostBasis(es) else 0.0
  }

  function PaperPnLOf(db: Db): Operation -> real {
    (o: Operation) => PaperPnL(db, o, EntriesOf(db, o.id))
  }

  function PaperCostOf(db: Db): Operation -> real {
    (o: Operation) => PaperCost(db, o, EntriesOf(db, o.id))
  }

  datatype Performance = Performance(
    realizedPnL: real,
    unrealizedPnL: real,
    totalPnL: real,
    totalPnLPercentage: real,
    winningOperations: nat,
    losingOperations: nat,
    winRate: real)

  /** `x > 0 ? y / x * 100 : 0`. */
  function Percentage(part: real, whole: real): (r: real)
    ensures whole > 0.0 ==> r * whole == part * 100.0
    ensures whole <= 0.0 ==> r == 0.0
  {
    if whole > 0.0 then part / whole * 100.0 else 0.0
  }

  /** The global performance figures: realized results over the closed
      operations of the window, unrealized results over every open operation
      of the scope (the window does not apply to them), and the total as a
      percentage of the current investment. */
  function GetPerformance(db: Db, userId: string, period: string, accountId: Option<string>, clock: Clock): (r: Performance)
    ensures var closed := Filter(db.operations, ClosedSince(userId, accountId, DateFromPeriod(period, clock)));
      && r.realizedPnL == SumOf(closed, BalanceOrZero)
      && r.winningOperations == Count(closed, IsWin)
      && r.losingOperations == Count(closed, IsLoss)
      && r.winningOperations + r.losingOperations <= |closed|
      && r.winRate == WinRate(r.winningOperations, |closed|)
      && 0.0 <= r.winRate <= 100.0
      && (|closed| == 0 ==> r.winRate == 0.0)
    ensures var open := Filter(db.operations, OpenInScope(userId, accountId));
      && r.unrealizedPnL == SumOf(open, PaperPnLOf(db))
      && r.totalPnL == r.realizedPnL + r.unrealizedPnL
      && r.totalPnLPercentage == Percentage(r.totalPnL, SumOf(open, PaperCostOf(db)))
  {
    var closed := Filter(db.operations, ClosedSince(userId, accountId, DateFromPeriod(period, clock)));
    var stats := Realized(closed);
    var open := Filter(db.operations, OpenInScope(userId, accountId));
    var unrealized := SumOf(open, PaperPnLOf(db));
    var invested := SumOf(open, PaperCostOf(db));
    var total := stats.realizedPnL + unrealized;
    Performance(stats.realizedPnL, unrealized, total, Percentage(total, invested),
                stats.winning, stats.losing, stats.winRate)
  }

  /** Open operations that are not valued (no symbol, no price, a zero price
      or nothing held) leave the unrealized result and the investment as if
      they did not exist. */
  lemma {:induction false} UnvaluedOperationsIgnored(db: Db, open: seq<Operation>)
    ensures SumOf(open, PaperPnLOf(db)) == SumOf(Filter(open, ValuedOp(db)), PaperPnLOf(db))
    ensures SumOf(open, PaperCostOf(db)) == SumOf(Filter(open, ValuedOp(db)), PaperCostOf(db))
  {
    SumOfZeroOutside(open, ValuedOp(db), PaperPnLOf(db));
    SumOfZeroOutside(open, ValuedOp(db), PaperCostOf(db));
  }

  function ValuedOp(db: Db): Operation -> bool {
    (o: Operation) => Valued(LatestPrice(db, o.symbolId), EntriesOf(db, o.id))
  }

  // ---------------------------------------------------------------------
  // Symbols ranking

  datatype SymbolPerformance = SymbolPerformance(
    symbolId: string,
    code: string,
    name: string,
    logo: Option<string>,
    product: string,
    totalInvested: real,
    realizedPnL: real,
    unrealizedPnL: real,
    totalPnL: real,
    pnlPercentage: real,
    operationsCount: nat,
    sparklineData: seq<real>)

  function SymbolIdOf(o: Operation): string { o.symbolId }
  function RowSymbol(r: SymbolPerformance): string { r.symbolId }
  function RowTotalPnL(r: SymbolPerformance): real { r.totalPnL }
  function RowRealized(r: SymbolPerformance): real { r.realizedPnL }
  function RowCount(r: SymbolPerformance): real { r.operationsCount as real }

  function HasSymbol(db: Db): Operation -> bool {
    (o: Operation) => FindSymbol(db, o.symbolId).Some?
  }

  /** The operations the ranking looks at: every status, in scope, whose
      symbol exists. */
  function RankedOps(db: Db, userId: string, accountId: Option<string>): seq<Operation> {
    Filter(Filter(db.operations, OpInScope(userId, accountId)), HasSymbol(db))
  }

  function EntrySince(opId: string, dateFrom: Option<int>): Entry -> bool {
    (e: Entry) => e.operationId == opId && (dateFrom.Some? ==> e.date >= dateFrom.value)
  }

  /** The entries of an operation dated within the window. */
  function EntriesSince(db: Db, opId: string, dateFrom: Option<int>): seq<Entry> {
    Filter(db.entries, EntrySince(opId, dateFrom))
  }

  /** A closed operation's balance (null taken as 0); other statuses add no
      realized result. */
  function ClosedBalance(o: Operation): real {
    if o.status == "closed" then BalanceOrZero(o) else 0.0
  }

  /** The paper result a not-closed operation adds to its symbol, from the
      entries within the window. */
  function RankPnLOf(db: Db, dateFrom: Option<int>): Operation -> real {
    (o: Operation) => if o.status == "closed" then 0.0 else PaperPnL(db, o, EntriesSince(db, o.id, dateFrom))
  }

  function RankCostOf(db: Db, dateFrom: Option<int>): Operation -> real {
    (o: Operation) => if o.status == "closed" then 0.0 else PaperCost(db, o, EntriesSince(db, o.id, dateFrom))
  }

  /** The prices of a newest-first history, oldest first. */
  function Sparkline(history: seq<PricePoint>): (r: seq<real>)
    ensures |r| == |history|
    ensures forall i :: 0 <= i < |r| ==> r[i] == history[|history| - 1 - i].price
  {
    Reverse(Map(history, PriceValue))
  }

  function RankRow(db: Db, dateFrom: Option<int>, g: Group<string, Operation>): SymbolPerformance {
    var sym := FindSymbol(db, g.key);
    var realized := SumOf(g.members, ClosedBalance);
    var unrealized := SumOf(g.members, RankPnLOf(db, dateFrom));
    var invested := SumOf(g.members, RankCostOf(db, dateFrom));
    var total := realized + unrealized;
    SymbolPerformance(
      g.key,
      if sym.Some? then sym.value.code else "",
      if sym.Some? then sym.value.name else "",
      if sym.Some? then sym.value.logo else None,
      if sym.Some? then sym.value.product else "",
      invested, realized, unrealized, total,
      Percentage(total, invested),
      |g.members|,
      Sparkline(PriceHistory(db, g.key, 30)))
  }

  function RowOf(db: Db, dateFrom: Option<int>): Group<string, Operation> -> SymbolPerformance {
    (g: Group<string, Operation>) => RankRow(db, dateFrom, g)
  }

  /** `row` aggregates exactly the ranked operations of its symbol: their
      number, their closed balances, the paper result and cost basis of the
      others, the total and its percentage. It carries the code, name, logo
      and product of its symbol's row, and as sparkline the symbol's 30
      newest prices, oldest first. */
  ghost predicate RowAggregates(db: Db, dateFrom: Option<int>, ops: seq<Operation>, row: SymbolPerformance) {
    var members := Members(ops, SymbolIdOf, row.symbolId);
    && FindSymbol(db, row.symbolId).Some?
    && row.code == FindSymbol(db, row.symbolId).value.code
    && row.name == FindSymbol(db, row.symbolId).value.name
    && row.logo == FindSymbol(db, row.symbolId).value.logo
    && row.product == FindSymbol(db, row.symbolId).value.product
    && row.sparklineData == Sparkline(PriceHistory(db, row.symbolId, 30))
    && row.operationsCount == |members| > 0
    && row.realizedPnL == SumOf(members, ClosedBalance)
    && row.unrealizedPnL == SumOf(members, RankPnLOf(db, dateFrom))
    && row.totalInvested == SumOf(members, RankCostOf(db, dateFrom))
    && row.totalPnL == row.realizedPnL + row.unrealizedPnL
    && row.pnlPercentage == Percentage(row.totalPnL, row.totalInvested)
    && |row.sparklineData| <= 30
  }

  /** One row per symbol of the ranked operations, aggregating exactly the
      operations of that symbol, best total result first. */
  function GetSymbolsRanking(db: Db, userId: string, period: string, accountId: Option<string>, clock: Clock)
    : (r: seq<SymbolPerformance>)
    ensures DistinctBy(r, RowSymbol)
    ensures forall o :: o in RankedOps(db, userId, accountId) ==> o.symbolId in Map(r, RowSymbol)
    ensures forall i :: 0 <= i < |r| ==>
      RowAggregates(db, DateFromPeriod(period, clock), RankedOps(db, userId, accountId), r[i])
    ensures forall i, j :: 0 <= i < j < |r| ==> r[i].totalPnL >= r[j].totalPnL
  {
    var dateFrom := DateFromPeriod(period, clock);
    var ops := RankedOps(db, userId, accountId);
    var groups := GroupBy(ops, SymbolIdOf);
    var rows := Map(groups, RowOf(db, dateFrom));
    var r := SortDesc(rows, RowTotalPnL);
    assert forall o :: o in ops ==> HasSymbol(db)(o);
    RankingRows(db, dateFrom, ops, groups, rows, r);
    r
  }

  lemma RankingRows(db: Db, dateFrom: Option<int>, ops: seq<Operation>, groups: seq<Group<string, Operation>>,
                    rows: seq<SymbolPerformance>, r: seq<SymbolPerformance>)
    requires groups == GroupBy(ops, SymbolIdOf)
    requires rows == Map(groups, RowOf(db, dateFrom))
    requires multiset(r) == multiset(rows)
    requires forall o :: o in ops ==> HasSymbol(db)(o)
    ensures DistinctBy(r, RowSymbol)
    ensures forall o :: o in ops ==> o.symbolId in Map(r, RowSymbol)
    ensures forall i :: 0 <= i < |r| ==> RowAggregates(db, dateFrom, ops, r[i])
  {
    RankingDistinct(db, dateFrom, ops, groups, rows, r);
    RankingCovers(db, dateFrom, ops, groups, rows, r);
    forall j | 0 <= j < |rows| ensures RowAggregates(db, dateFrom, ops, rows[j]) {
      GroupSymbolExists(db, ops, groups[j]);
      RankRowAggregates(db, dateFrom, ops, groups[j]);
    }
    forall i | 0 <= i < |r| ensures RowAggregates(db, dateFrom, ops, r[i]) {
      assert r[i] in multiset(rows);
    }
  }

  lemma RankingDistinct(db: Db, dateFrom: Option<int>, ops: seq<Operation>, groups: seq<Group<string, Operation>>,
                        rows: seq<SymbolPerformance>, r: seq<SymbolPerformance>)
    requires groups == GroupBy(ops, SymbolIdOf)
    requires rows == Map(groups, RowOf(db, dateFrom))
    requires multiset(r) == multiset(rows)
    ensures DistinctBy(r, RowSymbol)
  {
    assert DistinctBy(rows, RowSymbol) by {
      forall i, j | 0 <= i < j < |rows| ensures rows[i].symbolId != rows[j].symbolId {
        assert rows[i].symbolId == groups[i].key && rows[j].symbolId == groups[j].key;
      }
    }
    DistinctByPermutation(rows, r, RowSymbol);
  }

  lemma RankingCovers(db: Db, dateFrom: Option<int>, ops: seq<Operation>, groups: seq<Group<string, Operation>>,
                      rows: seq<SymbolPerformance>, r: seq<SymbolPerformance>)
    requires groups == GroupBy(ops, SymbolIdOf)
    requires rows == Map(groups, RowOf(db, dateFrom))
    requires multiset(r) == multiset(rows)
    ensures forall o :: o in ops ==> o.symbolId in Map(r, RowSymbol)
  {
    forall j | 0 <= j < |groups| ensures rows[j].symbolId == Keys(groups)[j] {
      assert rows[j] == RankRow(db, dateFrom, groups[j]);
    }
    forall o | o in ops ensures o.symbolId in Map(r, RowSymbol) {
      assert o.symbolId in Keys(groups);
      RowOfKey(groups, rows, r, o.symbolId);
    }
  }

  /** A key of the groups is the symbol of some row of any reordering of
      rows that carry the groups' keys. */
  lemma RowOfKey(groups: seq<Group<string, Operation>>, rows: seq<SymbolPerformance>, r: seq<SymbolPerformance>, key: string)
    requires |rows| == |groups| && multiset(r) == multiset(rows)
    requires forall j :: 0 <= j < |groups| ==> rows[j].symbolId == Keys(groups)[j]
    requires key in Keys(groups)
    ensures key in Map(r, RowSymbol)
  {
    var j :| 0 <= j < |groups| && Keys(groups)[j] == key;
    assert rows[j] in multiset(r);
    var k :| 0 <= k < |r| && r[k] == rows[j];
    assert Map(r, RowSymbol)[k] == key;
  }

  lemma RankRowAggregates(db: Db, dateFrom: Option<int>, ops: seq<Operation>, g: Group<string, Operation>)
    requires g.members == Members(ops, SymbolIdOf, g.key) && |g.members| > 0
    requires FindSymbol(db, g.key).Some?
    ensures RowAggregates(db, dateFrom, ops, RankRow(db, dateFrom, g))
  {
    RankRowSymbol(db, dateFrom, g);
    RankRowSparkline(db, dateFrom, g);
    RankRowFigures(db, dateFrom, g);
  }

  /** The symbol fields of a group's row come from the group's symbol. */
  lemma RankRowSymbol(db: Db, dateFrom: Option<int>, g: Group<string, Operation>)
    requires FindSymbol(db, g.key).Some?
    ensures var row := RankRow(db, dateFrom, g);
      var sym := FindSymbol(db, g.key).value;
      && row.symbolId == g.key
      && row.code == sym.code && row.name == sym.name && row.logo == sym.logo && row.product == sym.product
  {
  }

  /** A group's row carries the symbol's newest prices as its sparkline. */
  lemma RankRowSparkline(db: Db, dateFrom: Option<int>, g: Group<string, Operation>)
    ensures RankRow(db, dateFrom, g).sparklineData == Sparkline(PriceHistory(db, g.key, 30))
    ensures |RankRow(db, dateFrom, g).sparklineData| <= 30
  {
    var history := PriceHistory(db, g.key, 30);
    assert |history| <= 30;
  }

  /** The figures of a group's row are the group's sums. */
  lemma RankRowFigures(db: Db, dateFrom: Option<int>, g: Group<string, Operation>)
    ensures var row := RankRow(db, dateFrom, g);
      && row.operationsCount == |g.members|
      && row.realizedPnL == SumOf(g.members, ClosedBalance)
      && row.unrealizedPnL == SumOf(g.members, RankPnLOf(db, dateFrom))
      && row.totalInvested == SumOf(g.members, RankCostOf(db, dateFrom))
      && row.totalPnL == row.realizedPnL + row.unrealizedPnL
      && row.pnlPercentage == Percentage(row.totalPnL, row.totalInvested)
  {
  }


  /** The symbol of a group of ranked operations exists. */
  lemma GroupSymbolExists(db: Db, ops: seq<Operation>, g: Group<string, Operation>)
    requires g.members == Members(ops, SymbolIdOf, g.key) && |g.members| > 0
    requires forall o :: o in ops ==> HasSymbol(db)(o)
    ensures FindSymbol(db, g.key).Some?
  {
    MembersKey(ops, SymbolIdOf, g.key, g.members[0]);
    assert HasSymbol(db)(g.members[0]);
  }

  /** Every ranked operation is counted in exactly one row, and the realized
      results of the rows add up to the realized results of the operations. */
  lemma RankingCoversEveryOperation(db: Db, userId: string, period: string, accountId: Option<string>, clock: Clock)
    ensures var r := GetSymbolsRanking(db, userId, period, accountId, clock);
      var ops := RankedOps(db, userId, accountId);
      && SumOf(r, RowCount) == |ops| as real
      && SumOf(r, RowRealized) == SumOf(ops, ClosedBalance)
  {
    var dateFrom := DateFromPeriod(period, clock);
    var ops := RankedOps(db, userId, accountId);
    var groups := GroupBy(ops, SymbolIdOf);
    var rows := Map(groups, RowOf(db, dateFrom));
    var r := SortDesc(rows, RowTotalPnL);
    assert r == GetSymbolsRanking(db, userId, period, accountId, clock);
    SumOfPermutation(r, rows, RowCount);
    SumOfPermutation(r, rows, RowRealized);
    forall g | g in groups ensures RowCount(RowOf(db, dateFrom)(g)) == MembersSum(One<Operation>())(g) {
      SumOfOne(g.members);
    }
    SumOfMap(groups, RowOf(db, dateFrom), RowCount, MembersSum(One<Operation>()));
    SumOfMap(groups, RowOf(db, dateFrom), RowRealized, MembersSum(ClosedBalance));
    GroupsTotalIsSum(groups, One<Operation>());
    GroupsTotalIsSum(groups, ClosedBalance);
    GroupByTotal(ops, SymbolIdOf, One<Operation>());
    GroupByTotal(ops, SymbolIdOf, ClosedBalance);
    SumOfOne(ops);
  }

  function One<T>(): T -> real { (x: T) => 1.0 }

  lemma {:induction false} SumOfOne<T>(s: seq<T>)
    ensures SumOf(s, One<T>()) == |s| as real
  {
    if |s| > 0 {
      SumOfOne(s[..|s| - 1]);
    }
  }

  // ---------------------------------------------------------------------
  // Product distribution

  datatype ProductShare = ProductShare(
    product: string,
    displayLabel: string,  // `label`, a reserved word here
    totalInvested: real,
    percentage: real,
    operationsCount: nat,
    pnl: real)

  /** `productLabels[product] || product`. */
  function ProductLabel(product: string): (text: string)
    ensures product == "crypto" ==> text == "Criptos"
    ensures product == "stock" ==> text == "Acciones"
    ensures product == "etf" ==> text == "ETFs"
    ensures product !in ["crypto", "stock", "etf"] ==> text == product
  {
    if product == "crypto" then "Criptos"
    else if product == "stock" then "Acciones"
    else if product == "etf" then "ETFs"
    else product
  }

  function ProductOf(o: Operation): string { o.product }
  function ShareProduct(p: ProductShare): string { p.product }
  function ShareInvested(p: ProductShare): real { p.totalInvested }
  function SharePercentage(p: ProductShare): real { p.percentage }

  function ShareOf(db: Db): Group<string, Operation> -> ProductShare {
    (g: Group<string, Operation>) =>
      ProductShare(g.key, ProductLabel(g.key), SumOf(g.members, NetInvestedOf(db)), 0.0, |g.members|, 0.0)
  }

  function WithPercentage(total: real): ProductShare -> ProductShare {
    (p: ProductShare) => p.(percentage := Percentage(p.totalInvested, total))
  }

  /** `share` aggregates exactly the open operations of its product. */
  ghost predicate ShareAggregates(db: Db, open: seq<Operation>, share: ProductShare) {
    var members := Members(open, ProductOf, share.product);
    && share.displayLabel == ProductLabel(share.product)
    && share.pnl == 0.0
    && share.operationsCount == |members| > 0
    && share.totalInvested == SumOf(members, NetInvestedOf(db))
  }

  /** One row per product of the scope's open operations, largest investment
      first, each with its share of the total investment. */
  function GetProductDistribution(db: Db, userId: string, accountId: Option<string>): (r: seq<ProductShare>)
    ensures DistinctBy(r, ShareProduct)
    ensures forall o :: o in Filter(db.operations, OpenInScope(userId, accountId)) ==> o.product in Map(r, ShareProduct)
    ensures forall i :: 0 <= i < |r| ==>
      ShareAggregates(db, Filter(db.operations, OpenInScope(userId, accountId)), r[i])
    ensures forall i, j :: 0 <= i < j < |r| ==> r[i].totalInvested >= r[j].totalInvested
    ensures SumOf(r, ShareInvested) == GetAccountBalance(db, userId, accountId).totalInvested
    ensures forall i :: 0 <= i < |r| ==> r[i].percentage == Percentage(r[i].totalInvested, SumOf(r, ShareInvested))
  {
    var open := Filter(db.operations, OpenInScope(userId, accountId));
    var groups := GroupBy(open, ProductOf);
    var rows0 := Map(groups, ShareOf(db));
    var total := SumOf(rows0, ShareInvested);
    var rows := Map(rows0, WithPercentage(total));
    var r := SortDesc(rows, ShareInvested);
    DistributionRows(db, open, groups, rows0, total, rows, r);
    DistributionTotal(db, open, groups, rows0, total, rows, r);
    r
  }

  lemma DistributionRows(db: Db, open: seq<Operation>, groups: seq<Group<string, Operation>>,
                         rows0: seq<ProductShare>, total: real, rows: seq<ProductShare>, r: seq<ProductShare>)
    requires groups == GroupBy(open, ProductOf)
    requires rows0 == Map(groups, ShareOf(db))
    requires rows == Map(rows0, WithPercentage(total))
    requires multiset(r) == multiset(rows)
    ensures DistinctBy(r, ShareProduct)
    ensures forall o :: o in open ==> o.product in Map(r, ShareProduct)
    ensures forall i :: 0 <= i < |r| ==> ShareAggregates(db, open, r[i])
    ensures forall i :: 0 <= i < |r| ==> r[i].percentage == Percentage(r[i].totalInvested, total)
  {
    DistributionDistinct(groups, rows0, total, rows, r);
    DistributionCovers(open, groups, rows0, total, rows, r);
    forall j | 0 <= j < |rows| ensures ShareAggregates(db, open, rows[j]) && rows[j].percentage == Percentage(rows[j].totalInvested, total) {
      assert rows[j] == rows0[j].(percentage := Percentage(rows0[j].totalInvested, total));
    }
    forall i | 0 <= i < |r| ensures ShareAggregates(db, open, r[i]) && r[i].percentage == Percentage(r[i].totalInvested, total) {
      assert r[i] in multiset(rows);
    }
  }

  lemma DistributionDistinct(groups: seq<Group<string, Operation>>,
                             rows0: seq<ProductShare>, total: real, rows: seq<ProductShare>, r: seq<ProductShare>)
    requires DistinctKeys(groups)
    requires |rows0| == |groups| && forall j :: 0 <= j < |groups| ==> rows0[j].product == groups[j].key
    requires rows == Map(rows0, WithPercentage(total))
    requires multiset(r) == multiset(rows)
    ensures DistinctBy(r, ShareProduct)
  {
    DistinctByPermutation(rows, r, ShareProduct);
  }

  lemma DistributionCovers(open: seq<Operation>, groups: seq<Group<string, Operation>>,
                           rows0: seq<ProductShare>, total: real, rows: seq<ProductShare>, r: seq<ProductShare>)
    requires forall o :: o in open ==> ProductOf(o) in Keys(groups)
    requires |rows0| == |groups| && forall j :: 0 <= j < |groups| ==> rows0[j].product == groups[j].key
    requires rows == Map(rows0, WithPercentage(total))
    requires multiset(r) == multiset(rows)
    ensures forall o :: o in open ==> o.product in Map(r, ShareProduct)
  {
    forall o | o in open ensures o.product in Map(r, ShareProduct) {
      var j :| 0 <= j < |groups| && Keys(groups)[j] == o.product;
      assert rows[j].product == o.product;
      assert rows[j] in multiset(r);
      var k :| 0 <= k < |r| && r[k] == rows[j];
      assert Map(r, ShareProduct)[k] == o.product;
    }
  }

  lemma DistributionTotal(db: Db, open: seq<Operation>, groups: seq<Group<string, Operation>>,
                          rows0: seq<ProductShare>, total: real, rows: seq<ProductShare>, r: seq<ProductShare>)
    requires groups == GroupBy(open, ProductOf)
    requires rows0 == Map(groups, ShareOf(db))
    requires total == SumOf(rows0, ShareInvested)
    requires rows == Map(rows0, WithPercentage(total))
    requires multiset(r) == multiset(rows)
    ensures SumOf(r, ShareInvested) == total == SumOf(open, NetInvestedOf(db))
  {
    SumOfPermutation(r, rows, ShareInvested);
    SumOfMap(rows0, WithPercentage(total), ShareInvested, ShareInvested);
    SumOfMap(groups, ShareOf(db), ShareInvested, MembersSum(NetInvestedOf(db)));
    GroupsTotalIsSum(groups, NetInvestedOf(db));
    GroupByTotal(open, ProductOf, NetInvestedOf(db));
  }

  /** The percentages of a distribution (every row's share of the rows'
      total, as `GetProductDistribution` promises) add up to 100 whenever
      anything is invested, and are all 0 otherwise. */
  lemma PercentagesSumTo100(r: seq<ProductShare>, total: real)
    requires total == SumOf(r, ShareInvested)
    requires forall i :: 0 <= i < |r| ==> r[i].percentage == Percentage(r[i].totalInvested, total)
    ensures total > 0.0 ==> SumOf(r, SharePercentage) == 100.0
    ensures total <= 0.0 ==> forall i :: 0 <= i < |r| ==> r[i].percentage == 0.0
  {
    if total > 0.0 {
      SharesScaled(r, total);
      ScaledSharesSumTo100(r, total);
    } else {
      NothingInvested(r, total);
    }
  }

  lemma ScaledSharesSumTo100(r: seq<ProductShare>, total: real)
    requires total > 0.0 && total == SumOf(r, ShareInvested)
    requires forall i :: 0 <= i < |r| ==> SharePercentage(r[i]) * total == ShareInvested(r[i]) * 100.0
    ensures SumOf(r, SharePercentage) == 100.0
  {
    PercentagesScaleWithTotal(r, total);
    CancelFactor(SumOf(r, SharePercentage), 100.0, total);
  }

  /** A common nonzero factor cancels. */
  lemma CancelFactor(x: real, y: real, t: real)
    requires t != 0.0 && x * t == y * t
    ensures x == y
  {
    assert x == (x * t) / t;
    assert y == (y * t) / t;
  }

  lemma {:induction false} PercentagesScaleWithTotal(r: seq<ProductShare>, total: real)
    requires forall i :: 0 <= i < |r| ==> SharePercentage(r[i]) * total == ShareInvested(r[i]) * 100.0
    ensures SumOf(r, SharePercentage) * total == SumOf(r, ShareInvested) * 100.0
  {
    if |r| > 0 {
      var n := |r| - 1;
      PercentagesScaleWithTotal(r[..n], total);
      var a := SumOf(r[..n], SharePercentage);
      var b := SumOf(r[..n], ShareInvested);
      assert (a + SharePercentage(r[n])) * total == a * total + SharePercentage(r[n]) * total;
      assert (b + ShareInvested(r[n])) * 100.0 == b * 100.0 + ShareInvested(r[n]) * 100.0;
    }
  }

  lemma NothingInvested(r: seq<ProductShare>, total: real)
    requires total <= 0.0
    requires forall i :: 0 <= i < |r| ==> r[i].percentage == Percentage(r[i].totalInvested, total)
    ensures forall i :: 0 <= i < |r| ==> r[i].percentage == 0.0
  {
    forall i | 0 <= i < |r| ensures r[i].percentage == 0.0 {
      ShareOfTotal(r[i], total);
    }
  }

  lemma SharesScaled(r: seq<ProductShare>, total: real)
    requires total > 0.0
    requires forall i :: 0 <= i < |r| ==> r[i].percentage == Percentage(r[i].totalInvested, total)
    ensures forall i :: 0 <= i < |r| ==> SharePercentage(r[i]) * total == ShareInvested(r[i]) * 100.0
  {
    forall i | 0 <= i < |r| ensures SharePercentage(r[i]) * total == ShareInvested(r[i]) * 100.0 {
      ShareOfTotal(r[i], total);
    }
  }

  lemma ShareOfTotal(p: ProductShare, total: real)
    requires p.percentage == Percentage(p.totalInvested, total)
    ensures total > 0.0 ==> SharePercentage(p) * total == ShareInvested(p) * 100.0
    ensures total <= 0.0 ==> p.percentage == 0.0
  {
  }

  // ---------------------------------------------------------------------
  // Portfolio evolution

  datatype PortfolioPoint = PortfolioPoint(date: int, totalInvested: real, portfolioValue: real, pnl: real)

  /** Days between two points of the series. */
  function Interval(period: string): (step: nat)
    ensures step > 0
    ensures period == "7d" || period == "30d" ==> step == 1
    ensures period == "90d" ==> step == 7
    ensures period !in ["7d", "30d", "90d"] ==> step == 30
  {
    if period == "7d" then 1 else if period == "30d" then 1 else if period == "90d" then 7 else 30
  }

  /** The first point of the series: the window's cutoff, or one year ago
      when the period has none. */
  function EvolutionStart(period: string, clock: Clock): (start: int)
    ensures DateFromPeriod(period, clock).Some? ==> start == DateFromPeriod(period, clock).value
    ensures DateFromPeriod(period, clock).None? ==> start == clock.oneYearAgo
  {
    DateFromPeriod(period, clock).GetOr(clock.oneYearAgo)
  }

  /** Entries of in-scope operations (any status) dated on or after `start`. */
  function EvolutionEntry(db: Db, userId: string, accountId: Option<string>, start: int): Entry -> bool {
    (e: Entry) =>
      var o := FindFirst(db.operations, (o: Operation) => o.id == e.operationId);
      e.date >= start && o.Some? && InScope(userId, accountId, o.value.userId, o.value.accountId)
  }

  function EntryDay(e: Entry): real { e.date as real }

  /** The entries the series is built from, oldest first. */
  function EvolutionEntries(db: Db, userId: string, accountId: Option<string>, start: int): (r: seq<Entry>)
    ensures multiset(r) == multiset(Filter(db.entries, EvolutionEntry(db, userId, accountId, start)))
    ensures forall i :: 0 <= i < |r| ==> r[i].date >= start
    ensures forall i, j :: 0 <= i < j < |r| ==> r[i].date <= r[j].date
  {
    var fetched := Filter(db.entries, EvolutionEntry(db, userId, accountId, start));
    var r := SortAsc(fetched, EntryDay);
    forall i | 0 <= i < |r| ensures r[i].date >= start {
      assert r[i] in multiset(fetched);
    }
    r
  }

  /** An entry's signed notional if it is dated on or before `day`. */
  function SignedUpTo(day: int): Entry -> real {
    (e: Entry) => if e.date <= day then Signed(e) else 0.0
  }

  /** One point per step from the start up to today: each point carries the
      signed notional of every fetched entry dated on or before it, so each
      entry is added exactly once, at the first point on or after its date.
      Market value is not computed: the value equals the investment and the
      result is 0. */
  method GetPortfolioEvolution(db: Db, userId: string, period: string, accountId: Option<string>, clock: Clock)
    returns (points: seq<PortfolioPoint>)
    ensures var start := EvolutionStart(period, clock);
      var step := Interval(period);
      && (forall i :: 0 <= i < |points| ==> points[i].date == start + i * step && points[i].date <= clock.now)
      && start + |points| * step > clock.now
    ensures var es := EvolutionEntries(db, userId, accountId, EvolutionStart(period, clock));
      forall i :: 0 <= i < |points| ==>
        && points[i].totalInvested == SumOf(es, SignedUpTo(points[i].date))
        && points[i].portfolioValue == points[i].totalInvested
        && points[i].pnl == 0.0
  {
    var start := EvolutionStart(period, clock);
    var es := EvolutionEntries(db, userId, accountId, start);
    points := Series(es, start, Interval(period), clock.now);
  }

  /** The points `start`, `start + step`, ... up to `now`, each carrying the
      running investment of `es` up to its date. */
  method Series(es: seq<Entry>, start: int, step: nat, now: int) returns (points: seq<PortfolioPoint>)
    requires step > 0
    requires forall i :: 0 <= i < |es| ==> es[i].date >= start
    ensures forall i :: 0 <= i < |points| ==> points[i].date == start + i * step && points[i].date <= now
    ensures start + |points| * step > now
    ensures forall i :: 0 <= i < |points| ==>
      && points[i].totalInvested == SumOf(es, SignedUpTo(points[i].date))
      && points[i].portfolioValue == points[i].totalInvested
      && points[i].pnl == 0.0
  {
    var counted := seq(|es|, _ => false);
    var running := 0.0;
    var current := start;
    points := [];
    NothingBeforeStart(es, start, step);
    while current <= now
      invariant current == start + |points| * step
      invariant |counted| == |es|
      invariant forall k :: 0 <= k < |es| ==> counted[k] == (es[k].date <= current - step)
      invariant running == SumOf(es, SignedUpTo(current - step))
      invariant forall i :: 0 <= i < |points| ==> points[i].date == start + i * step && points[i].date <= now
      invariant forall i :: 0 <= i < |points| ==>
        && points[i].totalInvested == SumOf(es, SignedUpTo(points[i].date))
        && points[i].portfolioValue == points[i].totalInvested
        && points[i].pnl == 0.0
      decreases now - current
    {
      counted, running := CatchUp(es, counted, running, current - step, current);
      assert current + step == start + (|points| + 1) * step;
      points := points + [PortfolioPoint(current, running, running, 0.0)];
      current := current + step;
    }
  }

  /** Adds to `running` every entry dated after `prev` and on or before
      `current`, marking it counted; entries already counted are skipped. */
  method CatchUp(es: seq<Entry>, counted: seq<bool>, running: real, prev: int, current: int)
    returns (counted': seq<bool>, running': real)
    requires prev < current
    requires |counted| == |es|
    requires forall k :: 0 <= k < |es| ==> counted[k] == (es[k].date <= prev)
    requires running == SumOf(es, SignedUpTo(prev))
    ensures |counted'| == |es|
    ensures forall k :: 0 <= k < |es| ==> counted'[k] == (es[k].date <= current)
    ensures running' == SumOf(es, SignedUpTo(current))
  {
    counted', running' := counted, running;
    var j := 0;
    assert es[j..] == es;
    while j < |es|
      invariant 0 <= j <= |es|
      invariant |counted'| == |es|
      invariant forall k :: 0 <= k < j ==> counted'[k] == (es[k].date <= current)
      invariant forall k :: j <= k < |es| ==> counted'[k] == (es[k].date <= prev)
      invariant running' == SumOf(es[..j], SignedUpTo(current)) + SumOf(es[j..], SignedUpTo(prev))
    {
      SumOfShift(es, j, SignedUpTo(current), SignedUpTo(prev));
      CatchUpStep(es[j], counted'[j], prev, current);
      if es[j].date <= current && !counted'[j] {
        if es[j].entryType == Buy {
          running' := running' + es[j].quantity * es[j].price;
        } else {
          running' := running' - es[j].quantity * es[j].price;
        }
        counted' := counted'[j := true];
      }
      j := j + 1;
    }
    assert es[..j] == es;
  }

  /** What one pass adds for an entry is the change of its contribution
      between the previous point and the current one. */
  lemma CatchUpStep(e: Entry, wasCounted: bool, prev: int, current: int)
    requires prev < current && wasCounted == (e.date <= prev)
    ensures (if e.date <= current && !wasCounted then Signed(e) else 0.0)
      == SignedUpTo(current)(e) - SignedUpTo(prev)(e)
  {
  }

  lemma NothingBeforeStart(es: seq<Entry>, start: int, step: nat)
    requires step > 0
    requires forall i :: 0 <= i < |es| ==> es[i].date >= start
    ensures SumOf(es, SignedUpTo(start - step)) == 0.0
  {
    SumOfScale(es, Signed, SignedUpTo(start - step), 0.0);
  }

  function OnOrBefore(day: int): Entry -> bool {
    (e: Entry) => e.date <= day
  }

  /** A point's investment is the signed notional of exactly the entries
      dated on or before it. */
  lemma PointIsEntrySum(es: seq<Entry>, day: int)
    ensures SumOf(es, SignedUpTo(day)) == SumOf(Filter(es, OnOrBefore(day)), Signed)
  {
    SumOfZeroOutside(es, OnOrBefore(day), SignedUpTo(day));
    var kept := Filter(es, OnOrBefore(day));
    forall x | x in kept ensures SignedUpTo(day)(x) == Signed(x) {
      var i :| 0 <= i < |kept| && kept[i] == x;
    }
    SumOfAgree(kept, SignedUpTo(day), Signed);
  }
}

=== FILE: auth_guard.dfy ===
/** The bearer-token guard in front of every authenticated route. Signature
    and expiry checking belong to the JWT library and come in as `verify`. */
module AuthGuard {
  import opened Common
  import opened Text

  const MissingToken := "Missing Bearer token"
  const InvalidToken := "Invalid/expired token"

  /** What `jwt.verify` yields for a token it accepts: the payload's `sub`,
      which may be absent. */
  datatype Payload = Payload(sub: Option<string>)

  /** `const [type, token] = authorization?.split(' ') || []` followed by
      `type === 'Bearer' ? token : undefined`. */
  function ExtractToken(authorization: Option<string>): (token: Option<string>)
    ensures authorization.None? ==> token.None?
    ensures authorization.Some? ==>
      var fields := Split(authorization.value, ' ');
      (token.Some? <==> fields[0] == "Bearer" && |fields| >= 2)
      && (token.Some? ==> token.value == fields[1] && ' ' !in token.value)
  {
    match authorization
    case None => None
    case Some(header) =>
      var fields := Split(header, ' ');
      if fields[0] == "Bearer" && |fields| >= 2 then Some(fields[1]) else None
  }

  /** The header a client sends: the scheme, one space, the token. */
  function BearerHeader(token: string): string { "Bearer " + token }

  /** A well-formed header gives back exactly its token, and anything after
      a further space is ignored. */
  lemma ExtractBearer(token: string, tail: string)
    requires ' ' !in token
    requires tail == [] || tail[0] == ' '
    ensures ExtractToken(Some(BearerHeader(token) + tail)) == Some(token)
  {
    var h := BearerHeader(token) + tail;
    assert IndexOfChar(h, ' ') == Some(6) by {
      assert h[6] == ' ' && h[..6] == "Bearer";
    }
    assert h[..6] == "Bearer";
    assert h[7..] == token + tail;
    assert Split(h, ' ') == ["Bearer"] + Split(token + tail, ' ');
    if tail == [] {
      assert token + tail == token;
      assert Split(token, ' ') == [token];
    } else {
      NoSepBefore(token, tail, ' ');
      assert (token + tail)[..|token|] == token;
    }
  }

  /** The scheme is matched case-sensitively: `bearer` is not `Bearer`. */
  lemma SchemeIsCaseSensitive(token: string)
    ensures ExtractToken(Some("bearer " + token)) == None
  {
    var h := "bearer " + token;
    assert IndexOfChar(h, ' ') == Some(6) by {
      assert h[6] == ' ' && ' ' !in h[..6];
    }
    assert Split(h, ' ')[0] == "bearer";
    assert "bearer"[0] != "Bearer"[0];
  }

  /** `Bearer` with nothing after it carries no token. */
  lemma SchemeAloneHasNoToken()
    ensures ExtractToken(Some("Bearer")) == None
  {
    assert IndexOfChar("Bearer", ' ') == None;
  }

  /** A double space after the scheme yields the empty second field. */
  lemma DoubleSpaceGivesEmptyToken(token: string)
    ensures ExtractToken(Some("Bearer  " + token)) == Some("")
  {
    var h := "Bearer  " + token;
    assert IndexOfChar(h, ' ') == Some(6) by {
      assert h[6] == ' ' && ' ' !in h[..6];
    }
    assert h[7..] == " " + token;
    assert IndexOfChar(h[7..], ' ') == Some(0);
    assert Split(h, ' ')[1] == "";
  }

  /** `canActivate`: answers with the value stored in `request.appClient`,
      or with the exception it throws. `verify` is `None` for a token the
      library rejects; `subject` is the configured `app.jwt.subscribe`. */
  function CanActivate(authorization: Option<string>, verify: string -> Option<Payload>, subject: Option<string>): (r: Result<Option<string>>)
    ensures var token := ExtractToken(authorization);
      (r == Err(Unauthorized(MissingToken)) <==> !Truthy(token))
      && (r == Err(Unauthorized(InvalidToken)) <==>
            Truthy(token) && (verify(token.value).None? || verify(token.value).value.sub != subject))
      && (r.Ok? <==> Truthy(token) && verify(token.value) == Some(Payload(subject)))
    ensures r.Ok? ==> r.value == subject
  {
    var token := ExtractToken(authorization);
    if !Truthy(token) then Err(Unauthorized(MissingToken))
    else
      match verify(token.value)
      case None => Err(Unauthorized(InvalidToken))
      case Some(payload) =>
        if payload.sub != subject then Err(Unauthorized(InvalidToken))
        else Ok(payload.sub)
  }

  /** Every request let through presented a `Bearer` header whose token the
      library accepted with the configured subject. */
  lemma AdmittedCarriesBearer(authorization: Option<string>, verify: string -> Option<Payload>, subject: Option<string>)
    requires CanActivate(authorization, verify, subject).Ok?
    ensures authorization.Some? && StartsWith(authorization.value, "Bearer ")
  {
    var h := authorization.value;
    var i := IndexOfChar(h, ' ').value;
    assert h[..i] == "Bearer";
    assert h[..i + 1] == "Bearer ";
  }

  /** A client that sends its token in the documented form is let through
      exactly when the library accepts it with the configured subject. */
  lemma WellFormedHeaderAdmitted(token: string, verify: string -> Option<Payload>, subject: Option<string>)
    requires token != "" && ' ' !in token
    ensures CanActivate(Some(BearerHeader(token)), verify, subject).Ok?
      <==> verify(token) == Some(Payload(subject))
  {
    ExtractBearer(token, "");
    assert BearerHeader(token) + "" == BearerHeader(token);
  }

  /** When no subject is configured, a verified token without `sub` is let
      through too: `undefined !== undefined` is false. */
  lemma UnsetSubjectAdmitsSubjectless(token: string, verify: string -> Option<Payload>)
    requires token != "" && ' ' !in token
    requires verify(token) == Some(Payload(None))
    ensures CanActivate(Some(BearerHeader(token)), verify, None) == Ok(None)
  {
    ExtractBearer(token, "");
    assert BearerHeader(token) + "" == BearerHeader(token);
  }
}

=== FILE: common.dfy ===
/** Shared vocabulary of the ledger model: optional values, results that carry
    the exceptions the services raise, and left folds over sequences that
    follow `Array.prototype.filter` and `Array.prototype.reduce`. */
module Common {

  /** A JavaScript `null`/`undefined` or a present value. */
  datatype Option<+T> = None | Some(value: T) {
    function GetOr(default: T): T {
      match this
      case Some(v) => v
      case None => default
    }
  }

  /** The exceptions of the back end, by kind; the message is the text the
      exception carries. `HttpError` is a bare `HttpException(message, status)`,
      `Network` an HTTP client error with the response status when a response
      arrived, and `Thrown` a plain `Error`. */
  datatype Error =
    | NotFound(message: string)
    | Conflict(message: string)
    | BadRequest(message: string)
    | Unauthorized(message: string)
    | ServiceUnavailable(message: string)
    | BadGateway(message: string)
    | HttpError(status: int, message: string)
    | Network(responseStatus: Option<int>, message: string)
    | Thrown(message: string)

  /** A call that either returns a value or throws. */
  datatype Result<+T> = Ok(value: T) | Err(error: Error)

  /** JavaScript truthiness of an optional string: absent and "" are falsy. */
  predicate Truthy(s: Option<string>) {
    s.Some? && s.value != ""
  }

  /** `a || b` on optional strings. */
  function OrElse(a: Option<string>, b: Option<string>): (r: Option<string>)
    ensures Truthy(a) ==> r == a
    ensures !Truthy(a) ==> r == b
  {
    if Truthy(a) then a else b
  }

  /** `s.reduce((acc, x) => acc + f(x), 0)`: a left fold, last element added last. */
  function SumOf<T>(s: seq<T>, f: T -> real): real
  {
    if |s| == 0 then 0.0 else SumOf(s[..|s| - 1], f) + f(s[|s| - 1])
  }

  /** `s.filter(p)`, defined element by element from the left. */
  function Filter<T>(s: seq<T>, p: T -> bool): (r: seq<T>)
    ensures |r| <= |s|
    ensures forall i :: 0 <= i < |r| ==> r[i] in s && p(r[i])
    ensures forall i :: 0 <= i < |s| && p(s[i]) ==> s[i] in r
  {
    if |s| == 0 then []
    else
      var init := Filter(s[..|s| - 1], p);
      init + (if p(s[|s| - 1]) then [s[|s| - 1]] else [])
  }

  /** `s.filter(p).length`. */
  function Count<T>(s: seq<T>, p: T -> bool): nat
  {
    |Filter(s, p)|
  }

  /** `s.map(f)`. */
  function Map<T, U>(s: seq<T>, f: T -> U): (r: seq<U>)
    ensures |r| == |s|
    ensures forall i :: 0 <= i < |s| ==> r[i] == f(s[i])
  {
    if |s| == 0 then [] else Map(s[..|s| - 1], f) + [f(s[|s| - 1])]
  }

  /** The index of the first element satisfying `p`, as `findIndex` returns it
      (None for -1). */
  function FindIndex<T>(s: seq<T>, p: T -> bool): (r: Option<nat>)
    ensures r.Some? ==> r.value < |s| && p(s[r.value])
    ensures r.Some? ==> forall j :: 0 <= j < r.value ==> !p(s[j])
    ensures r.None? ==> forall j :: 0 <= j < |s| ==> !p(s[j])
  {
    if |s| == 0 then None
    else if p(s[0]) then Some(0)
    else
      match FindIndex(s[1..], p)
      case None => None
      case Some(i) => Some(i + 1)
  }

  /** `s.find(p)`: the first element satisfying `p`. */
  function FindFirst<T>(s: seq<T>, p: T -> bool): (r: Option<T>)
    ensures r.Some? ==> r.value in s && p(r.value)
    ensures r.None? ==> forall i :: 0 <= i < |s| ==> !p(s[i])
    ensures r.Some? ==> exists i :: 0 <= i < |s| && s[i] == r.value && forall j :: 0 <= j < i ==> !p(s[j])
  {
    match FindIndex(s, p)
    case None => None
    case Some(i) => Some(s[i])
  }

  /** No two elements share an identifier. */
  ghost predicate UniqueIds<T>(s: seq<T>, id: T -> string) {
    forall i, j :: 0 <= i < j < |s| ==> id(s[i]) != id(s[j])
  }

  lemma {:induction false} SumOfAppend<T>(a: seq<T>, b: seq<T>, f: T -> real)
    ensures SumOf(a + b, f) == SumOf(a, f) + SumOf(b, f)
    decreases |b|
  {
    if |b| == 0 {
      assert a + b == a;
    } else {
      assert (a + b)[..|a + b| - 1] == a + b[..|b| - 1];
      SumOfAppend(a, b[..|b| - 1], f);
    }
  }

  /** Summation does not depend on the order of the summands. */
  lemma {:induction false} SumOfPermutation<T>(a: seq<T>, b: seq<T>, f: T -> real)
    requires multiset(a) == multiset(b)
    ensures SumOf(a, f) == SumOf(b, f)
    decreases |a|
  {
    if |a| == 0 {
      assert |b| == |multiset(b)| == 0;
    } else {
      var n := |a| - 1;
      var x := a[n];
      assert a == a[..n] + [x];
      assert x in multiset(b);
      var i :| 0 <= i < |b| && b[i] == x;
      var rest := b[..i] + b[i + 1..];
      assert b == b[..i] + [x] + b[i + 1..];
      assert multiset(rest) == multiset(b[..i]) + multiset(b[i + 1..]);
      assert multiset(b) == multiset(rest) + multiset{x};
      assert multiset(a) == multiset(a[..n]) + multiset{x};
      assert multiset(a[..n]) == multiset(rest) by {
        assert forall y :: multiset(a[..n])[y] == multiset(a)[y] - multiset{x}[y];
        assert forall y :: multiset(rest)[y] == multiset(b)[y] - multiset{x}[y];
      }
      SumOfPermutation(a[..n], rest, f);
      SumOfAppend(b[..i] + [x], b[i + 1..], f);
      SumOfAppend(b[..i], [x], f);
      SumOfAppend(b[..i], b[i + 1..], f);
      assert SumOf([x], f) == f(x) by {
        assert [x][..0] == [];
      }
    }
  }

  lemma {:induction false} FilterAppend<T>(a: seq<T>, b: seq<T>, p: T -> bool)
    ensures Filter(a + b, p) == Filter(a, p) + Filter(b, p)
    decreases |b|
  {
    if |b| == 0 {
      assert a + b == a;
    } else {
      assert (a + b)[..|a + b| - 1] == a + b[..|b| - 1];
      FilterAppend(a, b[..|b| - 1], p);
    }
  }

  /** `r` is `s` read at the strictly increasing positions `idx`. */
  ghost predicate PicksInOrder<T>(r: seq<T>, s: seq<T>, idx: seq<int>) {
    && |idx| == |r|
    && (forall k :: 0 <= k < |idx| ==> 0 <= idx[k] < |s| && s[idx[k]] == r[k])
    && (forall k, l :: 0 <= k < l < |idx| ==> idx[k] < idx[l])
  }

  /** A filter keeps the relative order of what it keeps. */
  lemma {:induction false} FilterKeepsOrder<T>(s: seq<T>, p: T -> bool)
    ensures exists idx :: PicksInOrder(Filter(s, p), s, idx)
  {
    if |s| > 0 {
      var n := |s| - 1;
      FilterKeepsOrder(s[..n], p);
      var init := Filter(s[..n], p);
      var idx :| PicksInOrder(init, s[..n], idx);
      assert forall k :: 0 <= k < |idx| ==> s[idx[k]] == s[..n][idx[k]];
      if p(s[n]) {
        assert Filter(s, p) == init + [s[n]];
        assert PicksInOrder(Filter(s, p), s, idx + [n]);
      } else {
        assert Filter(s, p) == init;
        assert PicksInOrder(Filter(s, p), s, idx);
      }
    } else {
      assert PicksInOrder(Filter(s, p), s, []);
    }
  }

  /** `r` is `s` read at the increasing indices `idx`, and these are
      exactly the indices whose element satisfies `p`: what a filter keeps,
      in order and as often as it occurs. */
  ghost predicate KeepsExactly<T>(r: seq<T>, s: seq<T>, p: T -> bool, idx: seq<int>) {
    && PicksInOrder(r, s, idx)
    && (forall i :: 0 <= i < |s| ==> (p(s[i]) <==> i in idx))
  }

  /** A filter keeps exactly the passing elements, in order. */
  lemma {:induction false} FilterKeepsExactly<T>(s: seq<T>, p: T -> bool)
    ensures exists idx :: KeepsExactly(Filter(s, p), s, p, idx)
  {
    if |s| > 0 {
      var n := |s| - 1;
      FilterKeepsExactly(s[..n], p);
      var idx :| KeepsExactly(Filter(s[..n], p), s[..n], p, idx);
      KeepsExactlyStep(Filter(s[..n], p), s, p, idx);
      if p(s[n]) {
        assert Filter(s, p) == Filter(s[..n], p) + [s[n]];
        assert KeepsExactly(Filter(s, p), s, p, idx + [n]);
      } else {
        assert Filter(s, p) == Filter(s[..n], p);
        assert KeepsExactly(Filter(s, p), s, p, idx);
      }
    } else {
      assert KeepsExactly(Filter(s, p), s, p, []);
    }
  }

  /** One more element of `s` extends the picks when it passes. */
  lemma KeepsExactlyStep<T>(r: seq<T>, s: seq<T>, p: T -> bool, idx: seq<int>)
    requires |s| > 0 && KeepsExactly(r, s[..|s| - 1], p, idx)
    ensures p(s[|s| - 1]) ==> KeepsExactly(r + [s[|s| - 1]], s, p, idx + [|s| - 1])
    ensures !p(s[|s| - 1]) ==> KeepsExactly(r, s, p, idx)
  {
    var n := |s| - 1;
    assert forall k :: 0 <= k < |idx| ==> idx[k] < n && s[idx[k]] == s[..n][idx[k]];
    assert n !in idx;
    forall i | 0 <= i < n ensures (p(s[i]) <==> i in idx) {
      assert s[i] == s[..n][i];
    }
    if p(s[n]) {
      var idx' := idx + [n];
      forall i | 0 <= i < n ensures (i in idx <==> i in idx') {
      }
      assert PicksInOrder(r + [s[n]], s, idx');
    }
  }

  /** A filter never keeps more than its input, and keeps everything exactly
      when every element passes. */
  lemma {:induction false} FilterAll<T>(s: seq<T>, p: T -> bool)
    requires forall x :: x in s ==> p(x)
    ensures Filter(s, p) == s
  {
    if |s| > 0 {
      FilterAll(s[..|s| - 1], p);
      assert s[..|s| - 1] + [s[|s| - 1]] == s;
    }
  }

  /** Splitting a sum along a predicate: the part that passes plus the part
      that fails. */
  lemma {:induction false} SumOfSplit<T>(s: seq<T>, p: T -> bool, q: T -> bool, f: T -> real)
    requires forall x :: x in s ==> (q(x) <==> !p(x))
    ensures SumOf(s, f) == SumOf(Filter(s, p), f) + SumOf(Filter(s, q), f)
  {
    if |s| > 0 {
      var n := |s| - 1;
      SumOfSplit(s[..n], p, q, f);
      var x := s[n];
      SumOfAppend(Filter(s[..n], p), if p(x) then [x] else [], f);
      SumOfAppend(Filter(s[..n], q), if q(x) then [x] else [], f);
      assert SumOf([x], f) == f(x) by {
        assert [x][..0] == [];
      }
    }
  }

  /** A sum where every term is zero outside `p` equals the sum over `p`. */
  lemma {:induction false} SumOfZeroOutside<T>(s: seq<T>, p: T -> bool, f: T -> real)
    requires forall x :: x in s && !p(x) ==> f(x) == 0.0
    ensures SumOf(s, f) == SumOf(Filter(s, p), f)
  {
    if |s| > 0 {
      var n := |s| - 1;
      var init, x := s[..n], s[n];
      assert forall y :: y in init && !p(y) ==> f(y) == 0.0 by {
        forall y | y in init ensures y in s {
          var a :| 0 <= a < n && init[a] == y;
          assert s[a] == y;
        }
      }
      SumOfZeroOutside(init, p, f);
      assert SumOf(s, f) == SumOf(init, f) + f(x);
      if p(x) {
        assert Filter(s, p) == Filter(init, p) + [x];
        SumOfAppend(Filter(init, p), [x], f);
        SumOfSingleton(x, f);
      } else {
        assert x in s;
        assert Filter(s, p) == Filter(init, p);
      }
    }
  }

  lemma SumOfSingleton<T>(x: T, f: T -> real)
    ensures SumOf([x], f) == f(x)
  {
    assert [x][..0] == [];
  }

  /** Sums of two functions that agree on every element are equal. */
  lemma {:induction false} SumOfAgree<T>(s: seq<T>, f: T -> real, g: T -> real)
    requires forall x :: x in s ==> f(x) == g(x)
    ensures SumOf(s, f) == SumOf(s, g)
  {
    if |s| > 0 {
      SumOfAgree(s[..|s| - 1], f, g);
    }
  }

  /** A constant factor comes out of a sum. */
  lemma {:induction false} SumOfScale<T>(s: seq<T>, f: T -> real, g: T -> real, c: real)
    requires forall i :: 0 <= i < |s| ==> g(s[i]) == c * f(s[i])
    ensures SumOf(s, g) == c * SumOf(s, f)
  {
    if |s| > 0 {
      SumOfScale(s[..|s| - 1], f, g, c);
    }
  }

  /** Negating every term negates the sum. */
  lemma {:induction false} SumOfNegated<T>(s: seq<T>, f: T -> real, g: T -> real)
    requires forall i :: 0 <= i < |s| ==> g(s[i]) == -f(s[i])
    ensures SumOf(s, g) == -SumOf(s, f)
  {
    if |s| > 0 {
      SumOfNegated(s[..|s| - 1], f, g);
    }
  }

  /** Two lists whose terms agree position by position have the same sum. */
  lemma {:induction false} SumOfPairwise<T, U>(a: seq<T>, b: seq<U>, f: T -> real, g: U -> real)
    requires |a| == |b|
    requires forall i :: 0 <= i < |a| ==> f(a[i]) == g(b[i])
    ensures SumOf(a, f) == SumOf(b, g)
  {
    if |a| > 0 {
      SumOfPairwise(a[..|a| - 1], b[..|b| - 1], f, g);
    }
  }

  /** Summing over a mapped sequence is summing the composition. */
  lemma {:induction false} SumOfMap<T, U>(s: seq<T>, h: T -> U, f: U -> real, g: T -> real)
    requires forall x :: x in s ==> g(x) == f(h(x))
    ensures SumOf(Map(s, h), f) == SumOf(s, g)
  {
    if |s| > 0 {
      var n := |s| - 1;
      SumOfMap(s[..n], h, f, g);
      assert Map(s, h)[..n] == Map(s[..n], h);
    }
  }

  /** Elements satisfying two exclusive predicates are counted at most once. */
  lemma {:induction false} CountDisjoint<T>(s: seq<T>, p: T -> bool, q: T -> bool)
    requires forall x :: x in s ==> !(p(x) && q(x))
    ensures Count(s, p) + Count(s, q) <= |s|
  {
    if |s| > 0 {
      CountDisjoint(s[..|s| - 1], p, q);
    }
  }

  /** Summing over the union of two exclusive filters is summing over each. */
  lemma {:induction false} SumOfFilterUnion<T>(s: seq<T>, p: T -> bool, q: T -> bool, u: T -> bool, f: T -> real)
    requires forall x :: x in s ==> (u(x) <==> p(x) || q(x)) && !(p(x) && q(x))
    ensures SumOf(Filter(s, u), f) == SumOf(Filter(s, p), f) + SumOf(Filter(s, q), f)
  {
    if |s| > 0 {
      var n := |s| - 1;
      var x := s[n];
      SumOfFilterUnion(s[..n], p, q, u, f);
      SumOfAppend(Filter(s[..n], u), if u(x) then [x] else [], f);
      SumOfAppend(Filter(s[..n], p), if p(x) then [x] else [], f);
      SumOfAppend(Filter(s[..n], q), if q(x) then [x] else [], f);
      SumOfSingleton(x, f);
    }
  }

  /** `[...s].reverse()`. */
  function Reverse<T>(s: seq<T>): (r: seq<T>)
    ensures |r| == |s|
    ensures forall i :: 0 <= i < |s| ==> r[i] == s[|s| - 1 - i]
  {
    if |s| == 0 then [] else [s[|s| - 1]] + Reverse(s[..|s| - 1])
  }

  /** The first `n` elements, or all of them when there are fewer (`take`). */
  function Take<T>(s: seq<T>, n: nat): (r: seq<T>)
    ensures |r| == if |s| < n then |s| else n
    ensures r == s[..|r|]
  {
    if |s| < n then s else s[..n]
  }

  /** Moving the split point of a two-function sum one element to the right
      replaces that element's `g` term by its `f` term. */
  lemma SumOfShift<T>(s: seq<T>, j: nat, f: T -> real, g: T -> real)
    requires j < |s|
    ensures SumOf(s[..j + 1], f) + SumOf(s[j + 1..], g)
         == SumOf(s[..j], f) + SumOf(s[j..], g) + f(s[j]) - g(s[j])
  {
    assert s[..j + 1][..j] == s[..j];
    assert s[j..] == [s[j]] + s[j + 1..];
    SumOfAppend([s[j]], s[j + 1..], g);
    SumOfSingleton(s[j], g);
  }

  /** The length of the longest string in `used`. */
  function MaxLength(used: seq<string>): (m: nat)
    ensures forall i :: 0 <= i < |used| ==> |used[i]| <= m
  {
    if |used| == 0 then 0
    else
      var m := MaxLength(used[..|used| - 1]);
      if |used[|used| - 1]| > m then |used[|used| - 1]| else m
  }

  /** A key the store has not handed out yet, standing for the generated
      primary key of an insert. */
  function FreshId(used: seq<string>): (r: string)
    ensures r !in used
  {
    seq(MaxLength(used) + 1, _ => 'k')
  }

  /** Filters with predicates that agree on the input keep the same elements. */
  lemma {:induction false} FilterAgree<T>(s: seq<T>, p: T -> bool, q: T -> bool)
    requires forall i :: 0 <= i < |s| ==> p(s[i]) == q(s[i])
    ensures Filter(s, p) == Filter(s, q)
  {
    if |s| > 0 {
      FilterAgree(s[..|s| - 1], p, q);
    }
  }

  /** Dropping elements keeps identifiers unique. */
  lemma UniqueIdsFilter<T>(s: seq<T>, id: T -> string, p: T -> bool)
    requires UniqueIds(s, id)
    ensures UniqueIds(Filter(s, p), id)
  {
    var r := Filter(s, p);
    forall i, j | 0 <= i < j < |r| ensures id(r[i]) != id(r[j]) {
      FilterIndices(s, p, i, j);
    }
  }

  /** Two positions of a filtered list come from two positions of the input
      in the same order. */
  lemma {:induction false} FilterIndices<T>(s: seq<T>, p: T -> bool, i: nat, j: nat)
    requires i < j < |Filter(s, p)|
    ensures exists a, b :: 0 <= a < b < |s| && s[a] == Filter(s, p)[i] && s[b] == Filter(s, p)[j]
  {
    var n := |s| - 1;
    var init := Filter(s[..n], p);
    if j < |init| {
      FilterIndices(s[..n], p, i, j);
      var a, b :| 0 <= a < b < n && s[..n][a] == init[i] && s[..n][b] == init[j];
      assert s[a] == Filter(s, p)[i] && s[b] == Filter(s, p)[j];
    } else {
      assert Filter(s, p)[j] == s[n];
      assert init[i] in s[..n];
      var a :| 0 <= a < n && s[..n][a] == init[i];
      assert s[a] == Filter(s, p)[i];
    }
  }

  /** A reordering of a filter holds exactly the input elements that pass. */
  lemma ReorderedFilter<T>(s: seq<T>, p: T -> bool, r: seq<T>)
    requires multiset(r) == multiset(Filter(s, p))
    ensures forall i :: 0 <= i < |r| ==> r[i] in s && p(r[i])
    ensures forall i :: 0 <= i < |s| && p(s[i]) ==> s[i] in r
    ensures |r| <= |s|
  {
    var kept := Filter(s, p);
    forall i | 0 <= i < |r| ensures r[i] in s && p(r[i]) {
      assert r[i] in multiset(kept);
      var k :| 0 <= k < |kept| && kept[k] == r[i];
    }
    forall i | 0 <= i < |s| && p(s[i]) ensures s[i] in r {
      assert s[i] in kept;
      assert s[i] in multiset(r);
    }
    assert |multiset(r)| == |multiset(kept)|;
  }

  /** Searching after appending an element that is the only match finds it. */
  lemma FindFirstAppended<T>(s: seq<T>, x: T, p: T -> bool)
    requires forall i :: 0 <= i < |s| ==> !p(s[i])
    requires p(x)
    ensures FindFirst(s + [x], p) == Some(x)
  {
    var t := s + [x];
    assert t[|s|] == x;
    assert forall i :: 0 <= i < |s| ==> t[i] == s[i];
  }

  /** No element occurs twice. */
  ghost predicate Distinct<T>(s: seq<T>) {
    forall i, j :: 0 <= i < j < |s| ==> s[i] != s[j]
  }

  /** `Array.from(new Set(s))`: first occurrences, in order. */
  function Dedup<T(==,!new)>(s: seq<T>): (r: seq<T>)
    ensures forall x :: x in r <==> x in s
    ensures Distinct(r)
  {
    if |s| == 0 then []
    else
      var init := Dedup(s[..|s| - 1]);
      var x := s[|s| - 1];
      if x in init then init else init + [x]
  }

  function Elements<T>(s: seq<T>): set<T> {
    set x | x in s
  }

  /** A sequence has at most as many distinct elements as positions, and
      exactly as many when no element repeats. */
  lemma {:induction false} ElementsCard<T>(s: seq<T>)
    ensures |Elements(s)| <= |s|
    ensures |Elements(s)| == |s| <==> Distinct(s)
  {
    if |s| > 0 {
      var n := |s| - 1;
      ElementsCard(s[..n]);
      assert Elements(s) == Elements(s[..n]) + {s[n]};
      if s[n] in s[..n] {
        assert Elements(s) == Elements(s[..n]);
        var k :| 0 <= k < n && s[..n][k] == s[n];
        assert s[k] == s[n];
      } else {
        assert Distinct(s) <==> Distinct(s[..n]) by {
          if Distinct(s[..n]) {
            forall i, j | 0 <= i < j < |s| ensures s[i] != s[j] {
              if j < n {
                assert s[..n][i] != s[..n][j];
              } else {
                assert s[i] in s[..n];
              }
            }
          }
          if Distinct(s) {
            forall i, j | 0 <= i < j < n ensures s[..n][i] != s[..n][j] {
              assert s[i] != s[j];
            }
          }
        }
      }
    }
  }

  /** A subset is no larger, and a subset just as large is the whole set. */
  lemma SubsetCard<T>(a: set<T>, b: set<T>)
    requires a <= b
    ensures |a| <= |b|
    ensures |a| == |b| ==> a == b
  {
    assert b == a + (b - a);
    assert a !! (b - a);
    if |a| == |b| {
      assert |b - a| == 0;
    }
  }

  /** Appending a row whose key is new keeps keys unique. */
  lemma AppendFresh<T>(s: seq<T>, id: T -> string, x: T)
    requires UniqueIds(s, id)
    requires id(x) !in Map(s, id)
    ensures UniqueIds(s + [x], id)
  {
    forall i | 0 <= i < |s| ensures id(s[i]) != id(x) {
      assert Map(s, id)[i] == id(s[i]);
    }
  }

  /** Filtering out only the appended row gives back the original rows. */
  lemma FilterDropsAppended<T>(s: seq<T>, x: T, p: T -> bool)
    requires forall i :: 0 <= i < |s| ==> p(s[i])
    requires !p(x)
    ensures Filter(s + [x], p) == s
  {
    FilterAll(s, p);
    FilterAppend(s, [x], p);
    assert [x][..0] == [];
  }

  /** The index `FindIndex` returns is the first one satisfying `p`. */
  lemma FindIndexIsFirst<T>(s: seq<T>, p: T -> bool, i: nat)
    requires i < |s| && p(s[i])
    requires forall k :: 0 <= k < i ==> !p(s[k])
    ensures FindIndex(s, p) == Some(i)
  {
  }

  /** A map that keeps the search predicate's verdict on every element
      finds the image of the same element. */
  lemma FindFirstMap<T>(s: seq<T>, f: T -> T, p: T -> bool)
    requires forall i :: 0 <= i < |s| ==> p(f(s[i])) == p(s[i])
    ensures FindFirst(s, p).None? ==> FindFirst(Map(s, f), p).None?
    ensures FindFirst(s, p).Some? ==> FindFirst(Map(s, f), p) == Some(f(FindFirst(s, p).value))
  {
    var m := Map(s, f);
    match FindIndex(s, p)
    case None =>
      assert forall k :: 0 <= k < |m| ==> !p(m[k]);
    case Some(i) =>
      assert forall k :: 0 <= k < i ==> !p(m[k]);
      FindIndexIsFirst(m, p, i);
  }

  /** Mapping one more element of a prefix appends its image. */
  lemma MapPrefixStep<T, U>(s: seq<T>, k: nat, f: T -> U)
    requires k < |s|
    ensures Map(s[..k + 1], f) == Map(s[..k], f) + [f(s[k])]
  {
    assert s[..k + 1][..k] == s[..k];
  }

  /** The key of a row is not among the keys of the rows before it. */
  lemma NotAmongEarlier<T>(s: seq<T>, k: nat, id: T -> string)
    requires UniqueIds(s, id) && k < |s|
    ensures id(s[k]) !in Map(s[..k], id)
  {
  }
}

=== FILE: dtos.dfy ===
/** The request bodies and query of the ledger, with the `class-validator`
    decorators on their properties read as predicates over the raw JSON
    value of each property. `Errors` functions list the properties that
    fail, in declaration order, as `validate` reports them. */
module Dtos {
  import opened Common
  import Entities
  import Analytics

  /** A raw property value as it arrives in a body or query. */
  datatype Value =
    | Missing
    | Null
    | Num(n: real)
    | NaN
    | PosInf
    | NegInf
    | Str(s: string)
    | Bool(b: bool)

  // ---------------------------------------------------------------------
  // The decorators

  /** `@IsOptional()`: a null or undefined value skips the other rules. */
  predicate Skipped(v: Value) { v.Missing? || v.Null? }

  /** `@IsNotEmpty()`: not `''`, `null` or `undefined`. */
  predicate IsNotEmpty(v: Value) { !(v.Missing? || v.Null? || v == Str("")) }

  /** `@IsIn(allowed)`: strictly equal to one of the allowed strings. */
  predicate IsIn(v: Value, allowed: seq<string>) { v.Str? && v.s in allowed }

  function Pow10(k: nat): (p: real)
    ensures p >= 1.0
  {
    if k == 0 then 1.0 else 10.0 * Pow10(k - 1)
  }

  /** `x` has at most `k` digits after the decimal point. */
  predicate DecimalPlacesAtMost(x: real, k: nat) {
    (x * Pow10(k)).Floor as real == x * Pow10(k)
  }

  /** `@IsNumber(options)`: a finite number (NaN and the infinities are
      refused unless allowed, which no property here does), with at most
      `maxDecimalPlaces` decimals when that option is given. */
  predicate IsNumber(v: Value, maxDecimalPlaces: Option<nat>) {
    v.Num? && (maxDecimalPlaces.None? || DecimalPlacesAtMost(v.n, maxDecimalPlaces.value))
  }

  /** `@IsPositive()`: a number greater than zero. */
  predicate IsPositive(v: Value) { (v.Num? && v.n > 0.0) || v.PosInf? }

  /** `@IsDateString()`: a string that is an ISO 8601 date; recognising the
      format is the `iso` oracle. */
  predicate IsDateString(v: Value, iso: string -> bool) { v.Str? && iso(v.s) }

  /** The properties the rules below are attached to. */
  datatype Property =
    | EntryType | Quantity | Price | Tax | Date
    | AccountId | SymbolId | Product | Type | Leverage | FirstEntry
    | Code | Name
    | Period

  /** The property, when its rules fail. */
  function Check(ok: bool, property: Property): seq<Property> { if ok then [] else [property] }

  const Products := ["crypto", "stock", "etf", "derivative"]

  // ---------------------------------------------------------------------
  // CreateEntryDto and UpdateEntryDto

  datatype EntryBody = EntryBody(entryType: Value, quantity: Value, price: Value, tax: Value, date: Value)

  const EntryProperties := [EntryType, Quantity, Price, Tax, Date]

  /** The failing properties of a `CreateEntryDto`. */
  function CreateEntryErrors(d: EntryBody, iso: string -> bool): (r: seq<Property>)
    ensures forall p :: p in r ==> p in EntryProperties
    ensures EntryType in r <==> !(d.entryType == Str("buy") || d.entryType == Str("sell"))
    ensures Quantity in r <==> !d.quantity.Num?
    ensures Price in r <==> !d.price.Num?
    ensures Tax in r <==> !(d.tax.Missing? || d.tax.Null? || d.tax.Num?)
    ensures Date in r <==> !(d.date.Str? && d.date.s != "" && iso(d.date.s))
  {
    Check(IsNotEmpty(d.entryType) && IsIn(d.entryType, ["buy", "sell"]), EntryType)
    + AmountErrors(d, false)
    + Check(IsNotEmpty(d.date) && IsDateString(d.date, iso), Date)
  }

  /** The number rules on quantity, price and tax; in an update every one of
      them is optional, in a create only the tax is. */
  function AmountErrors(d: EntryBody, update: bool): (r: seq<Property>)
    ensures forall p :: p in r ==> p in [Quantity, Price, Tax]
    ensures Quantity in r <==> !(d.quantity.Num? || (update && Skipped(d.quantity)))
    ensures Price in r <==> !(d.price.Num? || (update && Skipped(d.price)))
    ensures Tax in r <==> !(d.tax.Missing? || d.tax.Null? || d.tax.Num?)
  {
    Check((update && Skipped(d.quantity)) || (IsNotEmpty(d.quantity) && IsNumber(d.quantity, None)), Quantity)
    + Check((update && Skipped(d.price)) || (IsNotEmpty(d.price) && IsNumber(d.price, None)), Price)
    + Check(Skipped(d.tax) || IsNumber(d.tax, None), Tax)
  }

  /** The failing properties of an `UpdateEntryDto`: the same rules, each
      skipped when the property is absent. */
  function UpdateEntryErrors(d: EntryBody, iso: string -> bool): (r: seq<Property>)
    ensures forall p :: p in r ==> p in EntryProperties
    ensures EntryType in r <==> !(Skipped(d.entryType) || d.entryType == Str("buy") || d.entryType == Str("sell"))
    ensures Quantity in r <==> !(Skipped(d.quantity) || d.quantity.Num?)
    ensures Price in r <==> !(Skipped(d.price) || d.price.Num?)
    ensures Tax in r <==> !(Skipped(d.tax) || d.tax.Num?)
    ensures Date in r <==> !(Skipped(d.date) || (d.date.Str? && iso(d.date.s)))
  {
    Check(Skipped(d.entryType) || IsIn(d.entryType, ["buy", "sell"]), EntryType)
    + AmountErrors(d, true)
    + Check(Skipped(d.date) || IsDateString(d.date, iso), Date)
  }

  /** Quantities and prices carry no sign rule: zero and negative numbers
      pass. */
  lemma NegativeQuantityPasses(q: real, price: real, date: string, iso: string -> bool)
    requires q <= 0.0 && price <= 0.0 && date != "" && iso(date)
    ensures CreateEntryErrors(EntryBody(Str("sell"), Num(q), Num(price), Missing, Str(date)), iso) == []
  {
  }

  /** Every field of an update is optional, so an empty patch passes. */
  lemma EmptyUpdatePasses(iso: string -> bool)
    ensures UpdateEntryErrors(EntryBody(Missing, Missing, Missing, Missing, Missing), iso) == []
  {
  }

  /** Every property an update refuses, a create refuses too. */
  lemma UpdateIsLaxer(d: EntryBody, iso: string -> bool)
    ensures forall p :: p in UpdateEntryErrors(d, iso) ==> p in CreateEntryErrors(d, iso)
  {
    var u := UpdateEntryErrors(d, iso);
    var c := CreateEntryErrors(d, iso);
    forall p | p in u ensures p in c {
      if p == Quantity || p == Price || p == Tax {
        assert p in AmountErrors(d, true);
      }
    }
  }

  // ---------------------------------------------------------------------
  // CreateOperationDto

  /** `firstEntry`: absent or null, or an object checked by its own rules. */
  datatype Nested = NoEntry | Entry(body: EntryBody)

  datatype OperationBody = OperationBody(
    accountId: Value,
    symbolId: Value,
    product: Value,
    operationType: Value,
    leverage: Value,
    firstEntry: Nested)

  /** The failing properties of a `CreateOperationDto`. */
  function CreateOperationErrors(d: OperationBody, iso: string -> bool): (r: seq<Property>)
    ensures forall p :: p in r ==> p in [AccountId, SymbolId, Product, Type, Leverage, FirstEntry]
    ensures AccountId in r <==> !IsNotEmpty(d.accountId)
    ensures SymbolId in r <==> !IsNotEmpty(d.symbolId)
    ensures Product in r <==> !(d.product.Str? && d.product.s in Products)
    ensures Type in r <==> !(d.operationType == Str("long") || d.operationType == Str("short"))
    ensures Leverage in r <==>
      !(d.leverage.Missing? || d.leverage.Null? || (d.leverage.Num? && d.leverage.n > 0.0 && DecimalPlacesAtMost(d.leverage.n, 2)))
    ensures FirstEntry in r <==> d.firstEntry.Entry? && CreateEntryErrors(d.firstEntry.body, iso) != []
  {
    IdentityErrors(d) + SizingErrors(d, iso)
  }

  /** The rules on what is traded: account, symbol, product and side. */
  function IdentityErrors(d: OperationBody): (r: seq<Property>)
    ensures forall p :: p in r ==> p in [AccountId, SymbolId, Product, Type]
    ensures AccountId in r <==> !IsNotEmpty(d.accountId)
    ensures SymbolId in r <==> !IsNotEmpty(d.symbolId)
    ensures Product in r <==> !(d.product.Str? && d.product.s in Products)
    ensures Type in r <==> !(d.operationType == Str("long") || d.operationType == Str("short"))
  {
    Check(IsNotEmpty(d.accountId), AccountId)
    + Check(IsNotEmpty(d.symbolId), SymbolId)
    + Check(IsNotEmpty(d.product) && IsIn(d.product, Products), Product)
    + Check(IsNotEmpty(d.operationType) && IsIn(d.operationType, ["long", "short"]), Type)
  }

  /** The rules on leverage and the nested first entry. */
  function SizingErrors(d: OperationBody, iso: string -> bool): (r: seq<Property>)
    ensures forall p :: p in r ==> p in [Leverage, FirstEntry]
    ensures Leverage in r <==>
      !(d.leverage.Missing? || d.leverage.Null? || (d.leverage.Num? && d.leverage.n > 0.0 && DecimalPlacesAtMost(d.leverage.n, 2)))
    ensures FirstEntry in r <==> d.firstEntry.Entry? && CreateEntryErrors(d.firstEntry.body, iso) != []
  {
    var entryOk := d.firstEntry.NoEntry? || CreateEntryErrors(d.firstEntry.body, iso) == [];
    Check(Skipped(d.leverage) || (IsNumber(d.leverage, Some(2)) && IsPositive(d.leverage)), Leverage)
    + Check(entryOk, FirstEntry)
  }

  /** A leverage with three decimals, or of zero, is refused. */
  lemma LeverageRules(d: OperationBody, iso: string -> bool)
    ensures d.leverage == Num(1.005) ==> Leverage in CreateOperationErrors(d, iso)
    ensures d.leverage == Num(0.0) ==> Leverage in CreateOperationErrors(d, iso)
    ensures d.leverage == Num(2.5) ==> Leverage !in CreateOperationErrors(d, iso)
  {
    if d.leverage == Num(1.005) {
      assert Pow10(2) == 100.0;
      assert 1.005 * 100.0 == 100.5;
      assert (100.5).Floor == 100;
    }
    if d.leverage == Num(2.5) {
      assert Pow10(2) == 100.0;
      assert (2.5 * 100.0).Floor == 250;
    }
  }

  // ---------------------------------------------------------------------
  // CreateSymbolDto

  datatype SymbolBody = SymbolBody(
    code: Value,
    marketCode: Value,
    marketProvider: Value,
    marketExchange: Value,
    name: Value,
    logo: Value,
    product: Value)

  /** The failing properties of a `CreateSymbolDto`; the four optional
      properties carry no rule beyond `@IsOptional()`. */
  function CreateSymbolErrors(d: SymbolBody): (r: seq<Property>)
    ensures forall p :: p in r ==> p in [Code, Name, Product]
    ensures Code in r <==> !IsNotEmpty(d.code)
    ensures Name in r <==> !IsNotEmpty(d.name)
    ensures Product in r <==> !(d.product.Str? && d.product.s in Products)
  {
    Check(IsNotEmpty(d.code), Code)
    + Check(IsNotEmpty(d.name), Name)
    + Check(IsNotEmpty(d.product) && IsIn(d.product, Products), Product)
  }

  /** The optional properties never decide whether a symbol body passes. */
  lemma OptionalSymbolFieldsAreFree(d: SymbolBody, marketCode: Value, marketProvider: Value, marketExchange: Value, logo: Value)
    ensures CreateSymbolErrors(d.(marketCode := marketCode, marketProvider := marketProvider,
                                   marketExchange := marketExchange, logo := logo))
         == CreateSymbolErrors(d)
  {
  }

  // ---------------------------------------------------------------------
  // AnalyticsQueryDto

  const Periods := ["7d", "1m", "3m", "6m", "30d", "90d", "1y", "5y", "all"]

  datatype AnalyticsQuery = AnalyticsQuery(period: Value, product: Value, accountId: Value)

  /** The failing properties of an `AnalyticsQueryDto`. */
  function QueryErrors(q: AnalyticsQuery): (r: seq<Property>)
    ensures forall p :: p in r ==> p in [Period, Product]
    ensures Period in r <==> !(q.period.Missing? || q.period.Null? || (q.period.Str? && q.period.s in Periods))
    ensures Product in r <==> !(q.product.Missing? || q.product.Null? || q.product == Str("trading") || q.product == Str("etf"))
  {
    Check(Skipped(q.period) || IsIn(q.period, Periods), Period)
    + Check(Skipped(q.product) || IsIn(q.product, ["trading", "etf"]), Product)
  }

  /** The period the controllers pass on: `query.period || '30d'`. */
  function EffectivePeriod(q: AnalyticsQuery): (p: string)
    ensures Period !in QueryErrors(q) ==> p in Periods
  {
    if q.period.Str? && q.period.s != "" then q.period.s else "30d"
  }

  /** Four periods the query accepts reach the service, which knows no
      window for them and so reports over all time, like `all`. */
  lemma AcceptedPeriodsWithoutCutoff(q: AnalyticsQuery, clock: Entities.Clock)
    requires q.period in [Str("1m"), Str("3m"), Str("6m"), Str("5y")]
    ensures Period !in QueryErrors(q)
    ensures Analytics.DateFromPeriod(EffectivePeriod(q), clock).None?
  {
    Analytics.UnknownPeriodsHaveNoCutoff(clock);
  }

  /** A query without a period is reported over the last thirty days. */
  lemma DefaultPeriod(q: AnalyticsQuery, clock: Entities.Clock)
    requires q.period.Missing?
    ensures Analytics.DateFromPeriod(EffectivePeriod(q), clock) == Some(clock.now - 30)
  {
  }
}

=== FILE: entities.dfy ===
/** The rows of the relational store, as the services read and write them.
    Money is `real`; instants are whole day numbers. */
module Entities {
  import opened Common

  datatype EntryType = Buy | Sell

  /** A row of `operation_entries`: one buy or sell fill of an operation. */
  datatype Entry = Entry(
    id: string,
    operationId: string,
    entryType: EntryType,
    quantity: real,
    price: real,
    tax: Option<real>,
    date: int)

  /** A row of `operations`. `kind` is the direction ("long" | "short"),
      `status` is "open" | "closed", `balance` is the realized result. */
  datatype Operation = Operation(
    id: string,
    userId: string,
    accountId: string,
    symbolId: string,
    product: string,
    kind: string,
    status: string,
    balance: Option<real>,
    createdAt: int,
    updatedAt: int)

  /** Who a price-history row belongs to: a symbol within a user and account
      (symbols service) or an operation (operations service). */
  datatype PriceOwner =
    | BySymbol(symbolId: string, userId: string, accountId: string)
    | ByOperation(operationId: string)

  /** A row of `price_history`. */
  datatype PricePoint = PricePoint(id: string, owner: PriceOwner, price: real, date: int)

  /** A row of `symbols`. */
  datatype Symbol = Symbol(
    id: string,
    userId: string,
    accountId: string,
    code: string,
    name: string,
    product: string,
    marketCode: Option<string>,
    marketProvider: Option<string>,
    marketExchange: Option<string>,
    logo: Option<string>,
    sortOrder: int,
    syncStatus: Option<string>,
    syncError: Option<string>)

  /** A row of `transactions`: a deposit (positive) or withdrawal (negative). */
  datatype Transaction = Transaction(id: string, userId: string, accountId: string, amount: real, date: int)

  /** A row of `accounts`. */
  datatype Account = Account(id: string, userId: string, name: string, balance: real, active: bool)

  /** A row of `users`; `password` holds the hash. */
  datatype User = User(
    id: string,
    email: string,
    name: string,
    password: string,
    refreshToken: Option<string>,
    tokenExpiration: Option<int>)

  /** The whole store. */
  datatype Db = Db(
    operations: seq<Operation>,
    entries: seq<Entry>,
    prices: seq<PricePoint>,
    symbols: seq<Symbol>,
    transactions: seq<Transaction>,
    accounts: seq<Account>,
    users: seq<User>)

  /** A validated `CreatePriceHistoryDto`; the ISO date is already a day
      number. */
  datatype NewPrice = NewPrice(price: real, date: int)

  /** A write's outcome: the store after it and the row it returns. */
  datatype Stored<T> = Stored(db: Db, value: T)

  /** The wall clock: today and the day `setFullYear(year - 1)` lands on. */
  datatype Clock = Clock(now: int, oneYearAgo: int)

  predicate ValidClock(c: Clock) {
    c.now - 366 <= c.oneYearAgo <= c.now - 365
  }

  function OperationId(o: Operation): string { o.id }
  function EntryId(e: Entry): string { e.id }
  function PriceId(p: PricePoint): string { p.id }
  function SymbolId(s: Symbol): string { s.id }
  function TransactionId(t: Transaction): string { t.id }
  function AccountId(a: Account): string { a.id }
  function UserId(u: User): string { u.id }
  function UserEmail(u: User): string { u.email }

  /** Primary keys are unique in every table. */
  ghost predicate WellFormed(db: Db) {
    && UniqueIds(db.operations, OperationId)
    && UniqueIds(db.entries, EntryId)
    && UniqueIds(db.prices, PriceId)
    && UniqueIds(db.symbols, SymbolId)
    && UniqueIds(db.transactions, TransactionId)
    && UniqueIds(db.accounts, AccountId)
    && UniqueIds(db.users, UserId)
  }
}

=== FILE: eodhd_provider.dfy ===
/** The EODHD price provider: it picks the endpoint for the product, builds
    the request URL and query, reads the last row of the answer, and retries
    the whole attempt up to three times. The HTTP client is an oracle that
    answers each request, attempt by attempt; the date library is a function
    from the close-date text to a day number. */
module Eodhd {
  import opened Common
  import opened Text
  import opened MarketData
  import opened MarketErrors

  const Key := "eodhd"
  const MaxRetries: nat := 3

  /** The provider's settings, each `''` when unset. */
  datatype EodhdConfig = EodhdConfig(
    baseUrl: string,
    apiToken: string,
    stockEndpoint: string,
    etfEndpoint: string,
    cryptoEndpoint: string)

  /** `value || ''`. */
  function OrEmpty(value: Option<string>): (s: string)
    ensures Truthy(value) ==> s == value.value
    ensures !Truthy(value) ==> s == ""
  {
    if Truthy(value) then value.value else ""
  }

  function ConfigFrom(baseUrl: Option<string>, apiToken: Option<string>, stock: Option<string>,
                      etf: Option<string>, crypto: Option<string>): EodhdConfig {
    EodhdConfig(OrEmpty(baseUrl), OrEmpty(apiToken), OrEmpty(stock), OrEmpty(etf), OrEmpty(crypto))
  }

  // ---------------------------------------------------------------------
  // Endpoints and URLs

  /** The three fetchers: stock (also derivatives and unknown products), etf
      and crypto. */
  datatype Kind = StockKind | EtfKind | CryptoKind

  function KindName(k: Kind): string {
    match k
    case StockKind => "stock"
    case EtfKind => "etf"
    case CryptoKind => "crypto"
  }

  /** The product switch of `getLatestPrice`. */
  function Dispatch(product: string): (k: Kind)
    ensures product == "crypto" <==> k == CryptoKind
    ensures product == "etf" <==> k == EtfKind
  {
    if product == "crypto" then CryptoKind
    else if product == "etf" then EtfKind
    else StockKind
  }

  /** `buildEndpoint(product)`. */
  function BuildEndpoint(cfg: EodhdConfig, product: string): (endpoint: string)
    ensures product == "crypto" ==> endpoint == cfg.cryptoEndpoint
    ensures product == "etf" ==> endpoint == cfg.etfEndpoint
    ensures product != "crypto" && product != "etf" ==> endpoint == cfg.stockEndpoint
  {
    match Dispatch(product)
    case CryptoKind => cfg.cryptoEndpoint
    case EtfKind => cfg.etfEndpoint
    case StockKind => cfg.stockEndpoint
  }

  /** The base URL without one trailing slash. */
  function NormalizedBase(base: string): (r: string)
    ensures EndsWith(base, "/") ==> r + "/" == base
    ensures !EndsWith(base, "/") ==> r == base
  {
    if EndsWith(base, "/") then base[..|base| - 1] else base
  }

  /** The endpoint with a leading slash. */
  function NormalizedEndpoint(endpoint: string): (r: string)
    ensures StartsWith(r, "/")
    ensures StartsWith(endpoint, "/") ==> r == endpoint
    ensures !StartsWith(endpoint, "/") ==> r == "/" + endpoint
  {
    if StartsWith(endpoint, "/") then endpoint else "/" + endpoint
  }

  const Placeholder := "{symbol}"

  /** The path part: the code replaces the first placeholder, or is
      appended after a slash that is added only when missing. */
  function WithSymbol(ep: string, symbolCode: string): (path: string)
    requires StartsWith(ep, "/")
    ensures Includes(ep, Placeholder) ==> path == ReplaceFirst(ep, Placeholder, symbolCode)
    ensures !Includes(ep, Placeholder) ==> EndsWith(path, "/" + symbolCode)
    ensures !Includes(ep, Placeholder) && !EndsWith(ep, "/") ==> path == ep + "/" + symbolCode
    ensures !Includes(ep, Placeholder) && EndsWith(ep, "/") ==> path == ep + symbolCode
  {
    if Includes(ep, Placeholder) then ReplaceFirst(ep, Placeholder, symbolCode)
    else
      TrailingCode(ep, symbolCode);
      ep + (if EndsWith(ep, "/") then "" else "/") + symbolCode
  }

  /** `buildUrl(endpoint, symbolCode)`. */
  function BuildUrl(baseUrl: string, endpoint: string, symbolCode: string): (url: string)
    ensures StartsWith(url, NormalizedBase(baseUrl))
    ensures var ep := NormalizedEndpoint(endpoint);
      Includes(ep, Placeholder) ==> url == NormalizedBase(baseUrl) + ReplaceFirst(ep, Placeholder, symbolCode)
    ensures !Includes(NormalizedEndpoint(endpoint), Placeholder) ==> EndsWith(url, "/" + symbolCode)
    ensures !Includes(NormalizedEndpoint(endpoint), Placeholder) && !EndsWith(NormalizedEndpoint(endpoint), "/") ==>
      url == NormalizedBase(baseUrl) + NormalizedEndpoint(endpoint) + "/" + symbolCode
    ensures !Includes(NormalizedEndpoint(endpoint), Placeholder) && EndsWith(NormalizedEndpoint(endpoint), "/") ==>
      url == NormalizedBase(baseUrl) + NormalizedEndpoint(endpoint) + symbolCode
  {
    var base := NormalizedBase(baseUrl);
    var path := WithSymbol(NormalizedEndpoint(endpoint), symbolCode);
    JoinedPath(base, NormalizedEndpoint(endpoint), symbolCode);
    base + path
  }

  /** The facts `BuildUrl` promises, about the base and the path. */
  lemma JoinedPath(base: string, ep: string, symbolCode: string)
    requires StartsWith(ep, "/")
    ensures StartsWith(base + WithSymbol(ep, symbolCode), base)
    ensures !Includes(ep, Placeholder) ==> EndsWith(base + WithSymbol(ep, symbolCode), "/" + symbolCode)
    ensures !Includes(ep, Placeholder) && !EndsWith(ep, "/") ==>
      base + WithSymbol(ep, symbolCode) == base + ep + "/" + symbolCode
    ensures !Includes(ep, Placeholder) && EndsWith(ep, "/") ==>
      base + WithSymbol(ep, symbolCode) == base + ep + symbolCode
  {
    var path := WithSymbol(ep, symbolCode);
    ConcatEnds(base, path, "/" + symbolCode);
    if !Includes(ep, Placeholder) {
      if EndsWith(ep, "/") {
        assert path == ep + symbolCode;
        assert base + (ep + symbolCode) == base + ep + symbolCode;
      } else {
        assert path == ep + "/" + symbolCode;
        assert base + (ep + "/" + symbolCode) == base + ep + "/" + symbolCode;
      }
    }
  }

  lemma TrailingCode(ep: string, code: string)
    requires StartsWith(ep, "/")
    ensures EndsWith(ep + (if EndsWith(ep, "/") then "" else "/") + code, "/" + code)
  {
    var s := ep + (if EndsWith(ep, "/") then "" else "/") + code;
    if EndsWith(ep, "/") {
      assert ep[|ep| - 1] == '/';
      assert s[|s| - |code| - 1..] == [ep[|ep| - 1]] + code;
    } else {
      assert s[|s| - |code| - 1..] == "/" + code;
    }
  }

  /** The symbol code is a replacement string of `String.prototype.replace`,
      so its `$`-patterns are expanded: `$&` brings the placeholder back. */
  lemma MatchPatternExpands()
    ensures WithSymbol("/eod/{symbol}", "A$&B") == "/eod/A{symbol}B"
  {
    PlaceholderInEod();
    assert WithSymbol("/eod/{symbol}", "A$&B") == ReplaceFirst("/eod/{symbol}", Placeholder, "A$&B");
    MatchSubstitution();
    ExpandInEod("A$&B", "A{symbol}B");
    MatchSpelling();
  }

  lemma MatchSpelling()
    ensures "/eod/" + "A{symbol}B" == "/eod/A{symbol}B"
  {
  }

  /** `$&` stands for the matched placeholder. */
  lemma MatchSubstitution()
    ensures Substitution("A$&B", Placeholder, "/eod/", "") == "A{symbol}B"
  {
    assert Substitution("B", Placeholder, "/eod/", "") == "B";
    assert Substitution("$&B", Placeholder, "/eod/", "") == Placeholder + "B";
  }

  /** `$$` in the symbol code becomes one `$`. */
  lemma DollarPatternExpands()
    ensures WithSymbol("/eod/{symbol}", "X$$Y") == "/eod/X$Y"
  {
    PlaceholderInEod();
    assert WithSymbol("/eod/{symbol}", "X$$Y") == ReplaceFirst("/eod/{symbol}", Placeholder, "X$$Y");
    DollarSubstitution();
    ExpandInEod("X$$Y", "X$Y");
    DollarSpelling();
  }

  /** `$$` stands for one dollar sign. */
  lemma DollarSubstitution()
    ensures Substitution("X$$Y", Placeholder, "/eod/", "") == "X$Y"
  {
    assert Substitution("Y", Placeholder, "/eod/", "") == "Y";
  }

  lemma DollarSpelling()
    ensures "/eod/" + "X$Y" == "/eod/X$Y"
  {
  }

  /** Replacing the placeholder of `/eod/{symbol}` by `rep`. */
  lemma ExpandInEod(rep: string, expanded: string)
    requires Substitution(rep, Placeholder, "/eod/", "") == expanded
    ensures ReplaceFirst("/eod/{symbol}", Placeholder, rep) == "/eod/" + expanded
  {
    PlaceholderInEod();
    EodSpelling();
    var ep := "/eod/" + Placeholder;
    assert ep[..5] == "/eod/";
    assert ep[5 + |Placeholder|..] == "";
  }

  /** The example endpoint is "/eod/" followed by the placeholder. */
  lemma EodSpelling()
    ensures "/eod/{symbol}" == "/eod/" + Placeholder
  {
  }

  /** The placeholder of `/eod/{symbol}` starts after the fifth character. */
  lemma PlaceholderInEod()
    ensures Includes("/eod/{symbol}", Placeholder)
    ensures IndexOf("/eod/{symbol}", Placeholder) == Some(5)
  {
    var ep := "/eod/{symbol}";
    assert ep[5..5 + |Placeholder|] == Placeholder;
    forall j | 0 <= j < 5 ensures !OccursAt(ep, Placeholder, j) {
      assert ep[j] != '{';
      assert ep[j..j + |Placeholder|][0] == ep[j];
    }
  }

  /** A base with a trailing slash and an endpoint without a leading one
      join with exactly one slash: the base's slash is the joining one. */
  lemma BuildUrlJoinsOnce(baseUrl: string, endpoint: string, symbolCode: string)
    requires EndsWith(baseUrl, "/")
    requires endpoint != [] && endpoint[0] != '/' && endpoint[|endpoint| - 1] != '/'
    requires !Includes("/" + endpoint, Placeholder)
    ensures BuildUrl(baseUrl, endpoint, symbolCode) == baseUrl + endpoint + "/" + symbolCode
  {
    JoinShape(baseUrl, endpoint);
    AppendCase(baseUrl, endpoint, symbolCode);
  }

  /** The appending case of `BuildUrl`, on its own. */
  lemma AppendCase(baseUrl: string, endpoint: string, symbolCode: string)
    requires !Includes(NormalizedEndpoint(endpoint), Placeholder) && !EndsWith(NormalizedEndpoint(endpoint), "/")
    ensures BuildUrl(baseUrl, endpoint, symbolCode) == NormalizedBase(baseUrl) + NormalizedEndpoint(endpoint) + "/" + symbolCode
  {
  }

  /** A base with a trailing slash and an endpoint without slashes at its
      ends normalize to a join at the base's slash. */
  lemma JoinShape(baseUrl: string, endpoint: string)
    requires EndsWith(baseUrl, "/")
    requires endpoint != [] && endpoint[0] != '/' && endpoint[|endpoint| - 1] != '/'
    ensures NormalizedEndpoint(endpoint) == "/" + endpoint
    ensures !EndsWith(NormalizedEndpoint(endpoint), "/")
    ensures NormalizedBase(baseUrl) + NormalizedEndpoint(endpoint) == baseUrl + endpoint
  {
    SlashedEndpoint(endpoint);
    var base := NormalizedBase(baseUrl);
    assert base + "/" == baseUrl;
    assert base + ("/" + endpoint) == (base + "/") + endpoint;
  }

  /** An endpoint without slashes at its ends gets a leading one only. */
  lemma SlashedEndpoint(endpoint: string)
    requires endpoint != [] && endpoint[0] != '/' && endpoint[|endpoint| - 1] != '/'
    ensures NormalizedEndpoint(endpoint) == "/" + endpoint
    ensures !EndsWith("/" + endpoint, "/")
  {
    assert endpoint[..1][0] == endpoint[0];
    var ep := "/" + endpoint;
    assert ep[|ep| - 1..][0] == endpoint[|endpoint| - 1];
  }

  /** An endpoint that already ends in a slash gets the code appended
      without a second slash. */
  lemma BuildUrlKeepsTrailingSlash(baseUrl: string, endpoint: string, symbolCode: string)
    requires StartsWith(endpoint, "/") && EndsWith(endpoint, "/")
    requires !Includes(endpoint, Placeholder)
    ensures BuildUrl(baseUrl, endpoint, symbolCode) == NormalizedBase(baseUrl) + endpoint + symbolCode
  {
  }

  // ---------------------------------------------------------------------
  // Requests and answers

  /** The URL and its query parameters, in the order they are set. */
  datatype Request = Request(url: string, query: seq<(string, string)>)

  predicate HasName(query: seq<(string, string)>, name: string) {
    exists i :: 0 <= i < |query| && query[i].0 == name
  }

  predicate HasParam(req: Request, name: string) {
    HasName(req.query, name)
  }

  /** The query one fetcher sets: token and format always, the type for etf
      and crypto, the exchange only when a truthy one is passed. */
  function QueryFor(cfg: EodhdConfig, kind: Kind, exchange: Option<string>): (query: seq<(string, string)>)
    ensures |query| >= 2 && query[..2] == [("api_token", cfg.apiToken), ("fmt", "json")]
    ensures HasName(query, "exchange") <==> Truthy(exchange)
    ensures HasName(query, "type") <==> kind != StockKind
  {
    var typed := if kind == StockKind then [] else [("type", KindName(kind))];
    var ex := if Truthy(exchange) then [("exchange", exchange.value)] else [];
    var query := [("api_token", cfg.apiToken), ("fmt", "json")] + typed + ex;
    assert Truthy(exchange) ==> query[|query| - 1].0 == "exchange";
    assert kind != StockKind ==> query[2].0 == "type";
    query
  }

  /** The request one fetcher sends. */
  function RequestFor(cfg: EodhdConfig, kind: Kind, symbolCode: string, exchange: Option<string>): (req: Request)
    ensures req.url == BuildUrl(cfg.baseUrl, BuildEndpoint(cfg, KindName(kind)), symbolCode)
    ensures |req.query| >= 2 && req.query[..2] == [("api_token", cfg.apiToken), ("fmt", "json")]
    ensures HasParam(req, "exchange") <==> Truthy(exchange)
    ensures HasParam(req, "type") <==> kind != StockKind
  {
    Request(BuildUrl(cfg.baseUrl, BuildEndpoint(cfg, KindName(kind)), symbolCode), QueryFor(cfg, kind, exchange))
  }

  /** A row of the answer; `previousClose` is `Number(...)` of the field when
      it is present. */
  datatype CloseRow = CloseRow(previousCloseDate: Option<string>, previousClose: Option<real>)

  /** The body of an answer: an array of rows, or anything else. */
  datatype Payload = NotAnArray | Rows(rows: seq<CloseRow>)

  /** The quote read from an answer: only the last row counts, and it needs a
      truthy close date and a present close. */
  function ExtractQuote(data: Payload, closeDay: string -> int): (q: Option<MarketQuote>)
    ensures data.NotAnArray? || |data.rows| == 0 ==> q.None?
    ensures data.Rows? && |data.rows| > 0 ==>
      var last := data.rows[|data.rows| - 1];
      && (q.Some? <==> Truthy(last.previousCloseDate) && last.previousClose.Some?)
      && (q.Some? ==> q.value == MarketQuote(last.previousClose.value, closeDay(last.previousCloseDate.value)))
  {
    if data.NotAnArray? || |data.rows| == 0 then None
    else
      var last := data.rows[|data.rows| - 1];
      if !Truthy(last.previousCloseDate) || last.previousClose.None? then None
      else Some(MarketQuote(last.previousClose.value, closeDay(last.previousCloseDate.value)))
  }

  /** Earlier rows never matter. */
  lemma OnlyLastRowCounts(rows: seq<CloseRow>, last: CloseRow, closeDay: string -> int)
    ensures ExtractQuote(Rows(rows + [last]), closeDay) == ExtractQuote(Rows([last]), closeDay)
  {
  }

  /** The close day of a quote: the given day for stock and etf, the day
      before for crypto. */
  function CloseDayFor(kind: Kind, dayOf: string -> int): string -> int {
    if kind == CryptoKind then (d: string) => dayOf(d) - 1 else dayOf
  }

  function IncompleteConfig(kind: Kind): Error {
    BadRequest("EODHD config incompleta para " + KindName(kind))
  }

  /** One fetcher, once: the config check, the request, and the reading of
      the answer; a client failure goes through `MapMarketDataError`. `get`
      stands for the URL parsing and query serialization as well as the HTTP
      call, so a malformed base URL is one of its errors; such an error has no
      status and passes the mapping unchanged, as a throw outside the `try`
      would. */
  function Fetch(cfg: EodhdConfig, kind: Kind, get: Request -> Result<Payload>, dayOf: string -> int,
                 symbolCode: string, exchange: Option<string>): (r: Result<Option<MarketQuote>>)
    ensures cfg.baseUrl == "" || cfg.apiToken == "" || BuildEndpoint(cfg, KindName(kind)) == "" ==>
      r == Err(IncompleteConfig(kind))
    ensures cfg.baseUrl != "" && cfg.apiToken != "" && BuildEndpoint(cfg, KindName(kind)) != "" ==>
      match get(RequestFor(cfg, kind, symbolCode, exchange))
      case Err(e) => r == Err(MapMarketDataError(e, Some(symbolCode)))
      case Ok(data) => r == Ok(ExtractQuote(data, CloseDayFor(kind, dayOf)))
  {
    if cfg.baseUrl == "" || cfg.apiToken == "" || BuildEndpoint(cfg, KindName(kind)) == "" then
      Err(IncompleteConfig(kind))
    else
      match get(RequestFor(cfg, kind, symbolCode, exchange))
      case Err(e) => Err(MapMarketDataError(e, Some(symbolCode)))
      case Ok(data) => Ok(ExtractQuote(data, CloseDayFor(kind, dayOf)))
  }

  /** The exchange each fetcher is called with: none for crypto. */
  function ExchangeFor(kind: Kind, exchange: Option<string>): Option<string> {
    if kind == CryptoKind then None else exchange
  }

  /** One attempt of `getLatestPrice`. */
  function Attempt(cfg: EodhdConfig, get: Request -> Result<Payload>, dayOf: string -> int,
                   symbolCode: string, product: string, exchange: Option<string>): Result<Option<MarketQuote>> {
    var kind := Dispatch(product);
    Fetch(cfg, kind, get, dayOf, symbolCode, ExchangeFor(kind, exchange))
  }

  /** The request an attempt sends, when the config is complete. */
  function SentRequest(cfg: EodhdConfig, symbolCode: string, product: string, exchange: Option<string>): Request {
    var kind := Dispatch(product);
    RequestFor(cfg, kind, symbolCode, ExchangeFor(kind, exchange))
  }

  /** Crypto requests never carry an exchange; the others carry exactly the
      truthy exchange given. */
  lemma CryptoHasNoExchange(cfg: EodhdConfig, symbolCode: string, product: string, exchange: Option<string>)
    ensures product == "crypto" ==> !HasParam(SentRequest(cfg, symbolCode, product, exchange), "exchange")
    ensures product != "crypto" ==>
      (HasParam(SentRequest(cfg, symbolCode, product, exchange), "exchange") <==> Truthy(exchange))
  {
  }

  // ---------------------------------------------------------------------
  // Retry

  /** Attempts `k`, `k + 1`, ... up to the last allowed one, stopping at the
      first success. */
  function RetryFrom<T>(attempt: nat -> Result<T>, k: nat): (r: Result<T>)
    requires 1 <= k <= MaxRetries
    ensures r.Ok? ==> exists j :: k <= j <= MaxRetries && r == attempt(j) && forall i :: k <= i < j ==> attempt(i).Err?
    ensures r.Err? ==> r == attempt(MaxRetries) && forall i :: k <= i <= MaxRetries ==> attempt(i).Err?
    decreases MaxRetries - k
  {
    if attempt(k).Ok? || k == MaxRetries then attempt(k) else RetryFrom(attempt, k + 1)
  }

  /** The outcome of `executeWithRetry`, attempts numbered from 1. */
  function WithRetry<T>(attempt: nat -> Result<T>): (r: Result<T>)
    ensures r.Ok? <==> exists j :: 1 <= j <= MaxRetries && attempt(j).Ok?
    ensures r.Err? ==> r == attempt(MaxRetries)
  {
    RetryFrom(attempt, 1)
  }

  /** `executeWithRetry(action)`: runs the action until it succeeds, at most
      three times, and throws the last error when every try failed. Returns
      the outcome and how many tries were made. */
  method ExecuteWithRetry<T>(action: nat -> Result<T>) returns (r: Result<T>, tries: nat)
    ensures 1 <= tries <= MaxRetries
    ensures r == action(tries)
    ensures forall k :: 1 <= k < tries ==> action(k).Err?
    ensures r.Err? ==> tries == MaxRetries
    ensures r == WithRetry(action)
  {
    var lastError: Option<Error> := None;
    var attempt := 1;
    while attempt <= MaxRetries
      invariant 1 <= attempt <= MaxRetries + 1
      invariant forall k :: 1 <= k < attempt ==> action(k).Err?
      invariant attempt > 1 ==> lastError == Some(action(attempt - 1).error)
    {
      var outcome := action(attempt);
      if outcome.Ok? {
        SameAsRetry(action, attempt);
        return outcome, attempt;
      }
      lastError := Some(outcome.error);
      attempt := attempt + 1;
    }
    r, tries := Err(lastError.value), MaxRetries;
    SameAsRetry(action, MaxRetries);
  }

  lemma {:induction false} SameAsRetry<T>(action: nat -> Result<T>, j: nat)
    requires 1 <= j <= MaxRetries
    requires forall k :: 1 <= k < j ==> action(k).Err?
    requires action(j).Ok? || j == MaxRetries
    ensures WithRetry(action) == action(j)
  {
    RetryFromReaches(action, 1, j);
  }

  lemma {:induction false} RetryFromReaches<T>(action: nat -> Result<T>, k: nat, j: nat)
    requires 1 <= k <= j <= MaxRetries
    requires forall i :: k <= i < j ==> action(i).Err?
    requires action(j).Ok? || j == MaxRetries
    ensures RetryFrom(action, k) == action(j)
    decreases j - k
  {
    if k < j {
      RetryFromReaches(action, k + 1, j);
    }
  }

  // ---------------------------------------------------------------------
  // The provider

  /** `getLatestPrice(symbolCode, product, { exchange })`: attempt `k` sees
      the HTTP client as `get(·, k)`. */
  function GetLatestPrice(cfg: EodhdConfig, get: (Request, nat) -> Result<Payload>, dayOf: string -> int,
                          symbolCode: string, product: string, exchange: Option<string>): Result<Option<MarketQuote>> {
    WithRetry((k: nat) => Attempt(cfg, (req: Request) => get(req, k), dayOf, symbolCode, product, exchange))
  }

  /** The provider as the market-data service registers it. */
  function AsProvider(cfg: EodhdConfig, get: (Request, nat) -> Result<Payload>, dayOf: string -> int): (p: Provider)
    ensures p.providerKey == Key
  {
    Provider(Key, (code: string, product: string, exchange: Option<string>) =>
      GetLatestPrice(cfg, get, dayOf, code, product, exchange))
  }

  /** An incomplete config fails every attempt the same way, so the lookup
      throws BadRequest and never calls the HTTP client. */
  lemma IncompleteConfigIsBadRequest(cfg: EodhdConfig, get: (Request, nat) -> Result<Payload>, dayOf: string -> int,
                                     symbolCode: string, product: string, exchange: Option<string>)
    requires cfg.baseUrl == "" || cfg.apiToken == "" || BuildEndpoint(cfg, product) == ""
    ensures GetLatestPrice(cfg, get, dayOf, symbolCode, product, exchange) == Err(IncompleteConfig(Dispatch(product)))
  {
    var kind := Dispatch(product);
    assert BuildEndpoint(cfg, KindName(kind)) == BuildEndpoint(cfg, product);
  }

  /** An attempt with a complete config sends the dispatched request and
      reads the answer it gets. */
  lemma AttemptReadsAnswer(cfg: EodhdConfig, get: Request -> Result<Payload>, dayOf: string -> int,
                           symbolCode: string, product: string, exchange: Option<string>)
    requires cfg.baseUrl != "" && cfg.apiToken != "" && BuildEndpoint(cfg, product) != ""
    requires get(SentRequest(cfg, symbolCode, product, exchange)).Ok?
    ensures Attempt(cfg, get, dayOf, symbolCode, product, exchange)
         == Ok(ExtractQuote(get(SentRequest(cfg, symbolCode, product, exchange)).value, CloseDayFor(Dispatch(product), dayOf)))
  {
    var kind := Dispatch(product);
    assert BuildEndpoint(cfg, KindName(kind)) == BuildEndpoint(cfg, product);
  }

  /** A first attempt that fails and a second that succeeds: the answer is
      the second attempt's. */
  lemma SecondTrySucceeds<T>(action: nat -> Result<T>)
    requires action(1).Err? && action(2).Ok?
    ensures WithRetry(action) == action(2)
  {
    SameAsRetry(action, 2);
  }
}

=== FILE: grouping.dfy ===
/** Grouping in first-occurrence order, the shape of
    `forEach(x => { if (!grouped[k]) grouped[k] = []; grouped[k].push(x) })`
    and of the `Map`-accumulator loops in the analytics service. */
module Grouping {
  import opened Common

  datatype Group<K, T> = Group(key: K, members: seq<T>)

  /** The elements of `s` whose key is `k`, in input order. */
  function Members<T, K(==)>(s: seq<T>, key: T -> K, k: K): seq<T>
  {
    if |s| == 0 then []
    else Members(s[..|s| - 1], key, k) + (if key(s[|s| - 1]) == k then [s[|s| - 1]] else [])
  }

  function Keys<K, T>(gs: seq<Group<K, T>>): (ks: seq<K>)
    ensures |ks| == |gs|
    ensures forall i :: 0 <= i < |gs| ==> ks[i] == gs[i].key
  {
    if |gs| == 0 then [] else [gs[0].key] + Keys(gs[1..])
  }

  /** No key appears twice. */
  ghost predicate DistinctKeys<K, T>(gs: seq<Group<K, T>>) {
    forall i, j :: 0 <= i < j < |gs| ==> gs[i].key != gs[j].key
  }

  /** Appends `x` to the group of `k`, opening a new group at the end when
      there is none. */
  function AddTo<K(==), T>(gs: seq<Group<K, T>>, k: K, x: T): (r: seq<Group<K, T>>)
    requires DistinctKeys(gs)
    ensures |r| == if k in Keys(gs) then |gs| else |gs| + 1
    ensures forall i :: 0 <= i < |gs| ==> r[i].key == gs[i].key
    ensures forall i :: 0 <= i < |gs| ==>
      r[i].members == gs[i].members + (if gs[i].key == k then [x] else [])
    ensures k !in Keys(gs) ==> r[|gs|] == Group(k, [x])
  {
    if |gs| == 0 then [Group(k, [x])]
    else if gs[0].key == k then [gs[0].(members := gs[0].members + [x])] + gs[1..]
    else
      assert Keys(gs) == [gs[0].key] + Keys(gs[1..]);
      [gs[0]] + AddTo(gs[1..], k, x)
  }

  /** `r` is `gs` with `x` added under `k`, as `AddTo` promises. */
  ghost predicate Added<K, T>(gs: seq<Group<K, T>>, k: K, x: T, r: seq<Group<K, T>>) {
    && |r| == (if k in Keys(gs) then |gs| else |gs| + 1)
    && (forall i :: 0 <= i < |gs| ==> r[i].key == gs[i].key)
    && (forall i :: 0 <= i < |gs| ==> r[i].members == gs[i].members + (if gs[i].key == k then [x] else []))
    && (k !in Keys(gs) ==> r[|gs|] == Group(k, [x]))
  }

  /** Groups `s` by `key`: one group per key, in the order keys first appear,
      each group holding exactly the elements with that key in input order. */
  function GroupBy<T, K(==)>(s: seq<T>, key: T -> K): (gs: seq<Group<K, T>>)
    ensures DistinctKeys(gs)
    ensures forall i :: 0 <= i < |gs| ==> gs[i].members == Members(s, key, gs[i].key)
    ensures forall i :: 0 <= i < |gs| ==> |gs[i].members| > 0
    ensures forall x :: x in s ==> key(x) in Keys(gs)
    ensures |s| > 0 ==> |gs| > 0 && gs[0].key == key(s[0])
  {
    if |s| == 0 then []
    else
      var n := |s| - 1;
      var gs := GroupBy(s[..n], key);
      var r := AddTo(gs, key(s[n]), s[n]);
      GroupByStep(s, key, gs, r);
      r
  }

  /** The inductive step of `GroupBy`: adding the last element to the groups
      of the prefix keeps every promise of its contract. */
  lemma GroupByStep<T, K>(s: seq<T>, key: T -> K, gs: seq<Group<K, T>>, r: seq<Group<K, T>>)
    requires |s| > 0
    requires DistinctKeys(gs)
    requires forall i :: 0 <= i < |gs| ==> gs[i].members == Members(s[..|s| - 1], key, gs[i].key)
    requires forall i :: 0 <= i < |gs| ==> |gs[i].members| > 0
    requires forall x :: x in s[..|s| - 1] ==> key(x) in Keys(gs)
    requires |s| > 1 ==> |gs| > 0 && gs[0].key == key(s[0])
    requires r == AddTo(gs, key(s[|s| - 1]), s[|s| - 1])
    ensures DistinctKeys(r)
    ensures forall i :: 0 <= i < |r| ==> r[i].members == Members(s, key, r[i].key)
    ensures forall i :: 0 <= i < |r| ==> |r[i].members| > 0
    ensures forall x :: x in s ==> key(x) in Keys(r)
    ensures |r| > 0 && r[0].key == key(s[0])
  {
    var n := |s| - 1;
    var k := key(s[n]);
    StepMembers(s, key, gs, r);
    StepDistinct(gs, k, s[n], r);
    StepCovers(s, key, gs, r);
    assert Keys(r)[0] == r[0].key;
    if n > 0 {
      assert s[..n][0] == s[0];
    }
  }

  lemma StepCovers<T, K>(s: seq<T>, key: T -> K, gs: seq<Group<K, T>>, r: seq<Group<K, T>>)
    requires |s| > 0
    requires DistinctKeys(gs)
    requires forall x :: x in s[..|s| - 1] ==> key(x) in Keys(gs)
    requires r == AddTo(gs, key(s[|s| - 1]), s[|s| - 1])
    ensures forall x :: x in s ==> key(x) in Keys(r)
  {
    var n := |s| - 1;
    var k := key(s[n]);
    forall x | x in s ensures key(x) in Keys(r) {
      if x != s[n] {
        assert x in s[..n];
        var i :| 0 <= i < |gs| && Keys(gs)[i] == key(x);
        assert Keys(r)[i] == r[i].key;
      } else if k in Keys(gs) {
        var i :| 0 <= i < |gs| && Keys(gs)[i] == k;
        assert Keys(r)[i] == r[i].key;
      } else {
        assert Keys(r)[|gs|] == r[|gs|].key;
      }
    }
  }

  lemma StepMembers<T, K>(s: seq<T>, key: T -> K, gs: seq<Group<K, T>>, r: seq<Group<K, T>>)
    requires |s| > 0
    requires DistinctKeys(gs)
    requires forall i :: 0 <= i < |gs| ==> gs[i].members == Members(s[..|s| - 1], key, gs[i].key)
    requires forall i :: 0 <= i < |gs| ==> |gs[i].members| > 0
    requires forall x :: x in s[..|s| - 1] ==> key(x) in Keys(gs)
    requires Added(gs, key(s[|s| - 1]), s[|s| - 1], r)
    ensures forall i :: 0 <= i < |r| ==> r[i].members == Members(s, key, r[i].key)
    ensures forall i :: 0 <= i < |r| ==> |r[i].members| > 0
  {
    var n := |s| - 1;
    var k := key(s[n]);
    forall i | 0 <= i < |r| ensures r[i].members == Members(s, key, r[i].key) && |r[i].members| > 0 {
      if i < |gs| {
        StepOldGroup(s, key, gs[i]);
        assert r[i].key == gs[i].key;
        assert r[i].members == gs[i].members + (if gs[i].key == k then [s[n]] else []);
        assert Members(s, key, r[i].key) == r[i].members;
        assert |r[i].members| > 0;
      } else {
        assert k !in Keys(gs);
        assert i == |gs|;
        StepNewGroup(s, key, gs);
      }
    }
  }

  /** A group of the prefix gains the last element exactly when its key
      matches. */
  lemma StepOldGroup<T, K>(s: seq<T>, key: T -> K, g: Group<K, T>)
    requires |s| > 0
    requires g.members == Members(s[..|s| - 1], key, g.key)
    ensures Members(s, key, g.key)
      == g.members + (if key(s[|s| - 1]) == g.key then [s[|s| - 1]] else [])
  {
  }

  /** A key the prefix never produced gathers only the last element. */
  lemma StepNewGroup<T, K>(s: seq<T>, key: T -> K, gs: seq<Group<K, T>>)
    requires |s| > 0
    requires key(s[|s| - 1]) !in Keys(gs)
    requires forall x :: x in s[..|s| - 1] ==> key(x) in Keys(gs)
    ensures Members(s, key, key(s[|s| - 1])) == [s[|s| - 1]]
  {
    var n := |s| - 1;
    forall x | x in s[..n] ensures key(x) != key(s[n]) {
      assert key(x) in Keys(gs);
    }
    MembersAbsent(s[..n], key, key(s[n]));
  }

  lemma StepDistinct<K, T>(gs: seq<Group<K, T>>, k: K, x: T, r: seq<Group<K, T>>)
    requires DistinctKeys(gs)
    requires r == AddTo(gs, k, x)
    ensures DistinctKeys(r)
  {
    forall i, j | 0 <= i < j < |r| ensures r[i].key != r[j].key {
      if j == |gs| {
        assert Keys(gs)[i] == gs[i].key;
      }
    }
  }

  lemma {:induction false} MembersAbsent<T, K>(s: seq<T>, key: T -> K, k: K)
    requires forall x :: x in s ==> key(x) != k
    ensures Members(s, key, k) == []
  {
    if |s| > 0 {
      MembersAbsent(s[..|s| - 1], key, k);
    }
  }

  /** The sum, over all groups, of `f` summed over each group's members. */
  function GroupsTotal<K, T>(gs: seq<Group<K, T>>, f: T -> real): real
  {
    if |gs| == 0 then 0.0 else SumOf(gs[0].members, f) + GroupsTotal(gs[1..], f)
  }

  lemma {:induction false} AddToTotal<K, T>(gs: seq<Group<K, T>>, k: K, x: T, f: T -> real)
    requires DistinctKeys(gs)
    ensures GroupsTotal(AddTo(gs, k, x), f) == GroupsTotal(gs, f) + f(x)
  {
    if |gs| == 0 {
      assert [x][..0] == [];
      assert [Group(k, [x])][1..] == [];
      assert AddTo(gs, k, x) == [Group(k, [x])];
      assert SumOf([x], f) == f(x);
    } else if gs[0].key == k {
      assert (gs[0].members + [x])[..|gs[0].members|] == gs[0].members;
      assert AddTo(gs, k, x)[1..] == gs[1..];
    } else {
      assert Keys(gs) == [gs[0].key] + Keys(gs[1..]);
      AddToTotal(gs[1..], k, x, f);
      assert AddTo(gs, k, x)[1..] == AddTo(gs[1..], k, x);
    }
  }

  /** Grouping loses and duplicates nothing: the group sums add up to the
      sum over the whole input. */
  lemma {:induction false} GroupByTotal<T, K>(s: seq<T>, key: T -> K, f: T -> real)
    ensures GroupsTotal(GroupBy(s, key), f) == SumOf(s, f)
  {
    if |s| > 0 {
      var n := |s| - 1;
      GroupByTotal(s[..n], key, f);
      AddToTotal(GroupBy(s[..n], key), key(s[n]), s[n], f);
    }
  }

  /** Every element sits in exactly one group: the group of its own key. */
  lemma GroupOf<T, K>(s: seq<T>, key: T -> K, x: T)
    requires x in s
    ensures exists i :: 0 <= i < |GroupBy(s, key)| && x in GroupBy(s, key)[i].members
    ensures forall i :: 0 <= i < |GroupBy(s, key)| && x in GroupBy(s, key)[i].members ==>
      GroupBy(s, key)[i].key == key(x)
  {
    var gs := GroupBy(s, key);
    var i :| 0 <= i < |gs| && Keys(gs)[i] == key(x);
    MembersIn(s, key, key(x), x);
    forall j | 0 <= j < |gs| && x in gs[j].members ensures gs[j].key == key(x) {
      MembersKey(s, key, gs[j].key, x);
    }
  }

  lemma {:induction false} MembersIn<T, K>(s: seq<T>, key: T -> K, k: K, x: T)
    requires x in s && key(x) == k
    ensures x in Members(s, key, k)
  {
    var n := |s| - 1;
    if x != s[n] {
      assert x in s[..n];
      MembersIn(s[..n], key, k, x);
    }
  }

  lemma {:induction false} MembersKey<T, K>(s: seq<T>, key: T -> K, k: K, x: T)
    requires x in Members(s, key, k)
    ensures x in s && key(x) == k
  {
    var n := |s| - 1;
    if x != s[n] || key(s[n]) != k {
      MembersKey(s[..n], key, k, x);
    }
  }

  /** The total of `f` over a group's members. */
  function MembersSum<K, T>(f: T -> real): Group<K, T> -> real {
    (g: Group<K, T>) => SumOf(g.members, f)
  }

  lemma {:induction false} GroupsTotalIsSum<K, T>(gs: seq<Group<K, T>>, f: T -> real)
    ensures GroupsTotal(gs, f) == SumOf(gs, MembersSum(f))
  {
    if |gs| > 0 {
      GroupsTotalIsSum(gs[1..], f);
      assert gs == [gs[0]] + gs[1..];
      SumOfAppend([gs[0]], gs[1..], MembersSum(f));
      SumOfSingleton(gs[0], MembersSum(f));
    }
  }
}

=== FILE: log_writer.dfy ===
/** The log writer: `sanitize` folds every run of whitespace in a message
    into one space and trims the ends, so each call writes exactly one line
    `[timestamp] message`. Directory creation and the append itself are I/O
    and are not modelled. */
module LogWriter {

  /** The characters JavaScript's `\s` and `trim` treat as white space: the
      ASCII controls TAB, LF, VT, FF, CR, the space separators of Unicode,
      the line and paragraph separators and the byte-order mark. */
  predicate IsSpace(c: char) {
    c == '\t' || c == '\n' || c == '\U{000B}' || c == '\U{000C}' || c == '\r' || c == ' '
    || c == '\U{00A0}' || c == '\U{1680}' || ('\U{2000}' <= c <= '\U{200A}')
    || c == '\U{2028}' || c == '\U{2029}' || c == '\U{202F}' || c == '\U{205F}'
    || c == '\U{3000}' || c == '\U{FEFF}'
  }

  /** The characters of `s` that are not white space, in order. */
  function Visible(s: string): string {
    if s == [] then [] else (if IsSpace(s[0]) then [] else [s[0]]) + Visible(s[1..])
  }

  /** Every white-space character is a plain space and no two are adjacent. */
  ghost predicate Collapsed(s: string) {
    && (forall i :: 0 <= i < |s| && IsSpace(s[i]) ==> s[i] == ' ')
    && (forall i :: 0 <= i < |s| - 1 ==> !(IsSpace(s[i]) && IsSpace(s[i + 1])))
  }

  /** Neither end is white space. */
  predicate Trimmed(s: string) {
    s == [] || (!IsSpace(s[0]) && !IsSpace(s[|s| - 1]))
  }

  /** `s` with its leading white space dropped. */
  function TrimStart(s: string): (r: string)
    ensures |r| <= |s| && r == s[|s| - |r|..]
    ensures r == [] || !IsSpace(r[0])
    ensures forall i :: 0 <= i < |s| - |r| ==> IsSpace(s[i])
  {
    if s != [] && IsSpace(s[0]) then TrimStart(s[1..]) else s
  }

  /** `s` with its trailing white space dropped. */
  function TrimEnd(s: string): (r: string)
    ensures |r| <= |s| && r == s[..|r|]
    ensures r == [] || !IsSpace(r[|r| - 1])
    ensures forall i :: |r| <= i < |s| ==> IsSpace(s[i])
  {
    if s != [] && IsSpace(s[|s| - 1]) then TrimEnd(s[..|s| - 1]) else s
  }

  /** `String.prototype.trim`: the one slice of `s` that is trimmed and
      has only white space around it. */
  function Trim(s: string): (r: string)
    ensures Trimmed(r)
    ensures exists a :: TrimmedSlice(s, r, a)
  {
    TrimSlice(s);
    TrimEnd(TrimStart(s))
  }

  /** Trimming both ends leaves the slice after the leading white space. */
  lemma TrimSlice(s: string)
    ensures TrimmedSlice(s, TrimEnd(TrimStart(s)), |s| - |TrimStart(s)|)
  {
    var t := TrimStart(s);
    SliceOfSlice(s, t, TrimEnd(t));
  }

  /** A prefix `r` of a suffix `t` of `s`, with white space cut off on both
      sides, is a trimmed slice of `s`. */
  lemma SliceOfSlice(s: string, t: string, r: string)
    requires |t| <= |s| && t == s[|s| - |t|..]
    requires forall i :: 0 <= i < |s| - |t| ==> IsSpace(s[i])
    requires |r| <= |t| && r == t[..|r|]
    requires forall i :: |r| <= i < |t| ==> IsSpace(t[i])
    ensures TrimmedSlice(s, r, |s| - |t|)
  {
    var a := |s| - |t|;
    assert r == s[a..a + |r|];
    forall i | a + |r| <= i < |s| ensures IsSpace(s[i]) {
      assert s[i] == t[i - a];
    }
  }

  /** `r` is `s[a..a + |r|]` and everything of `s` outside it is white space. */
  ghost predicate TrimmedSlice(s: string, r: string, a: int) {
    && 0 <= a && a + |r| <= |s|
    && r == s[a..a + |r|]
    && (forall i :: 0 <= i < a ==> IsSpace(s[i]))
    && (forall i :: a + |r| <= i < |s| ==> IsSpace(s[i]))
  }

  /** The per-character reading of `replace(/\s+/g, ' ')`: a visible
      character is kept, and a white-space character becomes one space when
      it ends its run and vanishes when white space follows it. */
  function Squeeze(s: string): string {
    if s == [] then []
    else if !IsSpace(s[0]) then [s[0]] + Squeeze(s[1..])
    else if |s| > 1 && IsSpace(s[1]) then Squeeze(s[1..])
    else [' '] + Squeeze(s[1..])
  }

  /** A run of white space squeezes to one space. */
  lemma {:induction false} SqueezeRun(s: string)
    requires s != [] && IsSpace(s[0])
    ensures Squeeze(s) == [' '] + Squeeze(TrimStart(s))
    decreases |s|
  {
    if |s| > 1 && IsSpace(s[1]) {
      SqueezeRun(s[1..]);
    } else {
      assert TrimStart(s[1..]) == s[1..];
    }
  }

  /** `replace(/\s+/g, ' ')`: each maximal run of white space becomes one
      space. */
  function Collapse(s: string): (r: string)
    ensures r == Squeeze(s)
    ensures Collapsed(r)
    ensures r == [] <==> s == []
    ensures r != [] ==> (IsSpace(r[0]) <==> IsSpace(s[0]))
    ensures Visible(r) == Visible(s)
    decreases |s|
  {
    if s == [] then []
    else if IsSpace(s[0]) then
      var rest := TrimStart(s);
      var tail := Collapse(rest);
      assert Visible(rest) == Visible(s) by { VisibleDropsSpaces(s, |s| - |rest|); }
      SqueezeRun(s);
      CollapsedCons(' ', tail);
      assert Visible([' '] + tail) == Visible(tail);
      [' '] + tail
    else
      var tail := Collapse(s[1..]);
      assert Visible(s) == [s[0]] + Visible(s[1..]);
      CollapsedCons(s[0], tail);
      assert Visible([s[0]] + tail) == [s[0]] + Visible(tail);
      [s[0]] + tail
  }

  /** One character before a collapsed string keeps it collapsed when it
      is visible, or a plain space before a visible start. */
  lemma CollapsedCons(c: char, t: string)
    requires Collapsed(t)
    requires IsSpace(c) ==> c == ' ' && (t == [] || !IsSpace(t[0]))
    ensures Collapsed([c] + t)
  {
    var r := [c] + t;
    forall i | 0 <= i < |r| && IsSpace(r[i]) ensures r[i] == ' ' {
      if i > 0 { assert r[i] == t[i - 1]; }
    }
    forall i | 0 <= i < |r| - 1 ensures !(IsSpace(r[i]) && IsSpace(r[i + 1])) {
      if i > 0 { assert r[i] == t[i - 1] && r[i + 1] == t[i]; }
    }
  }

  /** `sanitize(value)`. */
  function Sanitize(s: string): (r: string)
    ensures r == Trim(Squeeze(s))
    ensures Trimmed(r) && Collapsed(r)
    ensures Visible(r) == Visible(s)
  {
    var c := Collapse(s);
    var t := TrimStart(c);
    var r := TrimEnd(t);
    assert Visible(r) == Visible(s) by {
      VisibleDropsSpaces(c, |c| - |t|);
      VisibleDropsTrailing(t, |r|);
    }
    assert Collapsed(r) by {
      CollapsedSlice(c, |c| - |t|, |c|);
      CollapsedSlice(t, 0, |r|);
    }
    assert Trimmed(r) by {
      if r != [] {
        assert r[0] == t[0];
      }
    }
    r
  }

  /** Any slice of a collapsed string is collapsed. */
  lemma CollapsedSlice(s: string, a: nat, b: nat)
    requires Collapsed(s) && a <= b <= |s|
    ensures Collapsed(s[a..b])
  {
    var t := s[a..b];
    forall i | 0 <= i < |t| && IsSpace(t[i]) ensures t[i] == ' ' {
      assert t[i] == s[a + i];
    }
    forall i | 0 <= i < |t| - 1 ensures !(IsSpace(t[i]) && IsSpace(t[i + 1])) {
      assert t[i] == s[a + i] && t[i + 1] == s[a + i + 1];
    }
  }

  /** Dropping a white-space prefix keeps the visible characters. */
  lemma {:induction false} VisibleDropsSpaces(s: string, n: nat)
    requires n <= |s|
    requires forall i :: 0 <= i < n ==> IsSpace(s[i])
    ensures Visible(s[n..]) == Visible(s)
    decreases n
  {
    if n > 0 {
      assert s[1..][n - 1..] == s[n..];
      VisibleDropsSpaces(s[1..], n - 1);
    }
  }

  /** Visible characters distribute over concatenation. */
  lemma {:induction false} VisibleAppend(a: string, b: string)
    ensures Visible(a + b) == Visible(a) + Visible(b)
  {
    if a == [] {
      assert a + b == b;
    } else {
      assert (a + b)[0] == a[0] && (a + b)[1..] == a[1..] + b;
      VisibleAppend(a[1..], b);
    }
  }

  /** A string of white space has no visible characters. */
  lemma {:induction false} VisibleOfSpaces(s: string)
    requires forall i :: 0 <= i < |s| ==> IsSpace(s[i])
    ensures Visible(s) == []
  {
    if s != [] {
      VisibleOfSpaces(s[1..]);
    }
  }

  /** Dropping a white-space suffix keeps the visible characters. */
  lemma VisibleDropsTrailing(s: string, n: nat)
    requires n <= |s|
    requires forall i :: n <= i < |s| ==> IsSpace(s[i])
    ensures Visible(s[..n]) == Visible(s)
  {
    var tail := s[n..];
    assert s == s[..n] + tail;
    VisibleAppend(s[..n], tail);
    forall i | 0 <= i < |tail| ensures IsSpace(tail[i]) {
      assert tail[i] == s[n + i];
    }
    VisibleOfSpaces(tail);
  }

  /** A collapsed string is its own collapse. */
  lemma {:induction false} CollapseFixed(s: string)
    requires Collapsed(s)
    ensures Collapse(s) == s
    decreases |s|
  {
    if s != [] {
      CollapsedSlice(s, 1, |s|);
      CollapseFixed(s[1..]);
      if IsSpace(s[0]) {
        assert TrimStart(s) == s[1..] by {
          assert s[1..] == [] || !IsSpace(s[1..][0]);
        }
        assert s[0] == ' ';
        assert Collapse(s) == [' '] + Collapse(s[1..]);
      } else {
        assert Collapse(s) == [s[0]] + Collapse(s[1..]);
      }
      assert s == [s[0]] + s[1..];
    }
  }

  /** A trimmed string is its own trim. */
  lemma TrimFixed(s: string)
    requires Trimmed(s)
    ensures Trim(s) == s
  {
  }

  /** Sanitizing twice is sanitizing once. */
  lemma SanitizeIdempotent(s: string)
    ensures Sanitize(Sanitize(s)) == Sanitize(s)
  {
    var r := Sanitize(s);
    CollapseFixed(r);
    TrimFixed(r);
  }

  /** A message with no white-space problems is written as it is. */
  lemma CleanMessageUnchanged(s: string)
    requires Trimmed(s) && Collapsed(s)
    ensures Sanitize(s) == s
  {
    CollapseFixed(s);
    TrimFixed(s);
  }

  /** The text `appendLog` writes: `[timestamp] message` and a newline. */
  function LogLine(timestamp: string, message: string): (line: string)
    ensures |line| >= |timestamp| + 4
    ensures line[..|timestamp| + 3] == "[" + timestamp + "] " && line[|line| - 1] == '\n'
    ensures line[|timestamp| + 3 .. |line| - 1] == Sanitize(message)
  {
    Framed(timestamp, Sanitize(message))
  }

  /** `[timestamp] text` and a newline, for any text. */
  function Framed(timestamp: string, text: string): (line: string)
    ensures |line| == |timestamp| + |text| + 4
    ensures line[..|timestamp| + 3] == "[" + timestamp + "] " && line[|line| - 1] == '\n'
    ensures line[|timestamp| + 3 .. |line| - 1] == text
  {
    var prefix := "[" + timestamp + "] ";
    var line := prefix + text + "\n";
    assert line[..|prefix|] == prefix;
    assert line[|prefix| .. |line| - 1] == text;
    line
  }

  /** Each call writes one line: the only line feed is the final one, since
      sanitizing turns every line break in the message into a space. */
  lemma OneLinePerCall(timestamp: string, message: string)
    requires '\n' !in timestamp
    ensures var line := LogLine(timestamp, message);
      '\n' !in line[..|line| - 1]
  {
    var line := LogLine(timestamp, message);
    LineFeedOnlyAtEnd(line, timestamp);
  }

  /** A line made of the bracketed timestamp and a collapsed message has
      no line feed before its last character. */
  lemma LineFeedOnlyAtEnd(line: string, timestamp: string)
    requires '\n' !in timestamp
    requires |line| >= |timestamp| + 4
    requires line[..|timestamp| + 3] == "[" + timestamp + "] "
    requires Collapsed(line[|timestamp| + 3 .. |line| - 1])
    ensures '\n' !in line[..|line| - 1]
  {
    var n := |timestamp| + 3;
    var prefix := line[..n];
    var m := line[n .. |line| - 1];
    NoNewline(m);
    var body := line[..|line| - 1];
    forall k | 0 <= k < |body| ensures body[k] != '\n' {
      if k < n {
        assert body[k] == prefix[k];
        if k > 0 && k < n - 2 {
          assert prefix[k] == timestamp[k - 1];
        }
      } else {
        assert body[k] == m[k - n];
      }
    }
  }

  /** After collapsing, the only white space left is the plain space. */
  lemma NoNewline(m: string)
    requires Collapsed(m)
    ensures '\n' !in m
  {
    forall i | 0 <= i < |m| ensures m[i] != '\n' {
      if IsSpace(m[i]) { assert m[i] == ' '; }
    }
  }

  /** The message read back from a line is already clean: sanitizing it
      again changes nothing. */
  lemma ReadBackIsClean(timestamp: string, message: string)
    ensures var line := LogLine(timestamp, message);
      Sanitize(line[|timestamp| + 3 .. |line| - 1]) == line[|timestamp| + 3 .. |line| - 1]
  {
    SanitizeIdempotent(message);
  }
}

=== FILE: market_data.dfy ===
/** The market-data service: it resolves which registered provider serves a
    product and forwards the price request to it unchanged. A provider is a
    record of its key and its price lookup, so any provider can be
    registered. */
module MarketData {
  import opened Common

  /** A latest price and the day it closed on. */
  datatype MarketQuote = MarketQuote(price: real, date: int)

  /** `getLatestPrice(symbolCode, product, options.exchange)` of one provider:
      a quote, `null` for no data, or the exception it throws. */
  type QuoteLookup = (string, string, Option<string>) -> Result<Option<MarketQuote>>

  datatype Provider = Provider(providerKey: string, getLatestPrice: QuoteLookup)

  /** The `market_data` settings: `providerByProduct.<product>` and the
      global `provider`, each possibly unset. */
  datatype MarketSettings = MarketSettings(providerByProduct: map<string, string>, provider: Option<string>)

  function ProductSetting(settings: MarketSettings, product: string): Option<string> {
    if product in settings.providerByProduct then Some(settings.providerByProduct[product]) else None
  }

  /** `providerOverride || byProduct || provider || ''`. */
  function ProviderKey(settings: MarketSettings, product: string, providerOverride: Option<string>): (key: string)
    ensures Truthy(providerOverride) ==> key == providerOverride.value
    ensures !Truthy(providerOverride) && Truthy(ProductSetting(settings, product)) ==>
      key == settings.providerByProduct[product]
    ensures !Truthy(providerOverride) && !Truthy(ProductSetting(settings, product)) && Truthy(settings.provider) ==>
      key == settings.provider.value
    ensures key == "" <==>
      !Truthy(providerOverride) && !Truthy(ProductSetting(settings, product)) && !Truthy(settings.provider)
  {
    OrElse(providerOverride, OrElse(ProductSetting(settings, product), settings.provider)).GetOr("")
  }

  function HasKey(key: string): Provider -> bool {
    (p: Provider) => p.providerKey == key
  }

  function NoProvider(product: string, key: string): Error {
    NotFound("Market provider not found for product " + product + ": " + key)
  }

  /** The first registered provider whose key is the resolved key. */
  function GetProviderForProduct(providers: seq<Provider>, settings: MarketSettings, product: string,
                                 providerOverride: Option<string>): (r: Result<Provider>)
    ensures var key := ProviderKey(settings, product, providerOverride);
      r.Err? <==> forall i :: 0 <= i < |providers| ==> providers[i].providerKey != key
    ensures r.Err? ==> r.error == NoProvider(product, ProviderKey(settings, product, providerOverride))
    ensures r.Ok? ==> exists i ::
      && 0 <= i < |providers| && providers[i] == r.value
      && forall j :: 0 <= j < i ==> providers[j].providerKey != ProviderKey(settings, product, providerOverride)
    ensures r.Ok? ==> r.value.providerKey == ProviderKey(settings, product, providerOverride)
  {
    var key := ProviderKey(settings, product, providerOverride);
    match FindIndex(providers, HasKey(key))
    case None => Err(NoProvider(product, key))
    case Some(i) => Ok(providers[i])
  }

  /** Resolves the provider, then asks it with the same code, product and
      exchange. */
  function GetLatestPrice(providers: seq<Provider>, settings: MarketSettings, symbolCode: string, product: string,
                          providerOverride: Option<string>, exchange: Option<string>): (r: Result<Option<MarketQuote>>)
    ensures GetProviderForProduct(providers, settings, product, providerOverride).Err? ==>
      r == Err(GetProviderForProduct(providers, settings, product, providerOverride).error)
    ensures GetProviderForProduct(providers, settings, product, providerOverride).Ok? ==>
      r == GetProviderForProduct(providers, settings, product, providerOverride).value.getLatestPrice(symbolCode, product, exchange)
  {
    match GetProviderForProduct(providers, settings, product, providerOverride)
    case Err(e) => Err(e)
    case Ok(p) => p.getLatestPrice(symbolCode, product, exchange)
  }

  /** A truthy override picks the provider whatever the settings say, and
      the lookup then answers exactly what that provider answers. */
  lemma OverrideWins(providers: seq<Provider>, settings: MarketSettings, other: MarketSettings, symbolCode: string,
                     product: string, providerOverride: Option<string>, exchange: Option<string>)
    requires Truthy(providerOverride)
    ensures GetLatestPrice(providers, settings, symbolCode, product, providerOverride, exchange)
         == GetLatestPrice(providers, other, symbolCode, product, providerOverride, exchange)
  {
  }

  /** With nothing configured the key is empty, and unless some provider
      registered the empty key the lookup is NotFound. */
  lemma UnconfiguredIsNotFound(providers: seq<Provider>, symbolCode: string, product: string, exchange: Option<string>)
    requires forall i :: 0 <= i < |providers| ==> providers[i].providerKey != ""
    ensures GetLatestPrice(providers, MarketSettings(map[], None), symbolCode, product, None, exchange)
         == Err(NoProvider(product, ""))
  {
  }

  /** `process.env[name] || fallback`: an unset or empty variable falls
      back. */
  function EnvOr(env: map<string, string>, name: string, fallback: string): (v: string)
    ensures name in env && env[name] != "" ==> v == env[name]
    ensures !(name in env && env[name] != "") ==> v == fallback
    ensures v == "" ==> fallback == ""
  {
    if name in env && env[name] != "" then env[name] else fallback
  }

  /** The settings built from the environment: every key defaults to
      "eodhd", and only stock, etf and crypto have a per-product entry. */
  function SettingsFromEnv(env: map<string, string>): (s: MarketSettings)
    ensures s.providerByProduct.Keys == {"stock", "etf", "crypto"}
    ensures s.providerByProduct["stock"] == EnvOr(env, "MARKET_DATA_PROVIDER_STOCK", "eodhd")
    ensures s.providerByProduct["etf"] == EnvOr(env, "MARKET_DATA_PROVIDER_ETF", "eodhd")
    ensures s.providerByProduct["crypto"] == EnvOr(env, "MARKET_DATA_PROVIDER_CRYPTO", "eodhd")
    ensures s.provider == Some(EnvOr(env, "MARKET_DATA_PROVIDER", "eodhd"))
    ensures forall k :: k in s.providerByProduct ==> s.providerByProduct[k] != ""
  {
    MarketSettings(
      map["stock" := EnvOr(env, "MARKET_DATA_PROVIDER_STOCK", "eodhd"),
          "etf" := EnvOr(env, "MARKET_DATA_PROVIDER_ETF", "eodhd"),
          "crypto" := EnvOr(env, "MARKET_DATA_PROVIDER_CRYPTO", "eodhd")],
      Some(EnvOr(env, "MARKET_DATA_PROVIDER", "eodhd")))
  }

  /** A derivative has no per-product setting, so it is served by the global
      provider. */
  lemma DerivativeUsesGlobalProvider(env: map<string, string>)
    ensures var s := SettingsFromEnv(env);
      ProviderKey(s, "derivative", None) == s.provider.value
  {
    var s := SettingsFromEnv(env);
    assert "derivative" !in s.providerByProduct;
  }
}

=== FILE: market_errors.dfy ===
/** How a failed call to a market-data provider is reported: HTTP client
    errors with a response status become the service's own exceptions, and
    anything else is thrown again unchanged. The mapping never returns
    normally, so it is modelled as the error it throws. */
module MarketErrors {
  import opened Common
  import opened Text

  const InvalidCredentials := "Credenciales invalidas para el proveedor de mercado"
  const RateLimited := "Limite de peticiones excedido en el proveedor de mercado"
  const ProviderDown := "Proveedor de mercado no disponible"

  /** The 404 message, naming the code when there is a truthy one. */
  function UnknownCodeMessage(symbolCode: Option<string>): (m: string)
    ensures Truthy(symbolCode) ==> Includes(m, symbolCode.value)
  {
    var code := if Truthy(symbolCode) then " " + symbolCode.value else "";
    var m := "El código" + code + " es incorrecto o no se encuentra";
    assert Truthy(symbolCode) ==> Includes(m, symbolCode.value) by {
      if Truthy(symbolCode) {
        IncludesAt(m, symbolCode.value, |"El código "|);
      }
    }
    m
  }

  lemma IncludesAt(s: string, pat: string, i: nat)
    requires OccursAt(s, pat, i)
    ensures Includes(s, pat)
  {
  }

  /** The status of a response that arrived, when it is truthy (not 0). */
  function TruthyStatus(error: Error): Option<int> {
    if error.Network? && error.responseStatus.Some? && error.responseStatus.value != 0
    then error.responseStatus
    else None
  }

  /** The exception `mapMarketDataError(error, symbolCode)` throws. */
  function MapMarketDataError(error: Error, symbolCode: Option<string>): (thrown: Error)
    ensures TruthyStatus(error).None? ==> thrown == error
    ensures TruthyStatus(error).Some? ==> thrown != error
    ensures var st := TruthyStatus(error);
      st.Some? ==>
        && (st.value == 401 || st.value == 403 <==> thrown == Unauthorized(InvalidCredentials))
        && (st.value == 404 <==> thrown == NotFound(UnknownCodeMessage(symbolCode)))
        && (st.value == 429 <==> thrown == HttpError(429, RateLimited))
        && (st.value >= 500 <==> thrown == ServiceUnavailable(ProviderDown))
  {
    match TruthyStatus(error)
    case None => error
    case Some(status) =>
      if status == 401 || status == 403 then Unauthorized(InvalidCredentials)
      else if status == 404 then NotFound(UnknownCodeMessage(symbolCode))
      else if status == 429 then HttpError(429, RateLimited)
      else if status >= 500 then ServiceUnavailable(ProviderDown)
      else BadGateway("Error en proveedor de mercado (status " + IntToString(status) + ")")
  }

  /** The HTTP status a client finally sees for a thrown exception. */
  function ReportedStatus(e: Error): Option<int> {
    match e
    case NotFound(_) => Some(404)
    case Conflict(_) => Some(409)
    case BadRequest(_) => Some(400)
    case Unauthorized(_) => Some(401)
    case ServiceUnavailable(_) => Some(503)
    case BadGateway(_) => Some(502)
    case HttpError(status, _) => Some(status)
    case Network(_, _) => None
    case Thrown(_) => None
  }

  /** Every truthy provider status is reported as one of 401, 404, 429, 503
      or 502, decided by the status alone; the mapping is total. */
  lemma StatusIsReportedAs(error: Error, symbolCode: Option<string>)
    requires TruthyStatus(error).Some?
    ensures var st := TruthyStatus(error).value;
      ReportedStatus(MapMarketDataError(error, symbolCode))
        == Some(if st == 401 || st == 403 then 401
                else if st == 404 then 404
                else if st == 429 then 429
                else if st >= 500 then 503
                else 502)
  {
  }

  /** A status that is none of the special ones gives a BadGateway whose
      message carries the status in decimal. */
  lemma OtherStatusNamesIt(error: Error, symbolCode: Option<string>)
    requires TruthyStatus(error).Some?
    requires var st := TruthyStatus(error).value;
      st != 401 && st != 403 && st != 404 && st != 429 && st < 500
    ensures var st := TruthyStatus(error).value;
      MapMarketDataError(error, symbolCode).BadGateway?
      && Includes(MapMarketDataError(error, symbolCode).message, IntToString(st))
  {
    var st := TruthyStatus(error).value;
    var m := MapMarketDataError(error, symbolCode).message;
    assert m == "Error en proveedor de mercado (status " + IntToString(st) + ")";
    IncludesAt(m, IntToString(st), |"Error en proveedor de mercado (status "|);
  }
}

=== FILE: metrics.dfy ===
/** Per-operation figures computed from an operation's entries, shared by the
    balance, performance, ranking and distribution queries. */
module Metrics {
  import opened Common
  import opened Entities

  function IsType(t: EntryType): Entry -> bool {
    (e: Entry) => e.entryType == t
  }

  function Quantity(e: Entry): real { e.quantity }

  /** `Number(e.quantity) * Number(e.price)`. */
  function Notional(e: Entry): real { e.quantity * e.price }

  /** What an entry does to the money tied up in its operation: a buy adds
      its notional, a sell takes it back. */
  function Signed(e: Entry): real {
    if e.entryType == Buy then Notional(e) else -Notional(e)
  }

  function BuyQty(es: seq<Entry>): real { SumOf(Filter(es, IsType(Buy)), Quantity) }
  function SellQty(es: seq<Entry>): real { SumOf(Filter(es, IsType(Sell)), Quantity) }
  function BuyTotal(es: seq<Entry>): real { SumOf(Filter(es, IsType(Buy)), Notional) }
  function SellTotal(es: seq<Entry>): real { SumOf(Filter(es, IsType(Sell)), Notional) }

  /** `buyTotal - sellTotal`: the money still tied up in the operation. It is
      the signed sum over the entries, each buy adding and each sell
      subtracting its notional, in any order. */
  function NetInvested(es: seq<Entry>): (r: real)
    ensures r == SumOf(es, Signed)
  {
    NetInvestedIsSigned(es);
    BuyTotal(es) - SellTotal(es)
  }

  lemma NetInvestedIsSigned(es: seq<Entry>)
    ensures BuyTotal(es) - SellTotal(es) == SumOf(es, Signed)
  {
    assert forall x :: x in es ==> (IsType(Sell)(x) <==> !IsType(Buy)(x));
    SumOfSplit(es, IsType(Buy), IsType(Sell), Signed);
    BuysSigned(es);
    SellsSigned(es);
  }

  lemma BuysSigned(es: seq<Entry>)
    ensures SumOf(Filter(es, IsType(Buy)), Signed) == BuyTotal(es)
  {
    var buys := Filter(es, IsType(Buy));
    forall x | x in buys ensures Signed(x) == Notional(x) {
      var i :| 0 <= i < |buys| && buys[i] == x;
    }
    SumOfAgree(buys, Signed, Notional);
  }

  lemma SellsSigned(es: seq<Entry>)
    ensures SumOf(Filter(es, IsType(Sell)), Signed) == -SellTotal(es)
  {
    var sells := Filter(es, IsType(Sell));
    forall i | 0 <= i < |sells| ensures Signed(sells[i]) == -Notional(sells[i]) {
      assert IsType(Sell)(sells[i]);
    }
    SumOfNegated(sells, Notional, Signed);
  }

  /** `buyQty - sellQty`: the position still held. */
  function HeldQty(es: seq<Entry>): real { BuyQty(es) - SellQty(es) }

  /** `buyQty > 0 ? buyTotal / buyQty : 0`: the average price paid, whose
      product with the bought quantity is the amount paid. */
  function AvgBuyPrice(es: seq<Entry>): (r: real)
    ensures BuyQty(es) > 0.0 ==> r * BuyQty(es) == BuyTotal(es)
    ensures BuyQty(es) <= 0.0 ==> r == 0.0
  {
    if BuyQty(es) > 0.0 then BuyTotal(es) / BuyQty(es) else 0.0
  }

  /** The cost basis of the held position, `avgBuyPrice * currentQty`. */
  function CostBasis(es: seq<Entry>): real { AvgBuyPrice(es) * HeldQty(es) }

  /** An open operation is valued only when its latest price is truthy (a
      price of 0 counts as missing) and a positive quantity is held. */
  predicate Valued(price: Option<real>, es: seq<Entry>) {
    price.Some? && price.value != 0.0 && HeldQty(es) > 0.0
  }

  /** The paper result of holding the position at `price`: a long gains when
      the price rises above the average paid, anything else (a short) gains
      when it falls below. */
  function Unrealized(kind: string, es: seq<Entry>, price: real): (r: real)
    ensures kind == "long" ==> r == price * HeldQty(es) - CostBasis(es)
    ensures kind != "long" ==> r == CostBasis(es) - price * HeldQty(es)
  {
    var qty := HeldQty(es);
    var avg := AvgBuyPrice(es);
    Distribute(price, avg, qty, CostBasis(es));
    if kind == "long" then (price - avg) * qty else (avg - price) * qty
  }

  lemma Distribute(a: real, b: real, c: real, bc: real)
    requires bc == b * c
    ensures (a - b) * c == a * c - bc
    ensures (b - a) * c == bc - a * c
  {
  }

  /** A long and a short on the same entries and price mirror each other. */
  lemma LongShortMirror(es: seq<Entry>, price: real, other: string)
    requires other != "long"
    ensures Unrealized("long", es, price) == -Unrealized(other, es, price)
  {
  }

  /** At the average buy price nothing is gained or lost, long or short. */
  lemma UnrealizedAtAverage(kind: string, es: seq<Entry>)
    ensures Unrealized(kind, es, AvgBuyPrice(es)) == 0.0
  {
  }

  function BuyAt(q: real, p: real): Entry { Entry("", "", Buy, q, p, None, 0) }
  function SellAt(q: real, p: real): Entry { Entry("", "", Sell, q, p, None, 0) }

  /** Ten bought at 100 and two sold at 110 leave 780 invested. */
  lemma NetInvestedExample()
    ensures NetInvested([BuyAt(10.0, 100.0), SellAt(2.0, 110.0)]) == 780.0
  {
    var es := [BuyAt(10.0, 100.0), SellAt(2.0, 110.0)];
    assert es[..1] == [BuyAt(10.0, 100.0)];
    SumOfSingleton(BuyAt(10.0, 100.0), Signed);
  }

  /** Ten bought at 100 and now priced at 120: a long is up 200; priced at 90
      a short is up 100. */
  lemma UnrealizedExamples()
    ensures Unrealized("long", [BuyAt(10.0, 100.0)], 120.0) == 200.0
    ensures Unrealized("short", [BuyAt(10.0, 100.0)], 90.0) == 100.0
  {
    var es := [BuyAt(10.0, 100.0)];
    assert Filter(es, IsType(Buy)) == es by {
      assert es[..0] == [];
    }
    assert Filter(es, IsType(Sell)) == [] by {
      assert es[..0] == [];
    }
    SumOfSingleton(BuyAt(10.0, 100.0), Quantity);
    SumOfSingleton(BuyAt(10.0, 100.0), Notional);
  }
}

=== FILE: operations_service.dfy ===
/** The operations service: operations, their buy/sell entries and their own
    price history, without any automatic closing (an operation's status and
    balance are never touched here). Every write is a function from the store
    to the new store and the row the call returns, or to the exception it
    throws; a failing call changes nothing. */
module OperationsService {
  import opened Common
  import opened Entities
  import opened Sorting
  import opened Metrics
  import Analytics

  /** A validated `CreateEntryDto`; the ISO date is already a day number. */
  datatype NewEntry = NewEntry(entryType: EntryType, quantity: real, price: real, tax: Option<real>, date: int)

  /** A validated `CreateOperationDto` with the caller's `userId` merged in.
      `leverage` is accepted by validation but never stored. */
  datatype NewOperation = NewOperation(
    userId: Option<string>,
    accountId: string,
    symbolId: string,
    product: string,
    kind: string,
    leverage: Option<real>,
    firstEntry: Option<NewEntry>)

  function OperationIds(db: Db): seq<string> { Map(db.operations, OperationId) }
  function EntryIds(db: Db): seq<string> { Map(db.entries, EntryId) }
  function PriceIds(db: Db): seq<string> { Map(db.prices, PriceId) }

  predicate HasOperation(db: Db, id: string) {
    exists i :: 0 <= i < |db.operations| && db.operations[i].id == id
  }

  function NotFoundOperation(id: string): Error {
    NotFound("Operation with id " + id + " not found")
  }

  /** The entry row stored for `input` under operation `opId`. */
  function EntryRow(id: string, opId: string, input: NewEntry): (e: Entry)
    ensures e.id == id && e.operationId == opId
    ensures e.entryType == input.entryType && e.quantity == input.quantity && e.price == input.price
    ensures e.tax == input.tax && e.date == input.date
  {
    Entry(id, opId, input.entryType, input.quantity, input.price, input.tax, input.date)
  }

  // ---------------------------------------------------------------------
  // create

  /** Rejects a missing or empty `userId` before any write; otherwise inserts
      one open operation with no balance and, when a first entry is given,
      exactly one entry linked to it, both or neither. */
  function Create(db: Db, input: NewOperation, now: int): (r: Result<Stored<Operation>>)
    ensures !Truthy(input.userId) ==> r == Err(Thrown("userId is required"))
    ensures Truthy(input.userId) ==> r.Ok?
    ensures r.Ok? ==>
      var o := r.value.value;
      && o.id !in OperationIds(db)
      && o.userId == input.userId.value && o.accountId == input.accountId
      && o.symbolId == input.symbolId && o.product == input.product && o.kind == input.kind
      && o.status == "open" && o.balance.None? && o.createdAt == now && o.updatedAt == now
    ensures r.Ok? ==>
      var db' := r.value.db;
      && db'.operations == db.operations + [r.value.value]
      && db'.prices == db.prices && db'.symbols == db.symbols && db'.transactions == db.transactions
      && db'.accounts == db.accounts && db'.users == db.users
    ensures r.Ok? && input.firstEntry.None? ==> r.value.db.entries == db.entries
    ensures r.Ok? && input.firstEntry.Some? ==>
      exists e :: && r.value.db.entries == db.entries + [e]
                  && e.id !in EntryIds(db)
                  && e == EntryRow(e.id, r.value.value.id, input.firstEntry.value)
  {
    if !Truthy(input.userId) then Err(Thrown("userId is required"))
    else
      var o := Operation(FreshId(OperationIds(db)), input.userId.value, input.accountId, input.symbolId,
                         input.product, input.kind, "open", None, now, now);
      var entries :=
        match input.firstEntry
        case None => db.entries
        case Some(first) => db.entries + [EntryRow(FreshId(EntryIds(db)), o.id, first)];
      Ok(Stored(db.(operations := db.operations + [o], entries := entries), o))
  }

  // ---------------------------------------------------------------------
  // findAll

  datatype OperationFilters = OperationFilters(
    userId: string,
    status: Option<string>,
    product: Option<string>,
    symbolId: Option<string>)

  /** The `where` clause: the user always, each other filter only when it is
      truthy. */
  function Matches(f: OperationFilters): Operation -> bool {
    (o: Operation) =>
      && o.userId == f.userId
      && (Truthy(f.status) ==> o.status == f.status.value)
      && (Truthy(f.product) ==> o.product == f.product.value)
      && (Truthy(f.symbolId) ==> o.symbolId == f.symbolId.value)
  }

  function CreatedAt(o: Operation): real { o.createdAt as real }

  /** The user's operations passing every given filter, newest first. */
  function FindAll(db: Db, f: OperationFilters): (r: seq<Operation>)
    ensures forall i :: 0 <= i < |r| ==>
      && r[i] in db.operations
      && r[i].userId == f.userId
      && (Truthy(f.status) ==> r[i].status == f.status.value)
      && (Truthy(f.product) ==> r[i].product == f.product.value)
      && (Truthy(f.symbolId) ==> r[i].symbolId == f.symbolId.value)
    ensures forall i :: 0 <= i < |db.operations| && Matches(f)(db.operations[i]) ==> db.operations[i] in r
    ensures forall i, j :: 0 <= i < j < |r| ==> r[i].createdAt >= r[j].createdAt
    ensures |r| <= |db.operations|
    ensures multiset(r) == multiset(Filter(db.operations, Matches(f)))
  {
    var r := SortDesc(Filter(db.operations, Matches(f)), CreatedAt);
    ReorderedFilter(db.operations, Matches(f), r);
    r
  }

  /** With no optional filter given, `findAll` lists all of the user's
      operations, each as often as it is stored. */
  lemma FindAllUnfiltered(db: Db, userId: string)
    ensures multiset(FindAll(db, OperationFilters(userId, None, None, None)))
         == multiset(Filter(db.operations, (o: Operation) => o.userId == userId))
  {
    var f := OperationFilters(userId, None, None, None);
    FilterAgree(db.operations, Matches(f), (o: Operation) => o.userId == userId);
  }

  // ---------------------------------------------------------------------
  // findOne

  /** An operation with its symbol, account, entries (oldest first) and
      prices (newest first). */
  datatype OperationDetail = OperationDetail(
    operation: Operation,
    symbol: Option<Symbol>,
    account: Option<Account>,
    entries: seq<Entry>,
    prices: seq<PricePoint>)

  function EntryDate(e: Entry): real { e.date as real }
  function PriceDate(p: PricePoint): real { p.date as real }

  function OfOperation(opId: string): PricePoint -> bool {
    (p: PricePoint) => p.owner == ByOperation(opId)
  }

  /** The entries of an operation, oldest first. */
  function OperationEntries(db: Db, id: string): (es: seq<Entry>)
    ensures forall i :: 0 <= i < |es| ==> es[i] in db.entries && es[i].operationId == id
    ensures forall i :: 0 <= i < |db.entries| && db.entries[i].operationId == id ==> db.entries[i] in es
    ensures forall i, j :: 0 <= i < j < |es| ==> es[i].date <= es[j].date
    ensures multiset(es) == multiset(Filter(db.entries, Analytics.BelongsTo(id)))
  {
    var es := SortAsc(Filter(db.entries, Analytics.BelongsTo(id)), EntryDate);
    ReorderedFilter(db.entries, Analytics.BelongsTo(id), es);
    es
  }

  /** The prices recorded against an operation, newest first. */
  function OperationPrices(db: Db, id: string): (ps: seq<PricePoint>)
    ensures forall i :: 0 <= i < |ps| ==> ps[i] in db.prices && ps[i].owner == ByOperation(id)
    ensures forall i :: 0 <= i < |db.prices| && db.prices[i].owner == ByOperation(id) ==> db.prices[i] in ps
    ensures forall i, j :: 0 <= i < j < |ps| ==> ps[i].date >= ps[j].date
    ensures multiset(ps) == multiset(Filter(db.prices, OfOperation(id)))
  {
    var ps := SortDesc(Filter(db.prices, OfOperation(id)), PriceDate);
    ReorderedFilter(db.prices, OfOperation(id), ps);
    ps
  }

  function FindOne(db: Db, id: string): (r: Result<OperationDetail>)
    ensures r.Err? <==> !HasOperation(db, id)
    ensures r.Err? ==> r.error == NotFoundOperation(id)
    ensures r.Ok? ==> r.value.operation in db.operations && r.value.operation.id == id
    ensures r.Ok? ==>
      && (forall i :: 0 <= i < |r.value.entries| ==> r.value.entries[i] in db.entries && r.value.entries[i].operationId == id)
      && (forall i :: 0 <= i < |db.entries| && db.entries[i].operationId == id ==> db.entries[i] in r.value.entries)
      && (forall i, j :: 0 <= i < j < |r.value.entries| ==> r.value.entries[i].date <= r.value.entries[j].date)
    ensures r.Ok? ==>
      && (forall i :: 0 <= i < |r.value.prices| ==> r.value.prices[i] in db.prices && r.value.prices[i].owner == ByOperation(id))
      && (forall i :: 0 <= i < |db.prices| && db.prices[i].owner == ByOperation(id) ==> db.prices[i] in r.value.prices)
      && (forall i, j :: 0 <= i < j < |r.value.prices| ==> r.value.prices[i].date >= r.value.prices[j].date)
    ensures r.Ok? ==> multiset(r.value.entries) == multiset(Filter(db.entries, Analytics.BelongsTo(id)))
    ensures r.Ok? ==> multiset(r.value.prices) == multiset(Filter(db.prices, OfOperation(id)))
  {
    match FindFirst(db.operations, (o: Operation) => o.id == id)
    case None => Err(NotFoundOperation(id))
    case Some(o) =>
      Ok(OperationDetail(
        o,
        FindFirst(db.symbols, (s: Symbol) => s.id == o.symbolId),
        FindFirst(db.accounts, (a: Account) => a.id == o.accountId),
        OperationEntries(db, id),
        OperationPrices(db, id)))
  }

  // ---------------------------------------------------------------------
  // addEntry

  /** Adds one entry to an existing operation; the operation itself (status,
      balance) is left as it is. */
  function AddEntry(db: Db, operationId: string, input: NewEntry): (r: Result<Stored<Entry>>)
    ensures r.Err? <==> !HasOperation(db, operationId)
    ensures r.Err? ==> r.error == NotFoundOperation(operationId)
    ensures r.Ok? ==>
      && r.value.value.id !in EntryIds(db)
      && r.value.value == EntryRow(r.value.value.id, operationId, input)
      && r.value.db == db.(entries := db.entries + [r.value.value])
  {
    if !HasOperation(db, operationId) then Err(NotFoundOperation(operationId))
    else
      var e := EntryRow(FreshId(EntryIds(db)), operationId, input);
      Ok(Stored(db.(entries := db.entries + [e]), e))
  }

  /** An added entry moves the net invested amount of its operation by its
      signed notional and leaves every other operation's unchanged. */
  lemma AddEntryMovesNetInvested(db: Db, operationId: string, input: NewEntry, o: Operation)
    requires AddEntry(db, operationId, input).Ok?
    ensures var s := AddEntry(db, operationId, input).value;
      Analytics.NetInvestedOf(s.db)(o)
        == Analytics.NetInvestedOf(db)(o) + (if o.id == operationId then Signed(s.value) else 0.0)
  {
    var s := AddEntry(db, operationId, input).value;
    var e := s.value;
    FilterAppend(db.entries, [e], Analytics.BelongsTo(o.id));
    var before := Filter(db.entries, Analytics.BelongsTo(o.id));
    assert [e][..0] == [];
    if o.id == operationId {
      assert Filter([e], Analytics.BelongsTo(o.id)) == [e];
      SumOfAppend(before, [e], Signed);
      SumOfSingleton(e, Signed);
    } else {
      assert Filter([e], Analytics.BelongsTo(o.id)) == [];
      assert before + [] == before;
    }
  }

  // ---------------------------------------------------------------------
  // removeEntry

  function NotFoundEntry(id: string): Error {
    NotFound("Entry with id " + id + " not found")
  }

  function OtherEntry(entryId: string): Entry -> bool {
    (e: Entry) => e.id != entryId
  }

  /** Deletes the entry with that id when it belongs to that operation; an
      unknown entry and another operation's entry are both NotFound. */
  function RemoveEntry(db: Db, operationId: string, entryId: string): (r: Result<Stored<Entry>>)
    ensures r.Ok? <==> exists i :: 0 <= i < |db.entries| && db.entries[i].id == entryId && db.entries[i] == FindFirst(db.entries, (e: Entry) => e.id == entryId).value && db.entries[i].operationId == operationId
    ensures r.Err? ==> r.error == NotFoundEntry(entryId)
    ensures r.Ok? ==> r.value.value in db.entries && r.value.value.id == entryId && r.value.value.operationId == operationId
    ensures r.Ok? ==>
      && (forall i :: 0 <= i < |db.entries| ==> (db.entries[i] in r.value.db.entries <==> db.entries[i].id != entryId))
      && (forall i :: 0 <= i < |r.value.db.entries| ==> r.value.db.entries[i] in db.entries)
      && r.value.db == db.(entries := r.value.db.entries)
  {
    match FindFirst(db.entries, (e: Entry) => e.id == entryId)
    case None => Err(NotFoundEntry(entryId))
    case Some(e) =>
      if e.operationId != operationId then Err(NotFoundEntry(entryId))
      else
        var rest := Filter(db.entries, OtherEntry(entryId));
        forall i | 0 <= i < |db.entries| && db.entries[i].id != entryId ensures db.entries[i] in rest {
        }
        Ok(Stored(db.(entries := rest), e))
  }

  /** Removing an entry right after adding it gives back the store as it was. */
  lemma {:induction false} AddThenRemoveEntry(db: Db, operationId: string, input: NewEntry)
    requires AddEntry(db, operationId, input).Ok?
    ensures var s := AddEntry(db, operationId, input).value;
      RemoveEntry(s.db, operationId, s.value.id) == Ok(Stored(db, s.value))
  {
    var s := AddEntry(db, operationId, input).value;
    var e := s.value;
    var es := db.entries + [e];
    assert forall i :: 0 <= i < |db.entries| ==> db.entries[i].id != e.id by {
      forall i | 0 <= i < |db.entries| ensures db.entries[i].id != e.id {
        assert EntryIds(db)[i] == db.entries[i].id;
      }
    }
    FindFirstAppended(db.entries, e, (x: Entry) => x.id == e.id);
    FilterAll(db.entries, OtherEntry(e.id));
    FilterAppend(db.entries, [e], OtherEntry(e.id));
    assert [e][..0] == [];
    assert Filter([e], OtherEntry(e.id)) == [];
    assert Filter(es, OtherEntry(e.id)) == db.entries;
  }

  // ---------------------------------------------------------------------
  // addPrice

  /** Records a price for an existing operation. */
  function AddPrice(db: Db, operationId: string, input: NewPrice): (r: Result<Stored<PricePoint>>)
    ensures r.Err? <==> !HasOperation(db, operationId)
    ensures r.Err? ==> r.error == NotFoundOperation(operationId)
    ensures r.Ok? ==>
      && r.value.value.id !in PriceIds(db)
      && r.value.value.owner == ByOperation(operationId)
      && r.value.value.price == input.price && r.value.value.date == input.date
      && r.value.db == db.(prices := db.prices + [r.value.value])
  {
    if !HasOperation(db, operationId) then Err(NotFoundOperation(operationId))
    else
      var p := PricePoint(FreshId(PriceIds(db)), ByOperation(operationId), input.price, input.date);
      Ok(Stored(db.(prices := db.prices + [p]), p))
  }

  /** A price just added is listed in the operation's detail. */
  lemma AddPriceShowsInDetail(db: Db, operationId: string, input: NewPrice)
    requires AddPrice(db, operationId, input).Ok?
    ensures var s := AddPrice(db, operationId, input).value;
      FindOne(s.db, operationId).Ok? && s.value in FindOne(s.db, operationId).value.prices
  {
    var s := AddPrice(db, operationId, input).value;
    assert s.db.prices[|db.prices|] == s.value;
    assert HasOperation(s.db, operationId);
  }

  // ---------------------------------------------------------------------
  // remove

  function OtherOperation(id: string): Operation -> bool {
    (o: Operation) => o.id != id
  }

  /** Deletes the operation with that id and no other row. */
  function Remove(db: Db, id: string): (r: Result<Stored<Operation>>)
    ensures r.Err? <==> !HasOperation(db, id)
    ensures r.Err? ==> r.error == NotFoundOperation(id)
    ensures r.Ok? ==> r.value.value in db.operations && r.value.value.id == id
    ensures r.Ok? ==>
      && (forall i :: 0 <= i < |db.operations| ==> (db.operations[i] in r.value.db.operations <==> db.operations[i].id != id))
      && (forall i :: 0 <= i < |r.value.db.operations| ==> r.value.db.operations[i] in db.operations)
      && r.value.db == db.(operations := r.value.db.operations)
  {
    match FindFirst(db.operations, (o: Operation) => o.id == id)
    case None => Err(NotFoundOperation(id))
    case Some(o) =>
      var rest := Filter(db.operations, OtherOperation(id));
      forall i | 0 <= i < |db.operations| && db.operations[i].id != id ensures db.operations[i] in rest {
      }
      Ok(Stored(db.(operations := rest), o))
  }

  /** Creating an operation without a first entry and removing it again gives
      back the store as it was. */
  lemma {:induction false} CreateThenRemove(db: Db, input: NewOperation, now: int)
    requires Truthy(input.userId) && input.firstEntry.None?
    ensures var s := Create(db, input, now).value;
      Remove(s.db, s.value.id) == Ok(Stored(db, s.value))
  {
    var s := Create(db, input, now).value;
    var o := s.value;
    var ops := db.operations + [o];
    assert s.db == db.(operations := ops);
    forall i | 0 <= i < |db.operations| ensures OtherOperation(o.id)(db.operations[i]) {
      assert OperationIds(db)[i] == db.operations[i].id;
    }
    FindFirstAppended(db.operations, o, (x: Operation) => x.id == o.id);
    FilterDropsAppended(db.operations, o, OtherOperation(o.id));
    assert Remove(s.db, o.id) == Ok(Stored(s.db.(operations := db.operations), o));
  }

  /** The primary keys stay unique through every write of this service. */
  lemma CreateKeepsKeysUnique(db: Db, input: NewOperation, now: int)
    requires WellFormed(db) && Truthy(input.userId)
    ensures WellFormed(Create(db, input, now).value.db)
  {
    var s := Create(db, input, now).value;
    AppendFresh(db.operations, OperationId, s.value);
    if input.firstEntry.Some? {
      var e :| s.db.entries == db.entries + [e] && e.id !in EntryIds(db);
      AppendFresh(db.entries, EntryId, e);
    }
  }

  lemma AddEntryKeepsKeysUnique(db: Db, opId: string, entry: NewEntry)
    requires WellFormed(db) && AddEntry(db, opId, entry).Ok?
    ensures WellFormed(AddEntry(db, opId, entry).value.db)
  {
    AppendFresh(db.entries, EntryId, AddEntry(db, opId, entry).value.value);
  }

  lemma AddPriceKeepsKeysUnique(db: Db, opId: string, price: NewPrice)
    requires WellFormed(db) && AddPrice(db, opId, price).Ok?
    ensures WellFormed(AddPrice(db, opId, price).value.db)
  {
    AppendFresh(db.prices, PriceId, AddPrice(db, opId, price).value.value);
  }

  lemma RemovalsKeepKeysUnique(db: Db, opId: string, entryId: string)
    requires WellFormed(db)
    ensures RemoveEntry(db, opId, entryId).Ok? ==> WellFormed(RemoveEntry(db, opId, entryId).value.db)
    ensures Remove(db, opId).Ok? ==> WellFormed(Remove(db, opId).value.db)
  {
    UniqueIdsFilter(db.entries, EntryId, OtherEntry(entryId));
    UniqueIdsFilter(db.operations, OperationId, OtherOperation(opId));
  }
}

=== FILE: operations_store.dfy ===
/** The web client's operations store: the operation list, the operation
    open in the detail view and the last error message, together with the
    getters the list pages read. Each action is modelled after its API call,
    whose answer is a parameter. */
module OperationsStore {
  import opened Common
  import opened Grouping

  /** The calculated metrics the API attaches to an open operation; only
      `unrealizedPnL`, which may be null, is read here. */
  datatype OperationMetrics = OperationMetrics(unrealizedPnL: Option<real>)

  /** An operation as the client holds it. `balance` and `metrics` are
      optional keys: `None` is a key the object does not carry. */
  datatype OperationView = OperationView(
    id: string,
    accountId: string,
    userId: string,
    symbolId: string,
    product: string,
    kind: string,
    status: string,
    balance: Option<real>,
    metrics: Option<OperationMetrics>)

  datatype State = State(operations: seq<OperationView>, current: Option<OperationView>, error: Option<string>)

  /** The new state and what the action returns or rethrows. */
  datatype Outcome<T> = Outcome(state: State, result: Result<T>)

  const CreateFailed := "Error al crear operación"
  const DeleteFailed := "Error al eliminar operación"
  const StatusFailed := "Error al actualizar estado de operación"

  // ---------------------------------------------------------------------
  // createOperation, deleteOperation, updateOperationStatus

  /** `createOperation`: the created operation goes to the front. */
  function CreateOperation(st: State, response: Result<OperationView>): (r: Outcome<OperationView>)
    ensures r.result == response
    ensures response.Ok? ==>
      && |r.state.operations| == |st.operations| + 1
      && r.state.operations[0] == response.value
      && r.state.operations[1..] == st.operations
      && r.state.current == st.current && r.state.error == None
    ensures response.Err? ==> r.state == st.(error := Some(CreateFailed))
  {
    match response
    case Ok(data) => Outcome(st.(operations := [data] + st.operations, error := None), response)
    case Err(e) => Outcome(st.(error := Some(CreateFailed)), response)
  }

  function OtherOperation(operationId: string): OperationView -> bool {
    (op: OperationView) => op.id != operationId
  }

  /** `deleteOperation`: every operation with that id leaves the list, and
      the open operation is closed when it is that one. */
  function DeleteOperation(st: State, operationId: string, response: Result<()>): (r: Outcome<()>)
    ensures r.result == response
    ensures response.Err? ==> r.state == st.(error := Some(DeleteFailed))
    ensures response.Ok? ==>
      && (forall op :: op in r.state.operations <==> op in st.operations && op.id != operationId)
      && (exists idx :: KeepsExactly(r.state.operations, st.operations, OtherOperation(operationId), idx))
      && (r.state.current.None? <==> st.current.None? || st.current.value.id == operationId)
      && (r.state.current.Some? ==> r.state.current == st.current)
      && r.state.error == None
  {
    match response
    case Err(e) => Outcome(st.(error := Some(DeleteFailed)), response)
    case Ok(_) =>
      FilterKeepsExactly(st.operations, OtherOperation(operationId));
      var current := if st.current.Some? && st.current.value.id == operationId then None else st.current;
      Outcome(State(Filter(st.operations, OtherOperation(operationId)), current, None), response)
  }

  /** `{ ...previous, ...data }`: every key `data` carries wins, and an optional
      key `data` does not carry keeps its previous value. */
  function Merge(prev: OperationView, data: OperationView): (r: OperationView)
    ensures r.(balance := data.balance, metrics := data.metrics) == data
    ensures r.balance == if data.balance.Some? then data.balance else prev.balance
    ensures r.metrics == if data.metrics.Some? then data.metrics else prev.metrics
  {
    data.(balance := if data.balance.Some? then data.balance else prev.balance,
          metrics := if data.metrics.Some? then data.metrics else prev.metrics)
  }

  /** `updateOperationStatus`: the answer is merged into the first operation
      with that id and replaces the open operation when it is that one. */
  function UpdateOperationStatus(st: State, operationId: string, response: Result<OperationView>): (r: Outcome<OperationView>)
    ensures r.result == response
    ensures response.Err? ==> r.state == st.(error := Some(StatusFailed))
    ensures response.Ok? ==>
      && |r.state.operations| == |st.operations|
      && (forall i :: 0 <= i < |st.operations| ==>
            r.state.operations[i] ==
              if st.operations[i].id == operationId && (forall j :: 0 <= j < i ==> st.operations[j].id != operationId)
              then Merge(st.operations[i], response.value) else st.operations[i])
      && r.state.current == (if st.current.Some? && st.current.value.id == operationId then Some(response.value) else st.current)
      && r.state.error == None
  {
    match response
    case Err(e) => Outcome(st.(error := Some(StatusFailed)), response)
    case Ok(data) =>
      var operations := match FindIndex(st.operations, (op: OperationView) => op.id == operationId)
        case None => st.operations
        case Some(i) => st.operations[i := Merge(st.operations[i], data)];
      var current := if st.current.Some? && st.current.value.id == operationId then Some(data) else st.current;
      Outcome(State(operations, current, None), response)
  }

  /** Merging the same answer twice is merging it once. */
  lemma MergeIdempotent(prev: OperationView, data: OperationView)
    ensures Merge(Merge(prev, data), data) == Merge(prev, data)
  {
  }

  /** An answer that carries every optional key replaces the element
      outright. */
  lemma MergeCompleteAnswer(prev: OperationView, data: OperationView)
    requires data.balance.Some? && data.metrics.Some?
    ensures Merge(prev, data) == data
  {
  }

  /** A status change answered with an operation that carries no metrics
      takes the new status but keeps the metrics the list element had. */
  lemma StatusChangeKeepsMetrics(st: State, operationId: string, data: OperationView, i: nat)
    requires data.metrics.None?
    requires i < |st.operations| && st.operations[i].id == operationId
    requires forall j :: 0 <= j < i ==> st.operations[j].id != operationId
    ensures UpdateOperationStatus(st, operationId, Ok(data)).state.operations[i].metrics == st.operations[i].metrics
    ensures UpdateOperationStatus(st, operationId, Ok(data)).state.operations[i].status == data.status
  {
  }

  /** Deleting an operation just created, under an id the list did not
      hold, gives back the list as it was. */
  lemma {:induction false} CreateThenDelete(st: State, x: OperationView)
    requires forall i :: 0 <= i < |st.operations| ==> st.operations[i].id != x.id
    ensures DeleteOperation(CreateOperation(st, Ok(x)).state, x.id, Ok(())).state.operations == st.operations
  {
    var p := OtherOperation(x.id);
    FilterAll(st.operations, p);
    FilterAppend([x], st.operations, p);
    assert Filter([x], p) == [] by {
      assert [x][..0] == [];
    }
  }

  // ---------------------------------------------------------------------
  // Getters

  predicate IsOpen(op: OperationView) { op.status == "open" }
  predicate IsClosed(op: OperationView) { op.status == "closed" }

  /** `openOperations`. */
  function OpenOperations(st: State): (r: seq<OperationView>)
    ensures forall op :: op in r <==> op in st.operations && op.status == "open"
    ensures exists idx :: PicksInOrder(r, st.operations, idx)
    ensures exists idx :: KeepsExactly(r, st.operations, IsOpen, idx)
  {
    FilterKeepsOrder(st.operations, IsOpen);
    FilterKeepsExactly(st.operations, IsOpen);
    Filter(st.operations, IsOpen)
  }

  /** `closedOperations`. */
  function ClosedOperations(st: State): (r: seq<OperationView>)
    ensures forall op :: op in r <==> op in st.operations && op.status == "closed"
    ensures exists idx :: PicksInOrder(r, st.operations, idx)
    ensures exists idx :: KeepsExactly(r, st.operations, IsClosed, idx)
  {
    FilterKeepsOrder(st.operations, IsClosed);
    FilterKeepsExactly(st.operations, IsClosed);
    Filter(st.operations, IsClosed)
  }

  /** `op.balance ?? 0`. */
  function BalanceOrZero(op: OperationView): real { op.balance.GetOr(0.0) }

  /** `op.metrics?.unrealizedPnL ?? 0`. */
  function PnlOrZero(op: OperationView): real {
    if op.metrics.Some? then op.metrics.value.unrealizedPnL.GetOr(0.0) else 0.0
  }

  /** What one operation adds to `totalBalance`. */
  function Contribution(op: OperationView): real {
    if IsClosed(op) then BalanceOrZero(op)
    else if IsOpen(op) then PnlOrZero(op)
    else 0.0
  }

  /** `totalBalance`: the reduce over the whole list. */
  function TotalBalance(st: State): real {
    SumOf(st.operations, Contribution)
  }

  /** The total is the realized balance of the closed operations plus the
      unrealized result of the open ones; any other status adds nothing. */
  lemma TotalBalanceSplits(st: State)
    ensures TotalBalance(st) ==
      SumOf(ClosedOperations(st), BalanceOrZero) + SumOf(OpenOperations(st), PnlOrZero)
  {
    SplitByStatus(st.operations);
  }

  lemma {:induction false} SplitByStatus(ops: seq<OperationView>)
    ensures SumOf(ops, Contribution) ==
      SumOf(Filter(ops, IsClosed), BalanceOrZero) + SumOf(Filter(ops, IsOpen), PnlOrZero)
  {
    if |ops| > 0 {
      var n := |ops| - 1;
      var x := ops[n];
      SplitByStatus(ops[..n]);
      SumOfAppend(Filter(ops[..n], IsClosed), if IsClosed(x) then [x] else [], BalanceOrZero);
      SumOfAppend(Filter(ops[..n], IsOpen), if IsOpen(x) then [x] else [], PnlOrZero);
      SumOfSingleton(x, BalanceOrZero);
      SumOfSingleton(x, PnlOrZero);
    }
  }

  /** An operation whose status is neither open nor closed leaves the
      total where it was. */
  lemma OtherStatusAddsNothing(st: State, op: OperationView)
    requires op.status != "open" && op.status != "closed"
    ensures TotalBalance(st.(operations := st.operations + [op])) == TotalBalance(st)
  {
    var ops := st.operations + [op];
    assert ops[..|ops| - 1] == st.operations;
  }

  /** A closed operation without a balance counts as 0, and an open one
      whose unrealized result is null counts as 0. */
  lemma MissingValuesCountZero(op: OperationView)
    requires (IsClosed(op) && op.balance.None?)
      || (IsOpen(op) && (op.metrics.None? || op.metrics.value.unrealizedPnL.None?))
    ensures Contribution(op) == 0.0
  {
  }

  function OperationSymbolId(op: OperationView): string { op.symbolId }

  /** `operationsBySymbol`: one group per symbol, in first-appearance order,
      each holding that symbol's operations in list order. */
  function OperationsBySymbol(st: State): (gs: seq<Group<string, OperationView>>)
    ensures DistinctKeys(gs)
    ensures forall i :: 0 <= i < |gs| ==> gs[i].members == Members(st.operations, OperationSymbolId, gs[i].key)
    ensures forall op :: op in st.operations ==> op.symbolId in Keys(gs)
  {
    GroupBy(st.operations, OperationSymbolId)
  }

  /** Each operation sits in exactly one group, the one of its symbol. */
  lemma OperationInItsSymbolGroup(st: State, x: OperationView)
    requires x in st.operations
    ensures exists i :: 0 <= i < |OperationsBySymbol(st)| && x in OperationsBySymbol(st)[i].members
    ensures forall i :: 0 <= i < |OperationsBySymbol(st)| && x in OperationsBySymbol(st)[i].members ==>
      OperationsBySymbol(st)[i].key == x.symbolId
  {
    var gs := OperationsBySymbol(st);
    assert gs == GroupBy(st.operations, OperationSymbolId);
    GroupOf(st.operations, OperationSymbolId, x);
  }

  /** Grouping by symbol loses no money: the groups' totals add up to
      `totalBalance`. */
  lemma GroupsAddUpToTotal(st: State)
    ensures GroupsTotal(OperationsBySymbol(st), Contribution) == TotalBalance(st)
  {
    GroupByTotal(st.operations, OperationSymbolId, Contribution);
  }
}

=== FILE: sorting.dfy ===
/** Stable sorting by a JavaScript-style comparator (negative: the first
    argument goes first). `Array.prototype.sort` and Prisma's `orderBy` are
    both modelled by this one insertion sort; with a comparator that is a
    difference of keys it yields the order the key prescribes. */
module Sorting {

  /** Ascending by `key`. */
  ghost predicate SortedBy<T>(s: seq<T>, key: T -> real) {
    forall i, j :: 0 <= i < j < |s| ==> key(s[i]) <= key(s[j])
  }

  /** `cmp` orders the elements of `s` exactly as `key` does. */
  ghost predicate AgreesWith<T>(s: seq<T>, cmp: (T, T) -> real, key: T -> real) {
    forall a, b :: a in s && b in s ==> cmp(a, b) == key(a) - key(b)
  }

  /** Inserts `x` in front of the first element it does not compare after:
      on a tie `x` stays first, as a stable sort keeps earlier elements first. */
  function Insert<T>(x: T, s: seq<T>, cmp: (T, T) -> real): (r: seq<T>)
    ensures |r| == |s| + 1
    ensures multiset(r) == multiset(s) + multiset{x}
  {
    if |s| == 0 || cmp(x, s[0]) <= 0.0 then [x] + s
    else
      var rest := Insert(x, s[1..], cmp);
      assert s == [s[0]] + s[1..];
      [s[0]] + rest
  }

  /** `[...s].sort(cmp)`. */
  function Sort<T>(s: seq<T>, cmp: (T, T) -> real): (r: seq<T>)
    ensures |r| == |s|
    ensures multiset(r) == multiset(s)
  {
    if |s| == 0 then []
    else
      assert s == [s[0]] + s[1..];
      Insert(s[0], Sort(s[1..], cmp), cmp)
  }

  lemma {:induction false} InsertSorted<T>(x: T, s: seq<T>, cmp: (T, T) -> real, key: T -> real)
    requires SortedBy(s, key)
    requires AgreesWith(s + [x], cmp, key)
    ensures SortedBy(Insert(x, s, cmp), key)
    decreases |s|
  {
    if |s| == 0 || cmp(x, s[0]) <= 0.0 {
      if |s| > 0 {
        assert x in s + [x] && s[0] in s + [x];
      }
    } else {
      assert x in s + [x] && s[0] in s + [x];
      assert key(s[0]) < key(x);
      assert AgreesWith(s[1..] + [x], cmp, key) by {
        forall a | a in s[1..] + [x] ensures a in s + [x] {
          if a != x {
            assert a in s[1..];
          }
        }
      }
      InsertSorted(x, s[1..], cmp, key);
      var rest := Insert(x, s[1..], cmp);
      forall k | 0 <= k < |rest| ensures key(s[0]) <= key(rest[k]) {
        assert rest[k] in multiset(s[1..]) + multiset{x};
        if rest[k] != x {
          assert rest[k] in s[1..];
        }
      }
    }
  }

  /** With a comparator that is a difference of keys, the sort orders by the
      key and keeps the same elements. */
  lemma {:induction false} SortSorted<T>(s: seq<T>, cmp: (T, T) -> real, key: T -> real)
    requires AgreesWith(s, cmp, key)
    ensures SortedBy(Sort(s, cmp), key)
  {
    if |s| > 0 {
      assert AgreesWith(s[1..], cmp, key) by {
        forall a | a in s[1..] ensures a in s {
        }
      }
      SortSorted(s[1..], cmp, key);
      var sorted := Sort(s[1..], cmp);
      assert AgreesWith(sorted + [s[0]], cmp, key) by {
        forall a | a in sorted + [s[0]] ensures a in s {
          if a != s[0] {
            assert a in multiset(sorted);
            assert a in s[1..];
          }
        }
      }
      InsertSorted(s[0], sorted, cmp, key);
    }
  }

  /** The comparator `(a, b) => key(b) - key(a)`. */
  function Descending<T>(key: T -> real): (T, T) -> real
  {
    (a: T, b: T) => key(b) - key(a)
  }

  /** The comparator `(a, b) => key(a) - key(b)`. */
  function Ascending<T>(key: T -> real): (T, T) -> real
  {
    (a: T, b: T) => key(a) - key(b)
  }

  /** Stable sort, largest key first (`orderBy: { k: 'desc' }`). */
  function SortDesc<T>(s: seq<T>, key: T -> real): (r: seq<T>)
    ensures multiset(r) == multiset(s)
    ensures forall i, j :: 0 <= i < j < |r| ==> key(r[i]) >= key(r[j])
  {
    var r := Sort(s, Descending(key));
    SortSorted(s, Descending(key), (x: T) => -key(x));
    r
  }

  /** Stable sort, smallest key first (`orderBy: { k: 'asc' }`). */
  function SortAsc<T>(s: seq<T>, key: T -> real): (r: seq<T>)
    ensures multiset(r) == multiset(s)
    ensures forall i, j :: 0 <= i < j < |r| ==> key(r[i]) <= key(r[j])
  {
    var r := Sort(s, Ascending(key));
    SortSorted(s, Ascending(key), key);
    r
  }

  /** No two elements of `s` share a key. */
  ghost predicate DistinctBy<T, K>(s: seq<T>, key: T -> K) {
    forall i, j :: 0 <= i < j < |s| ==> key(s[i]) != key(s[j])
  }

  /** Reordering keeps keys distinct: a sorted list of one-row-per-key rows
      still has one row per key. */
  lemma DistinctByPermutation<T, K>(a: seq<T>, b: seq<T>, key: T -> K)
    requires multiset(a) == multiset(b)
    requires DistinctBy(a, key)
    ensures DistinctBy(b, key)
  {
    forall i, j | 0 <= i < j < |b| ensures key(b[i]) != key(b[j]) {
      if key(b[i]) == key(b[j]) {
        assert b[i] in multiset(a) && b[j] in multiset(a);
        var p :| 0 <= p < |a| && a[p] == b[i];
        var q :| 0 <= q < |a| && a[q] == b[j];
        assert p == q;
        CountAtLeastTwo(b, i, j);
        CountOne(a, key, p);
        assert false;
      }
    }
  }

  lemma CountAtLeastTwo<T>(s: seq<T>, i: nat, j: nat)
    requires i < j < |s| && s[i] == s[j]
    ensures multiset(s)[s[i]] >= 2
  {
    assert s == s[..i] + [s[i]] + s[i + 1..j] + [s[j]] + s[j + 1..];
  }

  lemma CountOne<T, K>(s: seq<T>, key: T -> K, p: nat)
    requires p < |s| && DistinctBy(s, key)
    ensures multiset(s)[s[p]] == 1
  {
    assert s == s[..p] + [s[p]] + s[p + 1..];
    assert s[p] !in s[..p];
    assert s[p] !in s[p + 1..] by {
      forall k | p < k < |s| ensures s[k] != s[p] {
        assert key(s[p]) != key(s[k]);
      }
    }
  }
}

=== FILE: symbols_service.dfy ===
/** The symbols service: the instruments a user trades within an account,
    their manual price history, their display order, and the synchronisation
    of their latest market price. Every write is a function from the store to
    the new store and the value the call returns, or to the exception it
    throws; a failing call changes nothing. */
module SymbolsService {
  import opened Common
  import opened Entities
  import opened Sorting
  import MarketData

  /** A validated `CreateSymbolDto`. */
  datatype NewSymbol = NewSymbol(
    code: string,
    name: string,
    product: string,
    marketCode: Option<string>,
    marketProvider: Option<string>,
    marketExchange: Option<string>,
    logo: Option<string>)

  /** An `UpdateSymbolDto`: every field either absent (`None`, left as it
      is) or given. */
  datatype SymbolPatch = SymbolPatch(
    code: Option<string>,
    name: Option<string>,
    product: Option<string>,
    marketCode: Option<string>,
    marketProvider: Option<string>,
    marketExchange: Option<string>,
    logo: Option<string>)

  /** What validation lets through: a given code or name is not empty. */
  predicate ValidPatch(p: SymbolPatch) {
    && (p.code.Some? ==> p.code.value != "")
    && (p.name.Some? ==> p.name.value != "")
  }

  /** An `UpdatePriceHistoryDto`; `date` is `None` when it is absent or the
      empty string, which are both falsy. */
  datatype PricePatch = PricePatch(price: Option<real>, date: Option<int>)

  function SymbolIds(db: Db): seq<string> { Map(db.symbols, SymbolId) }
  function PriceIds(db: Db): seq<string> { Map(db.prices, PriceId) }

  function InScope(userId: string, accountId: string): Symbol -> bool {
    (s: Symbol) => s.userId == userId && s.accountId == accountId
  }

  function Identifies(id: string, userId: string, accountId: string): Symbol -> bool {
    (s: Symbol) => s.id == id && s.userId == userId && s.accountId == accountId
  }

  /** Some symbol of the user and account has that id. */
  predicate HasSymbol(db: Db, id: string, userId: string, accountId: string) {
    exists i :: 0 <= i < |db.symbols| && Identifies(id, userId, accountId)(db.symbols[i])
  }

  function NotFoundSymbol(id: string): Error {
    NotFound("Symbol with id " + id + " not found")
  }

  function CodeTaken(code: string): Error {
    Conflict("Symbol with code " + code + " already exists")
  }

  // ---------------------------------------------------------------------
  // findOne

  /** The symbol with that id, within the user and account. */
  function FindOne(db: Db, id: string, userId: string, accountId: string): (r: Result<Symbol>)
    ensures r.Err? <==> !HasSymbol(db, id, userId, accountId)
    ensures r.Err? ==> r.error == NotFoundSymbol(id)
    ensures r.Ok? ==> r.value in db.symbols && Identifies(id, userId, accountId)(r.value)
  {
    match FindFirst(db.symbols, Identifies(id, userId, accountId))
    case None => Err(NotFoundSymbol(id))
    case Some(s) => Ok(s)
  }

  // ---------------------------------------------------------------------
  // create

  /** Some symbol of the account, whoever owns it, has that code: the
      `(accountId, code)` unique key. */
  predicate HasCode(db: Db, accountId: string, code: string) {
    exists i :: 0 <= i < |db.symbols| && db.symbols[i].accountId == accountId && db.symbols[i].code == code
  }

  /** The largest `sortOrder` among the user's symbols in the account, if it
      has any. */
  function MaxSortOrder(ss: seq<Symbol>, userId: string, accountId: string): (m: Option<int>)
    ensures m.None? <==> forall i :: 0 <= i < |ss| ==> !InScope(userId, accountId)(ss[i])
    ensures m.Some? ==> forall i :: 0 <= i < |ss| && InScope(userId, accountId)(ss[i]) ==> ss[i].sortOrder <= m.value
    ensures m.Some? ==> exists i :: 0 <= i < |ss| && InScope(userId, accountId)(ss[i]) && ss[i].sortOrder == m.value
  {
    if |ss| == 0 then None
    else
      var n := |ss| - 1;
      var init := MaxSortOrder(ss[..n], userId, accountId);
      assert forall i :: 0 <= i < n ==> ss[..n][i] == ss[i];
      if !InScope(userId, accountId)(ss[n]) then init
      else if init.Some? && init.value >= ss[n].sortOrder then init
      else Some(ss[n].sortOrder)
  }

  /** The stored row for `input`. */
  function SymbolRow(id: string, input: NewSymbol, userId: string, accountId: string, sortOrder: int): Symbol {
    Symbol(id, userId, accountId, input.code, input.name, input.product, input.marketCode,
           input.marketProvider, input.marketExchange, input.logo, sortOrder, None, None)
  }

  /** Rejects a code already used in the account; otherwise appends the
      symbol after every other symbol of the user in that account. */
  function Create(db: Db, input: NewSymbol, userId: string, accountId: string): (r: Result<Stored<Symbol>>)
    ensures r.Err? <==> HasCode(db, accountId, input.code)
    ensures r.Err? ==> r.error == CodeTaken(input.code)
    ensures r.Ok? ==>
      var s := r.value.value;
      && s.id !in SymbolIds(db)
      && s.userId == userId && s.accountId == accountId
      && s.code == input.code && s.name == input.name && s.product == input.product
      && s.marketCode == input.marketCode && s.marketProvider == input.marketProvider
      && s.marketExchange == input.marketExchange && s.logo == input.logo
      && s.syncStatus.None? && s.syncError.None?
      && r.value.db == db.(symbols := db.symbols + [s])
    ensures r.Ok? ==>
      var s := r.value.value;
      && (forall i :: 0 <= i < |db.symbols| && InScope(userId, accountId)(db.symbols[i]) ==>
            db.symbols[i].sortOrder < s.sortOrder)
      && (s.sortOrder == 0 || exists i :: 0 <= i < |db.symbols| && InScope(userId, accountId)(db.symbols[i])
                                            && db.symbols[i].sortOrder == s.sortOrder - 1)
      && ((forall i :: 0 <= i < |db.symbols| ==> !InScope(userId, accountId)(db.symbols[i])) ==> s.sortOrder == 0)
  {
    if HasCode(db, accountId, input.code) then Err(CodeTaken(input.code))
    else
      var next := MaxSortOrder(db.symbols, userId, accountId).GetOr(-1) + 1;
      var s := SymbolRow(FreshId(SymbolIds(db)), input, userId, accountId, next);
      Ok(Stored(db.(symbols := db.symbols + [s]), s))
  }

  /** No two symbols of an account share a code. */
  ghost predicate CodesUnique(db: Db) {
    forall i, j :: 0 <= i < j < |db.symbols| && db.symbols[i].accountId == db.symbols[j].accountId ==>
      db.symbols[i].code != db.symbols[j].code
  }

  /** All symbols of an account belong to the same user. */
  ghost predicate AccountsHaveOneOwner(db: Db) {
    forall i, j :: 0 <= i < |db.symbols| && 0 <= j < |db.symbols| && db.symbols[i].accountId == db.symbols[j].accountId ==>
      db.symbols[i].userId == db.symbols[j].userId
  }

  lemma CreateKeepsCodesUnique(db: Db, input: NewSymbol, userId: string, accountId: string)
    requires CodesUnique(db) && Create(db, input, userId, accountId).Ok?
    ensures CodesUnique(Create(db, input, userId, accountId).value.db)
  {
  }

  /** A symbol just created is found under its new id, and in no other
      account or user. */
  lemma CreateThenFindOne(db: Db, input: NewSymbol, userId: string, accountId: string)
    requires Create(db, input, userId, accountId).Ok?
    ensures var s := Create(db, input, userId, accountId).value;
      FindOne(s.db, s.value.id, userId, accountId) == Ok(s.value)
  {
    var s := Create(db, input, userId, accountId).value;
    forall i | 0 <= i < |db.symbols| ensures db.symbols[i].id != s.value.id {
      assert SymbolIds(db)[i] == db.symbols[i].id;
    }
    FindFirstAppended(db.symbols, s.value, Identifies(s.value.id, userId, accountId));
  }

  // ---------------------------------------------------------------------
  // update

  /** Another symbol of the user and account already has that code. */
  predicate CodeInUse(db: Db, code: string, id: string, userId: string, accountId: string) {
    exists i :: 0 <= i < |db.symbols| && db.symbols[i].code == code && db.symbols[i].id != id
                && InScope(userId, accountId)(db.symbols[i])
  }

  /** The row with every given field of the patch written over it. */
  function Patched(s: Symbol, p: SymbolPatch): (t: Symbol)
    ensures t.id == s.id && t.userId == s.userId && t.accountId == s.accountId && t.sortOrder == s.sortOrder
    ensures t.syncStatus == s.syncStatus && t.syncError == s.syncError
    ensures p.code.Some? ==> t.code == p.code.value
    ensures p.code.None? ==> t.code == s.code
    ensures p == SymbolPatch(None, None, None, None, None, None, None) ==> t == s
  {
    s.(code := p.code.GetOr(s.code),
       name := p.name.GetOr(s.name),
       product := p.product.GetOr(s.product),
       marketCode := if p.marketCode.Some? then p.marketCode else s.marketCode,
       marketProvider := if p.marketProvider.Some? then p.marketProvider else s.marketProvider,
       marketExchange := if p.marketExchange.Some? then p.marketExchange else s.marketExchange,
       logo := if p.logo.Some? then p.logo else s.logo)
  }

  function PatchRow(id: string, p: SymbolPatch): Symbol -> Symbol {
    (s: Symbol) => if s.id == id then Patched(s, p) else s
  }

  /** Checks the symbol is the caller's, refuses a truthy code another of
      the caller's symbols in the account uses, then writes the patch over
      the row with that id. */
  function Update(db: Db, id: string, patch: SymbolPatch, userId: string, accountId: string): (r: Result<Stored<Symbol>>)
    ensures r.Err? <==>
      !HasSymbol(db, id, userId, accountId) || (Truthy(patch.code) && CodeInUse(db, patch.code.value, id, userId, accountId))
    ensures !HasSymbol(db, id, userId, accountId) ==> r == Err(NotFoundSymbol(id))
    ensures HasSymbol(db, id, userId, accountId) && Truthy(patch.code) && CodeInUse(db, patch.code.value, id, userId, accountId) ==>
      r == Err(CodeTaken(patch.code.value))
    ensures r.Ok? ==> exists i :: 0 <= i < |db.symbols| && Identifies(id, userId, accountId)(db.symbols[i])
                                  && r.value.value == Patched(db.symbols[i], patch)
    ensures r.Ok? ==>
      && |r.value.db.symbols| == |db.symbols|
      && (forall i :: 0 <= i < |db.symbols| && db.symbols[i].id != id ==> r.value.db.symbols[i] == db.symbols[i])
      && (forall i :: 0 <= i < |db.symbols| && db.symbols[i].id == id ==> r.value.db.symbols[i] == Patched(db.symbols[i], patch))
      && r.value.db == db.(symbols := r.value.db.symbols)
  {
    match FindOne(db, id, userId, accountId)
    case Err(e) => Err(e)
    case Ok(s) =>
      if Truthy(patch.code) && CodeInUse(db, patch.code.value, id, userId, accountId) then Err(CodeTaken(patch.code.value))
      else Ok(Stored(db.(symbols := Map(db.symbols, PatchRow(id, patch))), Patched(s, patch)))
  }

  /** An empty patch changes nothing and returns the row as stored. */
  lemma EmptyPatchChangesNothing(db: Db, id: string, userId: string, accountId: string)
    requires HasSymbol(db, id, userId, accountId)
    ensures var r := Update(db, id, SymbolPatch(None, None, None, None, None, None, None), userId, accountId);
      r.Ok? && r.value.db == db && r.value.value in db.symbols
  {
    var r := Update(db, id, SymbolPatch(None, None, None, None, None, None, None), userId, accountId);
    assert r.value.db.symbols == db.symbols;
  }

  /** When every account has one owner, the user-and-account check of
      `update` is enough to keep codes unique within the account. */
  lemma UpdateKeepsCodesUnique(db: Db, id: string, patch: SymbolPatch, userId: string, accountId: string)
    requires CodesUnique(db) && AccountsHaveOneOwner(db) && UniqueIds(db.symbols, SymbolId)
    requires ValidPatch(patch)
    requires Update(db, id, patch, userId, accountId).Ok?
    ensures CodesUnique(Update(db, id, patch, userId, accountId).value.db)
  {
    var t := Update(db, id, patch, userId, accountId).value.db.symbols;
    var k :| 0 <= k < |db.symbols| && Identifies(id, userId, accountId)(db.symbols[k]);
    forall i, j | 0 <= i < j < |t| && t[i].accountId == t[j].accountId ensures t[i].code != t[j].code {
      if db.symbols[i].id == id {
        PatchedCodeIsFree(db, id, patch, userId, accountId, k, i, j);
      } else if db.symbols[j].id == id {
        PatchedCodeIsFree(db, id, patch, userId, accountId, k, j, i);
      }
    }
  }

  /** The patched row `m` (the only one with the id) and any other row `o`
      of the account end with different codes. */
  lemma PatchedCodeIsFree(db: Db, id: string, patch: SymbolPatch, userId: string, accountId: string, k: nat, m: nat, o: nat)
    requires CodesUnique(db) && AccountsHaveOneOwner(db) && UniqueIds(db.symbols, SymbolId)
    requires ValidPatch(patch)
    requires Update(db, id, patch, userId, accountId).Ok?
    requires k < |db.symbols| && Identifies(id, userId, accountId)(db.symbols[k])
    requires m < |db.symbols| && o < |db.symbols| && m != o && db.symbols[m].id == id
    requires db.symbols[m].accountId == db.symbols[o].accountId
    ensures Patched(db.symbols[m], patch).code != db.symbols[o].code
  {
    assert SymbolId(db.symbols[m]) == SymbolId(db.symbols[k]);
    assert m == k;
    assert SymbolId(db.symbols[m]) != SymbolId(db.symbols[o]);
    assert db.symbols[o].userId == userId;
    if patch.code.Some? {
      assert !CodeInUse(db, patch.code.value, id, userId, accountId);
    } else {
      assert m < o || o < m;
    }
  }

  // ---------------------------------------------------------------------
  // remove

  function OtherSymbol(id: string): Symbol -> bool {
    (s: Symbol) => s.id != id
  }

  /** Deletes the caller's symbol with that id and no other row. */
  function Remove(db: Db, id: string, userId: string, accountId: string): (r: Result<Stored<Symbol>>)
    ensures r.Err? <==> !HasSymbol(db, id, userId, accountId)
    ensures r.Err? ==> r.error == NotFoundSymbol(id)
    ensures r.Ok? ==> r.value.value in db.symbols && Identifies(id, userId, accountId)(r.value.value)
    ensures r.Ok? ==>
      && (forall i :: 0 <= i < |db.symbols| ==> (db.symbols[i] in r.value.db.symbols <==> db.symbols[i].id != id))
      && (forall i :: 0 <= i < |r.value.db.symbols| ==> r.value.db.symbols[i] in db.symbols)
      && r.value.db == db.(symbols := r.value.db.symbols)
  {
    match FindOne(db, id, userId, accountId)
    case Err(e) => Err(e)
    case Ok(s) => Ok(Stored(db.(symbols := Filter(db.symbols, OtherSymbol(id))), s))
  }

  /** Creating a symbol and removing it again gives back the store as it
      was. */
  lemma {:induction false} CreateThenRemove(db: Db, input: NewSymbol, userId: string, accountId: string)
    requires Create(db, input, userId, accountId).Ok?
    ensures var s := Create(db, input, userId, accountId).value;
      Remove(s.db, s.value.id, userId, accountId) == Ok(Stored(db, s.value))
  {
    var s := Create(db, input, userId, accountId).value;
    var x := s.value;
    CreateThenFindOne(db, input, userId, accountId);
    forall i | 0 <= i < |db.symbols| ensures OtherSymbol(x.id)(db.symbols[i]) {
      assert SymbolIds(db)[i] == db.symbols[i].id;
    }
    FilterDropsAppended(db.symbols, x, OtherSymbol(x.id));
  }

  // ---------------------------------------------------------------------
  // reorderSymbols

  function Listed(userId: string, accountId: string, ids: seq<string>): Symbol -> bool {
    (s: Symbol) => s.userId == userId && s.accountId == accountId && s.id in ids
  }

  const OutOfAccount := "Símbolos no encontrados o fuera de la cuenta activa"

  /** `ids.map((id, index) => update sortOrder := index)`, applied in order:
      the row with id `ids[k]` gets `k`, a later update winning. */
  function ApplyOrders(ss: seq<Symbol>, ids: seq<string>): (r: seq<Symbol>)
    ensures |r| == |ss|
    decreases |ids|
  {
    if |ids| == 0 then ss
    else
      var n := |ids| - 1;
      Map(ApplyOrders(ss, ids[..n]), (s: Symbol) => if s.id == ids[n] then s.(sortOrder := n) else s)
  }

  /** A row whose id is not listed is left as it is. */
  lemma {:induction false} ApplyOrdersUntouched(ss: seq<Symbol>, ids: seq<string>, i: nat)
    requires i < |ss| && ss[i].id !in ids
    ensures ApplyOrders(ss, ids)[i] == ss[i]
  {
    if |ids| > 0 {
      var n := |ids| - 1;
      assert ss[i].id !in ids[..n] by {
        assert forall x :: x in ids[..n] ==> x in ids;
      }
      ApplyOrdersUntouched(ss, ids[..n], i);
    }
  }

  /** With no repeated id, a listed row ends with its position in the list
      as `sortOrder`. */
  lemma {:induction false} ApplyOrdersPosition(ss: seq<Symbol>, ids: seq<string>, i: nat, k: nat)
    requires Distinct(ids)
    requires i < |ss| && k < |ids| && ids[k] == ss[i].id
    ensures ApplyOrders(ss, ids)[i] == ss[i].(sortOrder := k)
  {
    var n := |ids| - 1;
    ApplyOrdersLast(ss, ids, i);
    if k < n {
      DistinctPrefix(ids, n);
      assert ids[..n][k] == ss[i].id;
      ApplyOrdersPosition(ss, ids[..n], i, k);
    } else {
      assert ss[i].id !in ids[..n] by {
        forall a | 0 <= a < n ensures ids[..n][a] != ss[i].id {
          assert ids[a] != ids[n];
        }
      }
      ApplyOrdersUntouched(ss, ids[..n], i);
    }
  }

  /** The last listed id is applied after all the others. */
  lemma ApplyOrdersLast(ss: seq<Symbol>, ids: seq<string>, i: nat)
    requires i < |ss| && |ids| > 0
    ensures var n := |ids| - 1;
      var prev := ApplyOrders(ss, ids[..n]);
      ApplyOrders(ss, ids)[i] == if prev[i].id == ids[n] then prev[i].(sortOrder := n) else prev[i]
  {
  }

  /** A prefix of a list without repeats has none either. */
  lemma DistinctPrefix<T>(s: seq<T>, n: nat)
    requires Distinct(s) && n <= |s|
    ensures Distinct(s[..n])
  {
    forall a, b | 0 <= a < b < n ensures s[..n][a] != s[..n][b] {
      assert s[a] != s[b];
    }
  }

  /** With no repeated id, each listed row ends with its position in the
      list as `sortOrder`, and every other row is untouched. */
  lemma ApplyOrdersPositions(ss: seq<Symbol>, ids: seq<string>)
    requires Distinct(ids)
    ensures forall i :: 0 <= i < |ss| && ss[i].id !in ids ==> ApplyOrders(ss, ids)[i] == ss[i]
    ensures forall i, k :: 0 <= i < |ss| && 0 <= k < |ids| && ids[k] == ss[i].id ==>
      ApplyOrders(ss, ids)[i] == ss[i].(sortOrder := k)
  {
    forall i | 0 <= i < |ss| && ss[i].id !in ids ensures ApplyOrders(ss, ids)[i] == ss[i] {
      ApplyOrdersUntouched(ss, ids, i);
    }
    forall i, k | 0 <= i < |ss| && 0 <= k < |ids| && ids[k] == ss[i].id
      ensures ApplyOrders(ss, ids)[i] == ss[i].(sortOrder := k)
    {
      ApplyOrdersPosition(ss, ids, i, k);
    }
  }

  /** Refuses unless exactly as many of the caller's symbols match the list
      as the list is long; then numbers the listed symbols in list order. */
  function ReorderSymbols(db: Db, userId: string, accountId: string, ids: seq<string>): (r: Result<Db>)
    ensures r.Err? <==> |Filter(db.symbols, Listed(userId, accountId, ids))| != |ids|
    ensures r.Err? ==> r.error == NotFound(OutOfAccount)
    ensures r.Ok? ==> |r.value.symbols| == |db.symbols| && r.value == db.(symbols := r.value.symbols)
    ensures r.Ok? && UniqueIds(db.symbols, SymbolId) ==>
      && (forall i :: 0 <= i < |db.symbols| && db.symbols[i].id !in ids ==> r.value.symbols[i] == db.symbols[i])
      && (forall i, k :: 0 <= i < |db.symbols| && 0 <= k < |ids| && ids[k] == db.symbols[i].id ==>
            r.value.symbols[i] == db.symbols[i].(sortOrder := k))
  {
    if |Filter(db.symbols, Listed(userId, accountId, ids))| != |ids| then Err(NotFound(OutOfAccount))
    else
      assert UniqueIds(db.symbols, SymbolId) ==> Distinct(ids) by {
        if UniqueIds(db.symbols, SymbolId) {
          ReorderAccepted(db, userId, accountId, ids);
        }
      }
      assert UniqueIds(db.symbols, SymbolId) ==>
        && (forall i :: 0 <= i < |db.symbols| && db.symbols[i].id !in ids ==> ApplyOrders(db.symbols, ids)[i] == db.symbols[i])
        && (forall i, k :: 0 <= i < |db.symbols| && 0 <= k < |ids| && ids[k] == db.symbols[i].id ==>
              ApplyOrders(db.symbols, ids)[i] == db.symbols[i].(sortOrder := k))
      by {
        if UniqueIds(db.symbols, SymbolId) {
          ApplyOrdersPositions(db.symbols, ids);
        }
      }
      Ok(db.(symbols := ApplyOrders(db.symbols, ids)))
  }

  /** The ids in the list that name one of the caller's symbols. */
  ghost function KnownIds(db: Db, userId: string, accountId: string, ids: seq<string>): set<string> {
    set x | x in ids && HasSymbol(db, x, userId, accountId)
  }

  /** The ids of the matching rows are exactly the known ids of the list. */
  lemma FoundAreKnown(db: Db, userId: string, accountId: string, ids: seq<string>)
    ensures Elements(Map(Filter(db.symbols, Listed(userId, accountId, ids)), SymbolId)) == KnownIds(db, userId, accountId, ids)
  {
    var f := Filter(db.symbols, Listed(userId, accountId, ids));
    var m := Map(f, SymbolId);
    forall x | x in Elements(m) ensures x in KnownIds(db, userId, accountId, ids) {
      FoundIsKnown(db, userId, accountId, ids, x);
    }
    forall x | x in KnownIds(db, userId, accountId, ids) ensures x in Elements(m) {
      KnownIsFound(db, userId, accountId, ids, x);
    }
  }

  lemma FoundIsKnown(db: Db, userId: string, accountId: string, ids: seq<string>, x: string)
    requires x in Map(Filter(db.symbols, Listed(userId, accountId, ids)), SymbolId)
    ensures x in ids && HasSymbol(db, x, userId, accountId)
  {
    var f := Filter(db.symbols, Listed(userId, accountId, ids));
    var i :| 0 <= i < |f| && Map(f, SymbolId)[i] == x;
    var s := f[i];
    assert s in db.symbols && Listed(userId, accountId, ids)(s);
    ListedIsKnown(db, userId, accountId, ids, s);
  }

  lemma ListedIsKnown(db: Db, userId: string, accountId: string, ids: seq<string>, s: Symbol)
    requires s in db.symbols && Listed(userId, accountId, ids)(s)
    ensures s.id in ids && HasSymbol(db, s.id, userId, accountId)
  {
    var j :| 0 <= j < |db.symbols| && db.symbols[j] == s;
    assert Identifies(s.id, userId, accountId)(db.symbols[j]);
  }

  lemma KnownIsFound(db: Db, userId: string, accountId: string, ids: seq<string>, x: string)
    requires x in ids && HasSymbol(db, x, userId, accountId)
    ensures x in Map(Filter(db.symbols, Listed(userId, accountId, ids)), SymbolId)
  {
    var j :| 0 <= j < |db.symbols| && Identifies(x, userId, accountId)(db.symbols[j]);
    var s := db.symbols[j];
    assert Listed(userId, accountId, ids)(s);
    var f := Filter(db.symbols, Listed(userId, accountId, ids));
    assert s in f;
    var i :| 0 <= i < |f| && f[i] == s;
    assert Map(f, SymbolId)[i] == x;
  }

  /** With unique symbol ids the count check accepts exactly the lists that
      repeat no id and name only the caller's symbols. */
  lemma ReorderAccepted(db: Db, userId: string, accountId: string, ids: seq<string>)
    requires UniqueIds(db.symbols, SymbolId)
    ensures |Filter(db.symbols, Listed(userId, accountId, ids))| == |ids| <==>
      Distinct(ids) && forall k :: 0 <= k < |ids| ==> HasSymbol(db, ids[k], userId, accountId)
  {
    var f := Filter(db.symbols, Listed(userId, accountId, ids));
    var m := Map(f, SymbolId);
    UniqueIdsFilter(db.symbols, SymbolId, Listed(userId, accountId, ids));
    assert Distinct(m) by {
      forall i, j | 0 <= i < j < |m| ensures m[i] != m[j] {
        assert SymbolId(f[i]) != SymbolId(f[j]);
      }
    }
    ElementsCard(m);
    ElementsCard(ids);
    FoundAreKnown(db, userId, accountId, ids);
    var known := KnownIds(db, userId, accountId, ids);
    SubsetCard(known, Elements(ids));
    assert |f| == |known|;
    if Distinct(ids) && forall k :: 0 <= k < |ids| ==> HasSymbol(db, ids[k], userId, accountId) {
      assert known == Elements(ids);
    }
    if |f| == |ids| {
      forall k | 0 <= k < |ids| ensures HasSymbol(db, ids[k], userId, accountId) {
        assert ids[k] in Elements(ids);
      }
    }
  }

  // ---------------------------------------------------------------------
  // price history

  function NotFoundPrice(id: string): Error {
    NotFound("Price with id " + id + " not found")
  }

  /** Records a price for one of the caller's symbols. */
  function AddPrice(db: Db, symbolId: string, input: NewPrice, userId: string, accountId: string): (r: Result<Stored<PricePoint>>)
    ensures r.Err? <==> !HasSymbol(db, symbolId, userId, accountId)
    ensures r.Err? ==> r.error == NotFoundSymbol(symbolId)
    ensures r.Ok? ==>
      && r.value.value.id !in PriceIds(db)
      && r.value.value.owner == BySymbol(symbolId, userId, accountId)
      && r.value.value.price == input.price && r.value.value.date == input.date
      && r.value.db == db.(prices := db.prices + [r.value.value])
  {
    match FindOne(db, symbolId, userId, accountId)
    case Err(e) => Err(e)
    case Ok(_) =>
      var p := PricePoint(FreshId(PriceIds(db)), BySymbol(symbolId, userId, accountId), input.price, input.date);
      Ok(Stored(db.(prices := db.prices + [p]), p))
  }

  function PriceDate(p: PricePoint): real { p.date as real }

  function RecentOf(symbolId: string, userId: string, accountId: string, since: int): PricePoint -> bool {
    (p: PricePoint) => p.owner == BySymbol(symbolId, userId, accountId) && p.date >= since
  }

  /** The symbol's prices of the last year, newest first. */
  function GetPrices(db: Db, symbolId: string, userId: string, accountId: string, clock: Clock): (r: Result<seq<PricePoint>>)
    ensures r.Err? <==> !HasSymbol(db, symbolId, userId, accountId)
    ensures r.Err? ==> r.error == NotFoundSymbol(symbolId)
    ensures r.Ok? ==>
      && (forall i :: 0 <= i < |r.value| ==>
            r.value[i] in db.prices && r.value[i].owner == BySymbol(symbolId, userId, accountId)
            && r.value[i].date >= clock.oneYearAgo)
      && (forall i :: 0 <= i < |db.prices| && RecentOf(symbolId, userId, accountId, clock.oneYearAgo)(db.prices[i]) ==>
            db.prices[i] in r.value)
      && (forall i, j :: 0 <= i < j < |r.value| ==> r.value[i].date >= r.value[j].date)
    ensures r.Ok? ==> multiset(r.value) == multiset(Filter(db.prices, RecentOf(symbolId, userId, accountId, clock.oneYearAgo)))
  {
    match FindOne(db, symbolId, userId, accountId)
    case Err(e) => Err(e)
    case Ok(_) =>
      var ps := SortDesc(Filter(db.prices, RecentOf(symbolId, userId, accountId, clock.oneYearAgo)), PriceDate);
      ReorderedFilter(db.prices, RecentOf(symbolId, userId, accountId, clock.oneYearAgo), ps);
      Ok(ps)
  }

  /** A price added for a day within the last year is listed afterwards. */
  lemma AddPriceThenGetPrices(db: Db, symbolId: string, input: NewPrice, userId: string, accountId: string, clock: Clock)
    requires AddPrice(db, symbolId, input, userId, accountId).Ok?
    requires input.date >= clock.oneYearAgo
    ensures var s := AddPrice(db, symbolId, input, userId, accountId).value;
      GetPrices(s.db, symbolId, userId, accountId, clock).Ok?
      && s.value in GetPrices(s.db, symbolId, userId, accountId, clock).value
  {
    var s := AddPrice(db, symbolId, input, userId, accountId).value;
    assert s.db.prices[|db.prices|] == s.value;
    assert s.db.symbols == db.symbols;
  }

  function HasPriceId(priceId: string): PricePoint -> bool {
    (p: PricePoint) => p.id == priceId
  }

  /** The price with that id is the caller's price of that symbol. */
  predicate OwnsPrice(db: Db, priceId: string, symbolId: string, userId: string, accountId: string) {
    exists i :: 0 <= i < |db.prices| && db.prices[i].id == priceId && db.prices[i].owner == BySymbol(symbolId, userId, accountId)
  }

  /** The first row with that id, when it is the caller's price of the
      symbol. */
  function OwnedPrice(db: Db, priceId: string, symbolId: string, userId: string, accountId: string): (r: Option<PricePoint>)
    ensures r.Some? ==> r.value in db.prices && r.value.id == priceId && r.value.owner == BySymbol(symbolId, userId, accountId)
    ensures r.None? && UniqueIds(db.prices, PriceId) ==> !OwnsPrice(db, priceId, symbolId, userId, accountId)
  {
    match FindFirst(db.prices, HasPriceId(priceId))
    case None => None
    case Some(p) =>
      if p.owner != BySymbol(symbolId, userId, accountId) then
        assert UniqueIds(db.prices, PriceId) ==> !OwnsPrice(db, priceId, symbolId, userId, accountId) by {
          if UniqueIds(db.prices, PriceId) {
            var k :| 0 <= k < |db.prices| && db.prices[k] == p;
            forall i | 0 <= i < |db.prices| && db.prices[i].id == priceId
              ensures db.prices[i].owner != BySymbol(symbolId, userId, accountId)
            {
              assert i == k;
            }
          }
        }
        None
      else Some(p)
  }

  /** The row with the given price and the given truthy date written over
      it. */
  function Repriced(p: PricePoint, patch: PricePatch): (q: PricePoint)
    ensures q.id == p.id && q.owner == p.owner
    ensures q.price == (if patch.price.Some? then patch.price.value else p.price)
    ensures q.date == (if patch.date.Some? then patch.date.value else p.date)
  {
    p.(price := patch.price.GetOr(p.price), date := patch.date.GetOr(p.date))
  }

  function RepriceRow(priceId: string, patch: PricePatch): PricePoint -> PricePoint {
    (p: PricePoint) => if p.id == priceId then Repriced(p, patch) else p
  }

  /** Edits one of the symbol's prices; a price of another symbol, user or
      account is reported as missing. */
  function UpdatePrice(db: Db, symbolId: string, priceId: string, patch: PricePatch, userId: string, accountId: string)
    : (r: Result<Stored<PricePoint>>)
    ensures r.Ok? ==> OwnsPrice(db, priceId, symbolId, userId, accountId)
    ensures UniqueIds(db.prices, PriceId) ==> (r.Err? <==> !OwnsPrice(db, priceId, symbolId, userId, accountId))
    ensures r.Err? ==> r.error == NotFoundPrice(priceId)
    ensures r.Ok? ==>
      && r.value.value.id == priceId && r.value.value.owner == BySymbol(symbolId, userId, accountId)
      && |r.value.db.prices| == |db.prices|
      && (forall i :: 0 <= i < |db.prices| && db.prices[i].id != priceId ==> r.value.db.prices[i] == db.prices[i])
      && (forall i :: 0 <= i < |db.prices| && db.prices[i].id == priceId ==> r.value.db.prices[i] == Repriced(db.prices[i], patch))
      && r.value.db == db.(prices := r.value.db.prices)
  {
    match OwnedPrice(db, priceId, symbolId, userId, accountId)
    case None => Err(NotFoundPrice(priceId))
    case Some(p) => Ok(Stored(db.(prices := Map(db.prices, RepriceRow(priceId, patch))), Repriced(p, patch)))
  }

  /** An empty price patch leaves the store as it was. */
  lemma EmptyPricePatchChangesNothing(db: Db, symbolId: string, priceId: string, userId: string, accountId: string)
    requires UpdatePrice(db, symbolId, priceId, PricePatch(None, None), userId, accountId).Ok?
    ensures UpdatePrice(db, symbolId, priceId, PricePatch(None, None), userId, accountId).value.db == db
  {
    var r := UpdatePrice(db, symbolId, priceId, PricePatch(None, None), userId, accountId).value;
    assert r.db.prices == db.prices;
  }

  function OtherPrice(priceId: string): PricePoint -> bool {
    (p: PricePoint) => p.id != priceId
  }

  /** Deletes one of the symbol's prices; a price of another symbol, user or
      account is reported as missing. */
  function RemovePrice(db: Db, symbolId: string, priceId: string, userId: string, accountId: string)
    : (r: Result<Stored<PricePoint>>)
    ensures r.Ok? ==> OwnsPrice(db, priceId, symbolId, userId, accountId)
    ensures UniqueIds(db.prices, PriceId) ==> (r.Err? <==> !OwnsPrice(db, priceId, symbolId, userId, accountId))
    ensures r.Err? ==> r.error == NotFoundPrice(priceId)
    ensures r.Ok? ==>
      && r.value.value in db.prices && r.value.value.id == priceId
      && (forall i :: 0 <= i < |db.prices| ==> (db.prices[i] in r.value.db.prices <==> db.prices[i].id != priceId))
      && (forall i :: 0 <= i < |r.value.db.prices| ==> r.value.db.prices[i] in db.prices)
      && r.value.db == db.(prices := r.value.db.prices)
  {
    match OwnedPrice(db, priceId, symbolId, userId, accountId)
    case None => Err(NotFoundPrice(priceId))
    case Some(p) => Ok(Stored(db.(prices := Filter(db.prices, OtherPrice(priceId))), p))
  }

  /** Adding a price and removing it again gives back the store as it was. */
  lemma {:induction false} AddThenRemovePrice(db: Db, symbolId: string, input: NewPrice, userId: string, accountId: string)
    requires AddPrice(db, symbolId, input, userId, accountId).Ok?
    ensures var s := AddPrice(db, symbolId, input, userId, accountId).value;
      RemovePrice(s.db, symbolId, s.value.id, userId, accountId) == Ok(Stored(db, s.value))
  {
    var s := AddPrice(db, symbolId, input, userId, accountId).value;
    var p := s.value;
    forall i | 0 <= i < |db.prices| ensures OtherPrice(p.id)(db.prices[i]) {
      assert PriceIds(db)[i] == db.prices[i].id;
    }
    FindFirstAppended(db.prices, p, HasPriceId(p.id));
    FilterDropsAppended(db.prices, p, OtherPrice(p.id));
  }

  // ---------------------------------------------------------------------
  // priceMarketSync

  /** What a manual sync returns: a skipped sync with its reason, or the
      price row it inserted. */
  datatype SyncOutcome = Skipped(reason: string) | Created(price: PricePoint)

  const NoMarketCode := "Market code no configurado"

  function HasId(id: string): Symbol -> bool {
    (s: Symbol) => s.id == id
  }

  /** The lookup a symbol's market settings ask for: its market code and
      product, its provider as the override, its exchange when truthy. */
  function Lookup(providers: seq<MarketData.Provider>, settings: MarketData.MarketSettings, s: Symbol)
    : Result<Option<MarketData.MarketQuote>>
  {
    MarketData.GetLatestPrice(providers, settings, s.marketCode.GetOr(""), s.product, s.marketProvider,
                              if Truthy(s.marketExchange) then s.marketExchange else None)
  }

  /** Syncing the symbol throws: it has no market code, or the lookup
      throws. */
  predicate SyncFails(providers: seq<MarketData.Provider>, settings: MarketData.MarketSettings, s: Symbol) {
    !Truthy(s.marketCode) || Lookup(providers, settings, s).Err?
  }

  /** Some price of the symbol, whoever recorded it, has the quote's day and
      price. */
  predicate IsDuplicate(db: Db, symbolId: string, q: MarketData.MarketQuote) {
    exists i :: 0 <= i < |db.prices| && db.prices[i].owner.BySymbol? && db.prices[i].owner.symbolId == symbolId
                && db.prices[i].date == q.date && db.prices[i].price == q.price
  }

  /** `symbols.update({ where: { id }, data: { marketSyncStatus, marketSyncError } })`. */
  function SetSync(id: string, status: string, error: Option<string>): Symbol -> Symbol {
    (s: Symbol) => if s.id == id then s.(syncStatus := Some(status), syncError := error) else s
  }

  /** Looks the symbol up by id alone, refuses one without a market code,
      asks the market data service, and records the quote unless there is
      none or the same price of that day is already stored. Whenever the
      lookup answers, the symbol is marked "ok" with no error. */
  function PriceMarketSync(db: Db, symbolId: string, providers: seq<MarketData.Provider>,
                           settings: MarketData.MarketSettings): (r: Result<Stored<SyncOutcome>>)
    ensures var found := FindFirst(db.symbols, HasId(symbolId));
      && (found.None? ==> r == Err(NotFoundSymbol(symbolId)))
      && (found.Some? && !Truthy(found.value.marketCode) ==> r == Err(BadRequest(NoMarketCode)))
      && (found.Some? && Truthy(found.value.marketCode) && Lookup(providers, settings, found.value).Err? ==>
            r == Err(Lookup(providers, settings, found.value).error))
      && (r.Ok? <==> found.Some? && !SyncFails(providers, settings, found.value))
    ensures r.Ok? ==>
      var s := FindFirst(db.symbols, HasId(symbolId)).value;
      var quote := Lookup(providers, settings, s).value;
      && r.value.db.symbols == Map(db.symbols, SetSync(symbolId, "ok", None))
      && (r.value.value == Skipped("empty") <==> quote.None?)
      && (r.value.value == Skipped("duplicate") <==> quote.Some? && IsDuplicate(db, symbolId, quote.value))
      && (r.value.value.Skipped? ==> r.value.db == db.(symbols := r.value.db.symbols))
      && (r.value.value.Created? ==>
            var p := r.value.value.price;
            && quote.Some? && !IsDuplicate(db, symbolId, quote.value)
            && p.id !in PriceIds(db)
            && p.owner == BySymbol(s.id, s.userId, s.accountId)
            && p.price == quote.value.price && p.date == quote.value.date
            && r.value.db == db.(symbols := r.value.db.symbols, prices := db.prices + [p]))
  {
    match FindFirst(db.symbols, HasId(symbolId))
    case None => Err(NotFoundSymbol(symbolId))
    case Some(s) =>
      if !Truthy(s.marketCode) then Err(BadRequest(NoMarketCode))
      else
        match Lookup(providers, settings, s)
        case Err(e) => Err(e)
        case Ok(quote) =>
          var marked := Map(db.symbols, SetSync(s.id, "ok", None));
          if quote.None? then Ok(Stored(db.(symbols := marked), Skipped("empty")))
          else if IsDuplicate(db, s.id, quote.value) then Ok(Stored(db.(symbols := marked), Skipped("duplicate")))
          else
            var p := PricePoint(FreshId(PriceIds(db)), BySymbol(s.id, s.userId, s.accountId),
                                quote.value.price, quote.value.date);
            Ok(Stored(db.(symbols := marked, prices := db.prices + [p]), Created(p)))
  }

  /** Marking a symbol's sync state does not change which row the id finds,
      only that row's sync fields. */
  lemma MarkedRowFound(ss: seq<Symbol>, id: string, status: string, error: Option<string>)
    ensures FindFirst(ss, HasId(id)).None? ==> FindFirst(Map(ss, SetSync(id, status, error)), HasId(id)).None?
    ensures FindFirst(ss, HasId(id)).Some? ==>
      FindFirst(Map(ss, SetSync(id, status, error)), HasId(id))
        == Some(FindFirst(ss, HasId(id)).value.(syncStatus := Some(status), syncError := error))
  {
    FindFirstMap(ss, SetSync(id, status, error), HasId(id));
  }

  /** Syncing twice with the same answer from the provider records the
      price once: the second sync finds it and reports a duplicate. */
  lemma SyncTwiceIsDuplicate(db: Db, symbolId: string, providers: seq<MarketData.Provider>,
                             settings: MarketData.MarketSettings)
    requires PriceMarketSync(db, symbolId, providers, settings).Ok?
    ensures var once := PriceMarketSync(db, symbolId, providers, settings).value;
      var twice := PriceMarketSync(once.db, symbolId, providers, settings);
      && twice.Ok?
      && twice.value.db.prices == once.db.prices
      && (once.value.Created? || once.value == Skipped("duplicate") ==> twice.value.value == Skipped("duplicate"))
  {
    var once := PriceMarketSync(db, symbolId, providers, settings).value;
    MarkedRowFound(db.symbols, symbolId, "ok", None);
    var s := FindFirst(db.symbols, HasId(symbolId)).value;
    assert Lookup(providers, settings, s.(syncStatus := Some("ok"), syncError := None)) == Lookup(providers, settings, s);
    if once.value.Created? {
      var p := once.value.price;
      assert once.db.prices[|db.prices|] == p;
    } else if once.value == Skipped("duplicate") {
      assert once.db.prices == db.prices;
    }
  }

  // ---------------------------------------------------------------------
  // syncOpenOperationsMarketPrices

  function OperationSymbol(o: Operation): string { o.symbolId }

  function IsOpen(o: Operation): bool { o.status == "open" }

  /** `Array.from(new Set(openOperations.map((o) => o.symbolId)))`. */
  function OpenSymbolIds(db: Db): (ids: seq<string>)
    ensures Distinct(ids)
    ensures forall x :: x in ids <==> exists i :: 0 <= i < |db.operations| && IsOpen(db.operations[i]) && db.operations[i].symbolId == x
  {
    var open := Filter(db.operations, IsOpen);
    var ids := Dedup(Map(open, OperationSymbol));
    forall x | x in ids ensures exists i :: 0 <= i < |db.operations| && IsOpen(db.operations[i]) && db.operations[i].symbolId == x {
      var k :| 0 <= k < |open| && Map(open, OperationSymbol)[k] == x;
      assert open[k] in db.operations;
    }
    forall x | exists i :: 0 <= i < |db.operations| && IsOpen(db.operations[i]) && db.operations[i].symbolId == x
      ensures x in ids
    {
      var i :| 0 <= i < |db.operations| && IsOpen(db.operations[i]) && db.operations[i].symbolId == x;
      var k :| 0 <= k < |open| && open[k] == db.operations[i];
      assert Map(open, OperationSymbol)[k] == x;
    }
    ids
  }

  /** The symbols the job syncs: those of open operations that have both a
      market code and a market provider set. */
  function ToSync(ids: seq<string>): Symbol -> bool {
    (s: Symbol) => s.id in ids && s.marketCode.Some? && s.marketProvider.Some?
  }

  /** The exception a failing sync throws. */
  function Failure(providers: seq<MarketData.Provider>, settings: MarketData.MarketSettings, s: Symbol): Error
    requires SyncFails(providers, settings, s)
  {
    if !Truthy(s.marketCode) then BadRequest(NoMarketCode) else Lookup(providers, settings, s).error
  }

  /** `error?.message || 'Unknown error'`. */
  function FailureMessage(e: Error): (m: string)
    ensures m != ""
  {
    if e.message != "" then e.message else "Unknown error"
  }

  /** The symbol's row once the job has handled it: "ok" and no error when
      the sync went through, "error" and the exception's message when it
      threw. */
  function Synced(providers: seq<MarketData.Provider>, settings: MarketData.MarketSettings, s: Symbol): (t: Symbol)
    ensures t.(syncStatus := s.syncStatus, syncError := s.syncError) == s
    ensures !SyncFails(providers, settings, s) ==> t.syncStatus == Some("ok") && t.syncError.None?
    ensures SyncFails(providers, settings, s) ==>
      t.syncStatus == Some("error") && t.syncError == Some(FailureMessage(Failure(providers, settings, s)))
  {
    if SyncFails(providers, settings, s)
    then s.(syncStatus := Some("error"), syncError := Some(FailureMessage(Failure(providers, settings, s))))
    else s.(syncStatus := Some("ok"), syncError := None)
  }

  /** One turn of the loop: the sync, or on an exception the error mark. */
  function SyncOne(db: Db, id: string, providers: seq<MarketData.Provider>, settings: MarketData.MarketSettings): Db {
    match PriceMarketSync(db, id, providers, settings)
    case Ok(stored) => stored.db
    case Err(e) => db.(symbols := Map(db.symbols, SetSync(id, "error", Some(FailureMessage(e)))))
  }

  /** With unique ids, looking row `j`'s id up finds row `j`, and no other
      row has it. */
  lemma FoundById(ss: seq<Symbol>, j: nat)
    requires UniqueIds(ss, SymbolId) && j < |ss|
    ensures FindFirst(ss, HasId(ss[j].id)) == Some(ss[j])
    ensures forall i :: 0 <= i < |ss| && i != j ==> ss[i].id != ss[j].id
  {
    forall k | 0 <= k < j ensures !HasId(ss[j].id)(ss[k]) {
      assert SymbolId(ss[k]) != SymbolId(ss[j]);
    }
    FindIndexIsFirst(ss, HasId(ss[j].id), j);
    forall i | 0 <= i < |ss| && i != j ensures ss[i].id != ss[j].id {
      assert SymbolId(ss[i]) != SymbolId(ss[j]);
    }
  }

  /** With unique ids, one turn settles row `j` and touches no other row;
      any price it adds belongs to that symbol. */
  lemma SyncOneEffect(db: Db, j: nat, providers: seq<MarketData.Provider>, settings: MarketData.MarketSettings)
    requires UniqueIds(db.symbols, SymbolId) && j < |db.symbols|
    ensures var next := SyncOne(db, db.symbols[j].id, providers, settings);
      && |next.symbols| == |db.symbols|
      && next.symbols[j] == Synced(providers, settings, db.symbols[j])
      && (forall i :: 0 <= i < |db.symbols| && i != j ==> next.symbols[i] == db.symbols[i])
      && next == db.(symbols := next.symbols, prices := next.prices)
      && |db.prices| <= |next.prices| && next.prices[..|db.prices|] == db.prices
      && (forall k :: |db.prices| <= k < |next.prices| ==> next.prices[k].owner.BySymbol? && next.prices[k].owner.symbolId == db.symbols[j].id)
  {
    FoundById(db.symbols, j);
  }

  /** The rows the job has handled so far carry their sync result; every
      other row is as it was. */
  ghost predicate SyncedSoFar(db: Db, cur: Db, done: seq<string>, providers: seq<MarketData.Provider>,
                              settings: MarketData.MarketSettings) {
    && |cur.symbols| == |db.symbols|
    && forall i :: 0 <= i < |db.symbols| ==>
         cur.symbols[i] == (if db.symbols[i].id in done then Synced(providers, settings, db.symbols[i]) else db.symbols[i])
  }

  /** The scheduled job: every symbol of an open operation that has a market
      code and provider is synced in turn, and a failure is recorded on that
      symbol alone instead of stopping the job. */
  method SyncOpenOperationsMarketPrices(db: Db, providers: seq<MarketData.Provider>, settings: MarketData.MarketSettings)
    returns (out: Db)
    requires UniqueIds(db.symbols, SymbolId)
    ensures |out.symbols| == |db.symbols|
    ensures forall i :: 0 <= i < |db.symbols| && ToSync(OpenSymbolIds(db))(db.symbols[i]) ==>
      out.symbols[i] == Synced(providers, settings, db.symbols[i])
    ensures forall i :: 0 <= i < |db.symbols| && !ToSync(OpenSymbolIds(db))(db.symbols[i]) ==>
      out.symbols[i] == db.symbols[i]
    ensures |db.prices| <= |out.prices| && out.prices[..|db.prices|] == db.prices
    ensures forall k :: |db.prices| <= k < |out.prices| ==>
      out.prices[k].owner.BySymbol? && out.prices[k].owner.symbolId in OpenSymbolIds(db)
    ensures out == db.(symbols := out.symbols, prices := out.prices)
  {
    var ids := OpenSymbolIds(db);
    if |ids| == 0 {
      return db;
    }
    var toSync := Filter(db.symbols, ToSync(ids));
    UniqueIdsFilter(db.symbols, SymbolId, ToSync(ids));
    out := db;
    var k := 0;
    assert Map(toSync[..0], SymbolId) == [];
    assert SyncedSoFar(db, out, [], providers, settings);
    while k < |toSync|
      invariant k <= |toSync|
      invariant SyncedSoFar(db, out, Map(toSync[..k], SymbolId), providers, settings)
      invariant UniqueIds(out.symbols, SymbolId)
      invariant |db.prices| <= |out.prices| && out.prices[..|db.prices|] == db.prices
      invariant forall n :: |db.prices| <= n < |out.prices| ==>
        out.prices[n].owner.BySymbol? && out.prices[n].owner.symbolId in ids
      invariant out == db.(symbols := out.symbols, prices := out.prices)
    {
      var s := toSync[k];
      var prev := out;
      SyncStep(db, out, toSync, k, providers, settings);
      out := SyncOne(out, s.id, providers, settings);
      NewPricesOwned(db.prices, prev.prices, out.prices, ids, s.id);
      k := k + 1;
    }
    assert toSync[..k] == toSync;
    SyncFinished(db, out, ids, providers, settings);
  }

  /** Prices added by one more turn belong to a synced symbol too. */
  lemma NewPricesOwned(base: seq<PricePoint>, prev: seq<PricePoint>, next: seq<PricePoint>, ids: seq<string>, id: string)
    requires |base| <= |prev| <= |next| && prev[..|base|] == base && next[..|prev|] == prev
    requires forall n :: |base| <= n < |prev| ==> prev[n].owner.BySymbol? && prev[n].owner.symbolId in ids
    requires forall n :: |prev| <= n < |next| ==> next[n].owner.BySymbol? && next[n].owner.symbolId == id
    requires id in ids
    ensures next[..|base|] == base
    ensures forall n :: |base| <= n < |next| ==> next[n].owner.BySymbol? && next[n].owner.symbolId in ids
  {
    assert next[..|base|] == next[..|prev|][..|base|];
    forall n | |base| <= n < |prev| ensures next[n] == prev[n] {
      assert next[n] == next[..|prev|][n];
    }
  }

  /** Once every selected symbol is handled, a row carries its sync result
      exactly when it was selected. */
  lemma SyncFinished(db: Db, out: Db, ids: seq<string>, providers: seq<MarketData.Provider>,
                     settings: MarketData.MarketSettings)
    requires UniqueIds(db.symbols, SymbolId)
    requires SyncedSoFar(db, out, Map(Filter(db.symbols, ToSync(ids)), SymbolId), providers, settings)
    ensures forall i :: 0 <= i < |db.symbols| && ToSync(ids)(db.symbols[i]) ==>
      out.symbols[i] == Synced(providers, settings, db.symbols[i])
    ensures forall i :: 0 <= i < |db.symbols| && !ToSync(ids)(db.symbols[i]) ==> out.symbols[i] == db.symbols[i]
  {
    forall i | 0 <= i < |db.symbols|
      ensures db.symbols[i].id in Map(Filter(db.symbols, ToSync(ids)), SymbolId) <==> ToSync(ids)(db.symbols[i])
    {
      SelectedIsDone(db.symbols, ids, i);
    }
  }

  /** A row's id is among the synced ids exactly when the row is selected. */
  lemma SelectedIsDone(ss: seq<Symbol>, ids: seq<string>, i: nat)
    requires UniqueIds(ss, SymbolId) && i < |ss|
    ensures ss[i].id in Map(Filter(ss, ToSync(ids)), SymbolId) <==> ToSync(ids)(ss[i])
  {
    var f := Filter(ss, ToSync(ids));
    var m := Map(f, SymbolId);
    if ss[i].id in m {
      var k :| 0 <= k < |m| && m[k] == ss[i].id;
      var j :| 0 <= j < |ss| && ss[j] == f[k];
      assert SymbolId(ss[j]) == SymbolId(ss[i]);
    }
    if ToSync(ids)(ss[i]) {
      var k :| 0 <= k < |f| && f[k] == ss[i];
      assert m[k] == ss[i].id;
    }
  }

  /** One turn of the job's loop carries its invariant from `k` to
      `k + 1`. */
  lemma SyncStep(db: Db, cur: Db, toSync: seq<Symbol>, k: nat, providers: seq<MarketData.Provider>,
                 settings: MarketData.MarketSettings)
    requires k < |toSync| && UniqueIds(toSync, SymbolId)
    requires forall n :: 0 <= n < |toSync| ==> toSync[n] in db.symbols
    requires SyncedSoFar(db, cur, Map(toSync[..k], SymbolId), providers, settings)
    requires UniqueIds(cur.symbols, SymbolId) && UniqueIds(db.symbols, SymbolId)
    ensures var next := SyncOne(cur, toSync[k].id, providers, settings);
      && SyncedSoFar(db, next, Map(toSync[..k + 1], SymbolId), providers, settings)
      && UniqueIds(next.symbols, SymbolId)
      && next == cur.(symbols := next.symbols, prices := next.prices)
      && |cur.prices| <= |next.prices| && next.prices[..|cur.prices|] == cur.prices
      && (forall n :: |cur.prices| <= n < |next.prices| ==>
            next.prices[n].owner.BySymbol? && next.prices[n].owner.symbolId == toSync[k].id)
  {
    var s := toSync[k];
    var j :| 0 <= j < |db.symbols| && db.symbols[j] == s;
    assert cur.symbols[j] == s by {
      NotAmongEarlier(toSync, k, SymbolId);
    }
    SyncOneEffect(cur, j, providers, settings);
    SettleRow(db, cur, SyncOne(cur, s.id, providers, settings), toSync, k, j, providers, settings);
  }

  /** The step of `SyncStep` for any store `next` that settles row `j`,
      the row of `toSync[k]`, and touches nothing else. */
  lemma SettleRow(db: Db, cur: Db, next: Db, toSync: seq<Symbol>, k: nat, j: nat,
                  providers: seq<MarketData.Provider>, settings: MarketData.MarketSettings)
    requires k < |toSync| && UniqueIds(toSync, SymbolId)
    requires j < |db.symbols| && db.symbols[j] == toSync[k]
    requires SyncedSoFar(db, cur, Map(toSync[..k], SymbolId), providers, settings)
    requires UniqueIds(cur.symbols, SymbolId) && UniqueIds(db.symbols, SymbolId)
    requires |next.symbols| == |cur.symbols|
    requires next.symbols[j] == Synced(providers, settings, cur.symbols[j])
    requires forall i :: 0 <= i < |cur.symbols| && i != j ==> next.symbols[i] == cur.symbols[i]
    ensures SyncedSoFar(db, next, Map(toSync[..k + 1], SymbolId), providers, settings)
    ensures UniqueIds(next.symbols, SymbolId)
  {
    var done := Map(toSync[..k], SymbolId);
    NotAmongEarlier(toSync, k, SymbolId);
    MapPrefixStep(toSync, k, SymbolId);
    StepKeepsSynced(db, cur, next, done, j, providers, settings);
    SameIdsKeepUnique(cur.symbols, next.symbols);
  }

  /** Settling row `j`, whose id is not yet done, extends what is settled by
      that id. */
  lemma StepKeepsSynced(db: Db, cur: Db, next: Db, done: seq<string>, j: nat, providers: seq<MarketData.Provider>,
                        settings: MarketData.MarketSettings)
    requires UniqueIds(db.symbols, SymbolId) && j < |db.symbols| && db.symbols[j].id !in done
    requires SyncedSoFar(db, cur, done, providers, settings)
    requires |next.symbols| == |cur.symbols|
    requires next.symbols[j] == Synced(providers, settings, cur.symbols[j])
    requires forall i :: 0 <= i < |cur.symbols| && i != j ==> next.symbols[i] == cur.symbols[i]
    ensures SyncedSoFar(db, next, done + [db.symbols[j].id], providers, settings)
  {
    forall i | 0 <= i < |db.symbols| && i != j ensures db.symbols[i].id != db.symbols[j].id {
      assert SymbolId(db.symbols[i]) != SymbolId(db.symbols[j]);
    }
  }

  /** Rows whose ids are the same, position by position, keep ids unique. */
  lemma SameIdsKeepUnique(a: seq<Symbol>, b: seq<Symbol>)
    requires UniqueIds(a, SymbolId) && |a| == |b|
    requires forall i :: 0 <= i < |a| ==> b[i].id == a[i].id
    ensures UniqueIds(b, SymbolId)
  {
    forall i, m | 0 <= i < m < |b| ensures SymbolId(b[i]) != SymbolId(b[m]) {
      assert SymbolId(a[i]) != SymbolId(a[m]);
    }
  }
}

=== FILE: symbols_store.dfy ===
/** The web client's symbols store: the list the symbols page shows, the
    symbol open in the detail view, and the last error message. Every action
    is modelled after its API call, whose answer is a parameter. */
module SymbolsStore {
  import opened Common
  import opened Entities
  import opened Sorting
  import opened Grouping

  datatype State = State(symbols: seq<Symbol>, current: Option<Symbol>, error: Option<string>)

  /** What an action leaves behind: the new state and what it returns or
      rethrows. */
  datatype Outcome<T> = Outcome(state: State, result: Result<T>)

  const CreateFailed := "Error al crear símbolo"
  const UpdateFailed := "Error al actualizar símbolo"
  const DeleteFailed := "Error al eliminar símbolo"

  function Ids(symbols: seq<Symbol>): seq<string> { Map(symbols, SymbolId) }

  // ---------------------------------------------------------------------
  // createSymbol, updateSymbol, deleteSymbol

  /** `createSymbol`: the created symbol goes to the front of the list. */
  function CreateSymbol(st: State, response: Result<Symbol>): (r: Outcome<Symbol>)
    ensures r.result == response
    ensures response.Ok? ==> r.state == st.(symbols := [response.value] + st.symbols, error := None)
    ensures response.Err? ==> r.state == st.(error := Some(CreateFailed))
  {
    match response
    case Ok(data) => Outcome(st.(symbols := [data] + st.symbols, error := None), Ok(data))
    case Err(e) => Outcome(st.(error := Some(CreateFailed)), Err(e))
  }

  /** `updateSymbol`: the answer replaces the first symbol with that id,
      and the open symbol when it is that one. */
  function UpdateSymbol(st: State, symbolId: string, response: Result<Symbol>): (r: Outcome<Symbol>)
    ensures r.result == response
    ensures response.Err? ==> r.state == st.(error := Some(UpdateFailed))
    ensures response.Ok? ==>
      && |r.state.symbols| == |st.symbols|
      && (forall i :: 0 <= i < |st.symbols| ==>
            r.state.symbols[i] ==
              if st.symbols[i].id == symbolId && (forall j :: 0 <= j < i ==> st.symbols[j].id != symbolId)
              then response.value else st.symbols[i])
      && r.state.current == (if st.current.Some? && st.current.value.id == symbolId then Some(response.value) else st.current)
      && r.state.error == None
  {
    match response
    case Err(e) => Outcome(st.(error := Some(UpdateFailed)), Err(e))
    case Ok(data) =>
      var symbols := match FindIndex(st.symbols, (s: Symbol) => s.id == symbolId)
        case None => st.symbols
        case Some(i) => st.symbols[i := data];
      var current := if st.current.Some? && st.current.value.id == symbolId then Some(data) else st.current;
      Outcome(State(symbols, current, None), Ok(data))
  }

  function OtherSymbol(symbolId: string): Symbol -> bool {
    (s: Symbol) => s.id != symbolId
  }

  /** `deleteSymbol`: every symbol with that id leaves the list, and the
      open symbol is closed when it is that one. */
  function DeleteSymbol(st: State, symbolId: string, response: Result<()>): (r: Outcome<()>)
    ensures r.result == response
    ensures response.Err? ==> r.state == st.(error := Some(DeleteFailed))
    ensures response.Ok? ==>
      && (forall s :: s in r.state.symbols <==> s in st.symbols && s.id != symbolId)
      && (exists idx :: KeepsExactly(r.state.symbols, st.symbols, OtherSymbol(symbolId), idx))
      && (r.state.current.None? <==> st.current.None? || st.current.value.id == symbolId)
      && (r.state.current.Some? ==> r.state.current == st.current)
      && r.state.error == None
  {
    match response
    case Err(e) => Outcome(st.(error := Some(DeleteFailed)), Err(e))
    case Ok(_) =>
      FilterKeepsExactly(st.symbols, OtherSymbol(symbolId));
      var current := if st.current.Some? && st.current.value.id == symbolId then None else st.current;
      Outcome(State(Filter(st.symbols, OtherSymbol(symbolId)), current, None), response)
  }

  /** Deleting a symbol just created, under an id the list did not hold,
      gives back the list as it was. */
  lemma {:induction false} CreateThenDelete(st: State, x: Symbol)
    requires x.id !in Ids(st.symbols)
    ensures DeleteSymbol(CreateSymbol(st, Ok(x)).state, x.id, Ok(())).state.symbols == st.symbols
  {
    var p := OtherSymbol(x.id);
    forall i | 0 <= i < |st.symbols| ensures p(st.symbols[i]) {
      assert Ids(st.symbols)[i] == st.symbols[i].id;
    }
    FilterAll(st.symbols, p);
    FilterAppend([x], st.symbols, p);
    assert Filter([x], p) == [] by {
      assert [x][..0] == [];
    }
  }

  /** After an update answered with a row of the same id, looking the id up
      finds the new row. */
  lemma UpdateThenFind(st: State, symbolId: string, data: Symbol)
    requires data.id == symbolId
    requires symbolId in Ids(st.symbols)
    ensures FindFirst(UpdateSymbol(st, symbolId, Ok(data)).state.symbols, (s: Symbol) => s.id == symbolId) == Some(data)
  {
    var p := (s: Symbol) => s.id == symbolId;
    var i := FindIndex(st.symbols, p).value;
    var after := UpdateSymbol(st, symbolId, Ok(data)).state.symbols;
    assert after[i] == data;
    FindIndexIsFirst(after, p, i);
  }

  // ---------------------------------------------------------------------
  // reorderSymbols

  /** `orderMap.get(id)`: the position of `id` in `ids`, the last one when it
      appears twice, since a later `Map` entry overwrites an earlier one. */
  function Position(ids: seq<string>, id: string): (r: Option<nat>)
    ensures r.Some? ==> r.value < |ids| && ids[r.value] == id
    ensures r.Some? ==> forall k :: r.value < k < |ids| ==> ids[k] != id
    ensures r.None? <==> id !in ids
  {
    if |ids| == 0 then None
    else if ids[|ids| - 1] == id then Some(|ids| - 1)
    else Position(ids[..|ids| - 1], id)
  }

  /** The comparator: by position in `ids` when both symbols are listed,
      otherwise by their stored `sortOrder`. */
  function ByPosition(ids: seq<string>): (Symbol, Symbol) -> real {
    (a: Symbol, b: Symbol) =>
      var pa := Position(ids, a.id);
      var pb := Position(ids, b.id);
      if pa.None? || pb.None? then (a.sortOrder - b.sortOrder) as real
      else (pa.value - pb.value) as real
  }

  /** The list renumbered: each symbol's `sortOrder` becomes its index. */
  function Renumber(s: seq<Symbol>): (r: seq<Symbol>)
    ensures |r| == |s|
    ensures forall i :: 0 <= i < |s| ==> r[i] == s[i].(sortOrder := i)
  {
    seq(|s|, (i: int) requires 0 <= i < |s| => s[i].(sortOrder := i))
  }

  /** The optimistic reorder the store shows before the API answers. */
  function Reordered(symbols: seq<Symbol>, ids: seq<string>): (r: seq<Symbol>)
    ensures |r| == |symbols|
    ensures forall i :: 0 <= i < |r| ==> r[i].sortOrder == i
    ensures exists p: seq<Symbol> ::
      (&& multiset(p) == multiset(symbols) && |p| == |r|
       && forall i :: 0 <= i < |r| ==> r[i] == p[i].(sortOrder := i))
  {
    var sorted := Sort(symbols, ByPosition(ids));
    Renumber(sorted)
  }

  /** `reorderSymbols`: the list is reordered at once and put back exactly
      as it was when the API call fails. */
  function ReorderSymbols(st: State, ids: seq<string>, response: Result<()>): (r: Outcome<()>)
    ensures r.result == response
    ensures response.Err? ==> r.state == st
    ensures response.Ok? ==> r.state == st.(symbols := Reordered(st.symbols, ids))
  {
    match response
    case Err(e) => Outcome(st, Err(e))
    case Ok(_) => Outcome(st.(symbols := Reordered(st.symbols, ids)), response)
  }

  /** The position in `ids` as a sort key, 0 for an unlisted id. */
  function PositionKey(ids: seq<string>): Symbol -> real {
    (s: Symbol) => match Position(ids, s.id) case Some(k) => k as real case None => 0.0
  }

  /** On listed symbols the comparator is the difference of positions. */
  lemma ByPositionAgrees(symbols: seq<Symbol>, ids: seq<string>)
    requires forall s :: s in symbols ==> s.id in ids
    ensures AgreesWith(symbols, ByPosition(ids), PositionKey(ids))
  {
    forall a, b | a in symbols && b in symbols
      ensures ByPosition(ids)(a, b) == PositionKey(ids)(a) - PositionKey(ids)(b)
    {
      assert Position(ids, a.id).Some? && Position(ids, b.id).Some?;
    }
  }

  /** When `ids` lists every symbol, the new order follows `ids`. */
  lemma ReorderFollowsIds(symbols: seq<Symbol>, ids: seq<string>)
    requires forall s :: s in symbols ==> s.id in ids
    ensures var r := Reordered(symbols, ids);
      forall i, j :: 0 <= i < j < |r| ==>
        && Position(ids, r[i].id).Some? && Position(ids, r[j].id).Some?
        && Position(ids, r[i].id).value <= Position(ids, r[j].id).value
  {
    var key := PositionKey(ids);
    ByPositionAgrees(symbols, ids);
    SortSorted(symbols, ByPosition(ids), key);
    var sorted := Sort(symbols, ByPosition(ids));
    var r := Reordered(symbols, ids);
    assert r == Renumber(sorted);
    forall i | 0 <= i < |r|
      ensures Position(ids, r[i].id).Some? && Position(ids, r[i].id).value as real == key(sorted[i])
    {
      assert sorted[i] in multiset(symbols);
      assert r[i].id == sorted[i].id;
    }
  }

  // ---------------------------------------------------------------------
  // Getters

  /** `cryptoSymbols`, `stockSymbols`, `etfSymbols`: the symbols of exactly
      that product, in list order. */
  function OfProduct(symbols: seq<Symbol>, product: string): (r: seq<Symbol>)
    ensures forall s :: s in r <==> s in symbols && s.product == product
    ensures exists idx :: KeepsExactly(r, symbols, IsProduct(product), idx)
    ensures |r| <= |symbols|
  {
    FilterKeepsExactly(symbols, IsProduct(product));
    Filter(symbols, IsProduct(product))
  }

  function IsProduct(product: string): Symbol -> bool {
    (s: Symbol) => s.product == product
  }

  function CryptoSymbols(st: State): seq<Symbol> { OfProduct(st.symbols, "crypto") }
  function StockSymbols(st: State): seq<Symbol> { OfProduct(st.symbols, "stock") }
  function EtfSymbols(st: State): seq<Symbol> { OfProduct(st.symbols, "etf") }

  function SymbolProduct(s: Symbol): string { s.product }

  /** `symbolsByProduct`: one group per product, in first-appearance order. */
  function SymbolsByProduct(st: State): (gs: seq<Group<string, Symbol>>)
    ensures DistinctKeys(gs)
    ensures forall i :: 0 <= i < |gs| ==> gs[i].members == Members(st.symbols, SymbolProduct, gs[i].key)
  {
    GroupBy(st.symbols, SymbolProduct)
  }

  /** Each symbol sits in exactly one group, the one of its product, and a
      group is the product's filter. */
  lemma SymbolInItsProductGroup(st: State, x: Symbol)
    requires x in st.symbols
    ensures exists i :: 0 <= i < |SymbolsByProduct(st)| && x in SymbolsByProduct(st)[i].members
    ensures forall i :: 0 <= i < |SymbolsByProduct(st)| && x in SymbolsByProduct(st)[i].members ==>
      SymbolsByProduct(st)[i].key == x.product
  {
    var gs := SymbolsByProduct(st);
    assert gs == GroupBy(st.symbols, SymbolProduct);
    GroupOf(st.symbols, SymbolProduct, x);
  }

  /** `getSymbolByCode`: the first symbol with that code, if any. */
  function GetSymbolByCode(st: State, code: string): (r: Option<Symbol>)
    ensures r.None? <==> forall i :: 0 <= i < |st.symbols| ==> st.symbols[i].code != code
    ensures r.Some? ==> exists i ::
      (&& 0 <= i < |st.symbols| && st.symbols[i] == r.value && r.value.code == code
       && forall j :: 0 <= j < i ==> st.symbols[j].code != code)
  {
    FindFirst(st.symbols, (s: Symbol) => s.code == code)
  }

  /** A symbol just created is what its code now finds. */
  lemma CreateThenGetByCode(st: State, x: Symbol)
    ensures GetSymbolByCode(CreateSymbol(st, Ok(x)).state, x.code) == Some(x)
  {
    var s := CreateSymbol(st, Ok(x)).state.symbols;
    FindIndexIsFirst(s, (y: Symbol) => y.code == x.code, 0);
  }
}

=== FILE: text.dfy ===
/** The `String.prototype` operations the back end relies on: `startsWith`,
    `endsWith`, `includes`, `replace` with a string pattern (first occurrence
    only) and `split` on one character. */
module Text {
  import opened Common

  predicate StartsWith(s: string, prefix: string) {
    |prefix| <= |s| && s[..|prefix|] == prefix
  }

  predicate EndsWith(s: string, suffix: string) {
    |suffix| <= |s| && s[|s| - |suffix|..] == suffix
  }

  /** `pat` occurs in `s` starting at index `i`. */
  predicate OccursAt(s: string, pat: string, i: nat) {
    i + |pat| <= |s| && s[i..i + |pat|] == pat
  }

  /** The first index at or after `from` where `pat` occurs. */
  function IndexFrom(s: string, pat: string, from: nat): (r: Option<nat>)
    requires from <= |s| + 1
    ensures r.Some? ==> from <= r.value && OccursAt(s, pat, r.value)
    ensures r.Some? ==> forall j :: from <= j < r.value ==> !OccursAt(s, pat, j)
    ensures r.None? ==> forall j :: from <= j ==> !OccursAt(s, pat, j)
    decreases |s| + 1 - from
  {
    if from + |pat| > |s| then None
    else if s[from..from + |pat|] == pat then Some(from)
    else IndexFrom(s, pat, from + 1)
  }

  /** `s.indexOf(pat)`: the first occurrence of `pat`, if any. */
  function IndexOf(s: string, pat: string): (r: Option<nat>)
    ensures r.Some? ==> OccursAt(s, pat, r.value)
    ensures r.Some? ==> forall j :: 0 <= j < r.value ==> !OccursAt(s, pat, j)
    ensures r.None? ==> forall j :: 0 <= j ==> !OccursAt(s, pat, j)
  {
    IndexFrom(s, pat, 0)
  }

  /** `s.includes(pat)`. */
  predicate Includes(s: string, pat: string) {
    IndexOf(s, pat).Some?
  }

  /** `s.replace(pat, rep)` with a string pattern: only the first occurrence
      is replaced, with the `$`-patterns of `rep` expanded, and `s` is
      returned unchanged when there is none. */
  function ReplaceFirst(s: string, pat: string, rep: string): (r: string)
    ensures IndexOf(s, pat).None? ==> r == s
    ensures IndexOf(s, pat).Some? ==>
      var i := IndexOf(s, pat).value;
      r == s[..i] + Substitution(rep, pat, s[..i], s[i + |pat|..]) + s[i + |pat|..]
  {
    match IndexOf(s, pat)
    case None => s
    case Some(i) =>
      assert s[i..i + |pat|] == pat;
      s[..i] + Substitution(rep, s[i..i + |pat|], s[..i], s[i + |pat|..]) + s[i + |pat|..]
  }

  /** A replacement without `$` is inserted as it is. */
  lemma ReplaceFirstLiteral(s: string, pat: string, rep: string)
    requires Includes(s, pat) && '$' !in rep
    ensures var i := IndexOf(s, pat).value;
      ReplaceFirst(s, pat, rep) == s[..i] + rep + s[i + |pat|..]
  {
  }

  /** The replacement text of `String.prototype.replace` for a string
      pattern, as ECMAScript's GetSubstitution operation builds it: `$$`
      stands for `$`, `$&` for the matched text, `` $` `` for the text before
      the match and `$'` for the text after it. A string pattern has no
      capture groups, so every other `$` stays as it is. */
  function Substitution(rep: string, matched: string, before: string, after: string): (r: string)
    ensures '$' !in rep ==> r == rep
    decreases |rep|
  {
    if rep == [] then []
    else if rep[0] == '$' && |rep| >= 2 && rep[1] in "$&`'" then
      var piece :=
        if rep[1] == '$' then "$"
        else if rep[1] == '&' then matched
        else if rep[1] == '`' then before
        else after;
      piece + Substitution(rep[2..], matched, before, after)
    else
      [rep[0]] + Substitution(rep[1..], matched, before, after)
  }

  /** Text without `$` in front of the replacement passes through as it is. */
  lemma {:induction false} SubstitutionLiteralPrefix(text: string, rest: string, matched: string, before: string, after: string)
    requires '$' !in text
    ensures Substitution(text + rest, matched, before, after) == text + Substitution(rest, matched, before, after)
    decreases |text|
  {
    if text == [] {
      assert text + rest == rest;
    } else {
      var tail := Substitution(rest, matched, before, after);
      PrefixStep(text, rest, matched, before, after);
      SubstitutionLiteralPrefix(text[1..], rest, matched, before, after);
      ConsAssoc(text, tail);
    }
  }

  /** Putting the first character back in front. */
  lemma ConsAssoc(text: string, tail: string)
    requires text != []
    ensures [text[0]] + (text[1..] + tail) == text + tail
  {
    assert text == [text[0]] + text[1..];
  }

  /** One step of `SubstitutionLiteralPrefix`: the first character is copied. */
  lemma PrefixStep(text: string, rest: string, matched: string, before: string, after: string)
    requires text != [] && '$' !in text
    ensures '$' !in text[1..]
    ensures Substitution(text + rest, matched, before, after) == [text[0]] + Substitution(text[1..] + rest, matched, before, after)
  {
    var rep := text + rest;
    assert rep[0] == text[0] && rep[1..] == text[1..] + rest;
    assert text[0] != '$' by { assert text[0] in text; }
    assert text == [text[0]] + text[1..];
    SubstitutionPlain(rep, matched, before, after);
  }

  /** A character that does not open a pattern is copied. */
  lemma SubstitutionPlain(rep: string, matched: string, before: string, after: string)
    requires rep != [] && rep[0] != '$'
    ensures Substitution(rep, matched, before, after) == [rep[0]] + Substitution(rep[1..], matched, before, after)
  {
  }

  /** What a `$` followed by the character `c` stands for: one of the four
      pieces, or, for any other `c`, the `$` itself. */
  lemma SubstitutionPatterns(c: char, rest: string, matched: string, before: string, after: string)
    ensures var r := Substitution(['$', c] + rest, matched, before, after);
      && (c == '$' ==> r == "$" + Substitution(rest, matched, before, after))
      && (c == '&' ==> r == matched + Substitution(rest, matched, before, after))
      && (c == '`' ==> r == before + Substitution(rest, matched, before, after))
      && (c == '\'' ==> r == after + Substitution(rest, matched, before, after))
      && (c != '$' && c != '&' && c != '`' && c != '\'' ==>
            r == "$" + Substitution([c] + rest, matched, before, after))
  {
    var rep := ['$', c] + rest;
    assert rep[0] == '$' && rep[1] == c;
    assert rep[2..] == rest && rep[1..] == [c] + rest;
  }

  /** The first index of character `c` in `s`. */
  function IndexOfChar(s: string, c: char): (r: Option<nat>)
    ensures r.Some? ==> r.value < |s| && s[r.value] == c && c !in s[..r.value]
    ensures r.None? ==> c !in s
  {
    if |s| == 0 then None
    else if s[0] == c then Some(0)
    else
      match IndexOfChar(s[1..], c)
      case None => None
      case Some(i) =>
        assert s[..i + 1] == [s[0]] + s[1..][..i];
        Some(i + 1)
  }

  /** `s.split(sep)` for a one-character separator: the text between
      consecutive separators, so "" yields [""] and "a  b" yields ["a", "", "b"]. */
  function Split(s: string, sep: char): (fields: seq<string>)
    ensures |fields| >= 1
    ensures forall i :: 0 <= i < |fields| ==> sep !in fields[i]
    decreases |s|
  {
    match IndexOfChar(s, sep)
    case None => [s]
    case Some(i) => [s[..i]] + Split(s[i + 1..], sep)
  }

  /** `fields.join(sep)`. */
  function Join(fields: seq<string>, sep: char): string
  {
    if |fields| == 0 then ""
    else if |fields| == 1 then fields[0]
    else fields[0] + [sep] + Join(fields[1..], sep)
  }

  /** Joining a field in front of a non-empty list puts one separator between. */
  lemma JoinCons(first: string, rest: seq<string>, sep: char)
    requires |rest| >= 1
    ensures Join([first] + rest, sep) == first + [sep] + Join(rest, sep)
  {
    assert ([first] + rest)[1..] == rest;
  }

  /** Splitting loses nothing: joining the fields back gives the input. */
  lemma {:induction false} JoinSplit(s: string, sep: char)
    ensures Join(Split(s, sep), sep) == s
    decreases |s|
  {
    match IndexOfChar(s, sep)
    case None =>
    case Some(i) =>
      var rest := Split(s[i + 1..], sep);
      var fields := Split(s, sep);
      assert fields == [s[..i]] + rest;
      JoinSplit(s[i + 1..], sep);
      JoinCons(s[..i], rest, sep);
      assert s == s[..i] + [sep] + s[i + 1..];
  }

  /** Joining is undone by splitting, as long as no field holds the separator. */
  lemma {:induction false} SplitJoin(fields: seq<string>, sep: char)
    requires |fields| >= 1
    requires forall i :: 0 <= i < |fields| ==> sep !in fields[i]
    ensures Split(Join(fields, sep), sep) == fields
  {
    var s := Join(fields, sep);
    if |fields| == 1 {
      assert IndexOfChar(s, sep).None?;
    } else {
      var f := fields[0];
      var tail := Join(fields[1..], sep);
      assert s == f + ([sep] + tail);
      NoSepBefore(f, [sep] + tail, sep);
      var i := IndexOfChar(s, sep).value;
      assert i == |f|;
      assert s[..i] == f;
      assert s[i + 1..] == tail;
      SplitJoin(fields[1..], sep);
    }
  }

  lemma NoSepBefore(f: string, rest: string, sep: char)
    requires sep !in f
    requires |rest| > 0 && rest[0] == sep
    ensures IndexOfChar(f + rest, sep) == Some(|f|)
  {
    var s := f + rest;
    assert s[|f|] == sep;
    assert s[..|f|] == f;
  }

  predicate IsDigit(c: char) { '0' <= c <= '9' }

  function DigitChar(d: nat): (c: char)
    requires d < 10
    ensures IsDigit(c) && (c as int) - ('0' as int) == d
  {
    (('0' as int) + d) as char
  }

  /** The decimal digits of `n`, as a template literal prints a whole number. */
  function NatToString(n: nat): (s: string)
    ensures |s| >= 1
    ensures forall i :: 0 <= i < |s| ==> IsDigit(s[i])
    ensures n >= 10 ==> s[0] != '0'
  {
    if n < 10 then [DigitChar(n)] else NatToString(n / 10) + [DigitChar(n % 10)]
  }

  /** `String(i)` for a whole number. */
  function IntToString(i: int): (s: string)
    ensures |s| >= 1
    ensures i < 0 <==> s[0] == '-'
  {
    if i < 0 then "-" + NatToString(-i) else NatToString(i)
  }

  /** The value of a string of decimal digits. */
  function ParseNat(s: string): nat
    requires forall i :: 0 <= i < |s| ==> IsDigit(s[i])
  {
    if |s| == 0 then 0
    else
      assert IsDigit(s[|s| - 1]);
      ParseNat(s[..|s| - 1]) * 10 + ((s[|s| - 1] as int) - ('0' as int))
  }

  /** Printing loses nothing: reading the digits back gives the number. */
  lemma {:induction false} ParseNatToString(n: nat)
    ensures ParseNat(NatToString(n)) == n
  {
    if n >= 10 {
      ParseNatToString(n / 10);
      var s := NatToString(n);
      assert s[..|s| - 1] == NatToString(n / 10);
    }
  }

  /** Text put after `a` keeps `a` as a prefix and keeps its own suffixes. */
  lemma ConcatEnds(a: string, b: string, suffix: string)
    ensures StartsWith(a + b, a)
    ensures EndsWith(b, suffix) ==> EndsWith(a + b, suffix)
  {
    assert (a + b)[..|a|] == a;
    if EndsWith(b, suffix) {
      assert (a + b)[|a + b| - |suffix|..] == b[|b| - |suffix|..];
    }
  }

  /** A pattern whose first character never occurs is not included. */
  lemma NotIncludedWithoutFirst(s: string, pat: string)
    requires |pat| > 0 && pat[0] !in s
    ensures !Includes(s, pat)
  {
  }
}

=== FILE: transactions_service.dfy ===
/** The transactions service: deposits and withdrawals of an account. */
module TransactionsService {
  import opened Common
  import opened Entities
  import opened Sorting

  const TransactionNotFound := "Transaction not found"

  function TransactionIds(db: Db): seq<string> { Map(db.transactions, TransactionId) }

  function TransactionDate(t: Transaction): real { t.date as real }

  /** `findMany({ ...filter, orderBy: { date: 'desc' } })`: the rows the
      filter's `where` keeps, newest first. */
  function GetTransactions(db: Db, where: Transaction -> bool): (r: seq<Transaction>)
    ensures forall i :: 0 <= i < |r| ==> r[i] in db.transactions && where(r[i])
    ensures forall i :: 0 <= i < |db.transactions| && where(db.transactions[i]) ==> db.transactions[i] in r
    ensures forall i, j :: 0 <= i < j < |r| ==> r[i].date >= r[j].date
    ensures multiset(r) == multiset(Filter(db.transactions, where))
  {
    var r := SortDesc(Filter(db.transactions, where), TransactionDate);
    ReorderedFilter(db.transactions, where, r);
    r
  }

  /** The controller's filter: the caller's rows in one account. */
  function OfAccount(userId: string, accountId: string): Transaction -> bool {
    (t: Transaction) => t.userId == userId && t.accountId == accountId
  }

  /** A transaction as the controller completes it: the caller, the current
      account and the parsed date. */
  datatype NewTransaction = NewTransaction(userId: string, accountId: string, amount: real, date: int)

  /** `transactions.create({ data })`: appends the row under a new key. */
  function CreateTransaction(db: Db, data: NewTransaction): (r: Stored<Transaction>)
    ensures r.value.id !in TransactionIds(db)
    ensures r.value == Transaction(r.value.id, data.userId, data.accountId, data.amount, data.date)
    ensures r.db == db.(transactions := db.transactions + [r.value])
  {
    var t := Transaction(FreshId(TransactionIds(db)), data.userId, data.accountId, data.amount, data.date);
    Stored(db.(transactions := db.transactions + [t]), t)
  }

  /** The rows `deleteMany({ where: { id, userId, accountId } })` matches. */
  function Matching(id: string, userId: string, accountId: string): Transaction -> bool {
    (t: Transaction) => t.id == id && t.userId == userId && t.accountId == accountId
  }

  function Kept(id: string, userId: string, accountId: string): Transaction -> bool {
    (t: Transaction) => !(t.id == id && t.userId == userId && t.accountId == accountId)
  }

  /** Deletes the rows matching all three of id, user and account, and
      answers `true`; when none matches it throws and the store is left as
      it was. */
  function RemoveTransaction(db: Db, id: string, userId: string, accountId: string): (r: Result<Stored<bool>>)
    ensures r.Err? <==> forall i :: 0 <= i < |db.transactions| ==> !Matching(id, userId, accountId)(db.transactions[i])
    ensures r.Err? ==> r.error == Thrown(TransactionNotFound)
    ensures r.Ok? ==>
      && r.value.value
      && (forall t :: t in r.value.db.transactions <==>
            t in db.transactions && !(t.id == id && t.userId == userId && t.accountId == accountId))
      && |r.value.db.transactions| < |db.transactions|
      && r.value.db == db.(transactions := r.value.db.transactions)
  {
    var kept := Filter(db.transactions, Kept(id, userId, accountId));
    var matched := Filter(db.transactions, Matching(id, userId, accountId));
    if |matched| == 0 then
      Err(Thrown(TransactionNotFound))
    else
      assert matched[0] in db.transactions;
      assert |kept| < |db.transactions| by {
        CountSplit(db.transactions, Matching(id, userId, accountId), Kept(id, userId, accountId));
      }
      Ok(Stored(db.(transactions := kept), true))
  }

  /** Rows that match plus rows that are kept make up the whole table. */
  lemma {:induction false} CountSplit<T>(s: seq<T>, p: T -> bool, q: T -> bool)
    requires forall x :: q(x) == !p(x)
    ensures Count(s, p) + |Filter(s, q)| == |s|
  {
    if s != [] {
      CountSplit(s[..|s| - 1], p, q);
    }
  }

  /** A removal cannot be repeated: the second one finds nothing. */
  lemma RemoveTwiceFails(db: Db, id: string, userId: string, accountId: string)
    requires RemoveTransaction(db, id, userId, accountId).Ok?
    ensures RemoveTransaction(RemoveTransaction(db, id, userId, accountId).value.db, id, userId, accountId)
      == Err(Thrown(TransactionNotFound))
  {
    var after := RemoveTransaction(db, id, userId, accountId).value.db.transactions;
    forall i | 0 <= i < |after| ensures !Matching(id, userId, accountId)(after[i]) {
      assert after[i] in after;
    }
  }

  /** Another user's or another account's row is never deleted, even when
      the id matches. */
  lemma RemoveKeepsOthersRows(db: Db, id: string, userId: string, accountId: string, t: Transaction)
    requires RemoveTransaction(db, id, userId, accountId).Ok?
    requires t in db.transactions && (t.userId != userId || t.accountId != accountId)
    ensures t in RemoveTransaction(db, id, userId, accountId).value.db.transactions
  {
  }

  /** A transaction created and then removed by its owner in its account
      leaves the store as it was. */
  lemma {:induction false} CreateThenRemove(db: Db, data: NewTransaction)
    ensures var s := CreateTransaction(db, data);
      RemoveTransaction(s.db, s.value.id, data.userId, data.accountId) == Ok(Stored(db, true))
  {
    var s := CreateTransaction(db, data);
    var t := s.value;
    var p := Kept(t.id, data.userId, data.accountId);
    forall i | 0 <= i < |db.transactions| ensures p(db.transactions[i]) {
      assert TransactionIds(db)[i] == db.transactions[i].id;
    }
    FilterDropsAppended(db.transactions, t, p);
    CountSplit(s.db.transactions, Matching(t.id, data.userId, data.accountId), p);
  }

  /** A created transaction is listed for its owner's account. */
  lemma CreateThenList(db: Db, data: NewTransaction)
    ensures var s := CreateTransaction(db, data);
      s.value in GetTransactions(s.db, OfAccount(data.userId, data.accountId))
  {
    var s := CreateTransaction(db, data);
    assert s.db.transactions[|db.transactions|] == s.value;
  }
}

=== FILE: transactions_store.dfy ===
/** The web client's transactions store: the account's deposits and
    withdrawals, their running balance, and the month-by-month grouping the
    transactions page shows. The calendar (the month name and the year of a
    date in the browser's locale) is a parameter. */
module TransactionsStore {
  import opened Common
  import opened Text
  import opened Grouping

  /** A transaction as the API sends it; `date` is the ISO text. */
  datatype TransactionView = TransactionView(
    id: string,
    accountId: string,
    origin: string,
    amount: real,
    date: string,
    description: Option<string>)

  datatype State = State(transactions: seq<TransactionView>, balance: real, error: Option<string>)

  function Amount(t: TransactionView): real { t.amount }

  /** `fetchTransactions`: the list is replaced and its balance recomputed;
      a failed call throws before anything changes. */
  function FetchTransactions(st: State, response: Result<seq<TransactionView>>): (r: Outcome)
    ensures r.result == response
    ensures response.Err? ==> r.state == st
    ensures response.Ok? ==>
      && r.state.transactions == response.value
      && r.state.balance == SumOf(response.value, Amount)
      && r.state.error == st.error
  {
    match response
    case Err(_) => Outcome(st, response)
    case Ok(data) => Outcome(st.(transactions := data, balance := SumOf(data, Amount)), response)
  }

  datatype Outcome = Outcome(state: State, result: Result<seq<TransactionView>>)

  /** The month (upper-cased long name) and year of a date, as the browser
      renders them. */
  datatype MonthYear = MonthYear(month: string, year: int)

  /** `${month}-${year}`: the key a transaction is grouped under. */
  function GroupKey(m: MonthYear): string { m.month + "-" + IntToString(m.year) }

  /** `${month} ${year}`: the label shown on the group. */
  function GroupLabel(m: MonthYear): string { m.month + " " + IntToString(m.year) }

  function KeyOf(calendar: string -> MonthYear): TransactionView -> string {
    (t: TransactionView) => GroupKey(calendar(t.date))
  }

  /** One entry of the `getGroupedByMonth` object. */
  datatype MonthGroup = MonthGroup(key: string, open: bool, month: string, balance: real, transactions: seq<TransactionView>)

  function GroupBalance(g: MonthGroup): real { g.balance }

  /** `getGroupedByMonth`: the groups in the order their keys first appear.
      A group is labelled by the transaction that opened it, accumulates the
      amounts of its members, and is open only when the very first
      transaction opened it. */
  function GroupedByMonth(st: State, calendar: string -> MonthYear): (r: seq<MonthGroup>)
    ensures var gs := GroupBy(st.transactions, KeyOf(calendar));
      && |r| == |gs|
      && (forall i :: 0 <= i < |r| ==> r[i].key == gs[i].key && r[i].transactions == gs[i].members)
    ensures forall i :: 0 <= i < |r| ==>
      && |r[i].transactions| > 0
      && r[i].month == GroupLabel(calendar(r[i].transactions[0].date))
      && r[i].balance == SumOf(r[i].transactions, Amount)
      && r[i].open == (i == 0)
  {
    var gs := GroupBy(st.transactions, KeyOf(calendar));
    seq(|gs|, (i: int) requires 0 <= i < |gs| =>
      MonthGroup(gs[i].key, i == 0, GroupLabel(calendar(gs[i].members[0].date)),
                 SumOf(gs[i].members, Amount), gs[i].members))
  }

  /** Every transaction sits in exactly one group, the group of its own
      month and year, and a group holds exactly the transactions of its
      key, in list order. */
  lemma TransactionInItsMonth(st: State, calendar: string -> MonthYear, t: TransactionView)
    requires t in st.transactions
    ensures var r := GroupedByMonth(st, calendar);
      && (exists i :: 0 <= i < |r| && t in r[i].transactions)
      && (forall i :: 0 <= i < |r| && t in r[i].transactions ==> r[i].key == GroupKey(calendar(t.date)))
  {
    var r := GroupedByMonth(st, calendar);
    var gs := GroupBy(st.transactions, KeyOf(calendar));
    GroupOf(st.transactions, KeyOf(calendar), t);
    var i :| 0 <= i < |gs| && t in gs[i].members;
    assert t in r[i].transactions;
    forall j | 0 <= j < |r| && t in r[j].transactions
      ensures r[j].key == GroupKey(calendar(t.date))
    {
      assert t in gs[j].members;
      assert gs[j].key == KeyOf(calendar)(t);
    }
  }

  /** No two groups share a key. */
  lemma MonthKeysDistinct(st: State, calendar: string -> MonthYear)
    ensures var r := GroupedByMonth(st, calendar);
      forall i, j :: 0 <= i < j < |r| ==> r[i].key != r[j].key
  {
    var gs := GroupBy(st.transactions, KeyOf(calendar));
    assert DistinctKeys(gs);
  }

  /** The group balances add up to the store's balance after a fetch:
      grouping loses and duplicates no amount. */
  lemma GroupBalancesAddUp(st: State, calendar: string -> MonthYear, data: seq<TransactionView>)
    ensures var after := FetchTransactions(st, Ok(data)).state;
      SumOf(GroupedByMonth(after, calendar), GroupBalance) == after.balance
  {
    var gs := GroupBy(data, KeyOf(calendar));
    var r := GroupedByMonth(FetchTransactions(st, Ok(data)).state, calendar);
    GroupByTotal(data, KeyOf(calendar), Amount);
    GroupsTotalIsSum(gs, Amount);
    SumOfPairwise(r, gs, GroupBalance, MembersSum(Amount));
  }

  /** Only one group is open, and it is the group of the first transaction;
      an empty list has no groups at all. */
  lemma OnlyFirstGroupOpen(st: State, calendar: string -> MonthYear)
    ensures var r := GroupedByMonth(st, calendar);
      && (|st.transactions| == 0 <==> |r| == 0)
      && (forall i :: 0 <= i < |r| && r[i].open ==> i == 0 && st.transactions[0] in r[i].transactions)
  {
    var r := GroupedByMonth(st, calendar);
    var gs := GroupBy(st.transactions, KeyOf(calendar));
    if |st.transactions| > 0 {
      MembersIn(st.transactions, KeyOf(calendar), gs[0].key, st.transactions[0]);
    }
  }
}

=== FILE: users_service.dfy ===
/** The users service: accounts of people who log in, keyed by id and by a
    unique email. The salted bcrypt hash is an oracle passed in as `hash`. */
module UsersService {
  import opened Common
  import opened Entities

  /** A `CreateUserDto`. */
  datatype NewUser = NewUser(email: string, name: string, password: string)

  /** What `create` and `update` return: the row without its secrets. */
  datatype UserView = UserView(id: string, email: string, name: string)

  /** An `UpdateUserDto`; `None` stands for a field that is absent or null. */
  datatype UserPatch = UserPatch(
    email: Option<string>,
    name: Option<string>,
    password: Option<string>,
    refreshToken: Option<string>,
    tokenExpiration: Option<int>)

  const EmailExists := "El email ya existe con otro usuario."
  const UserNotFound := "Usuario no encontrado"
  const EmailInUse := "El email ya está en uso"

  function UserIds(db: Db): seq<string> { Map(db.users, UserId) }

  function View(u: User): UserView { UserView(u.id, u.email, u.name) }

  /** The `email` column's unique index. */
  ghost predicate EmailsUnique(users: seq<User>) { UniqueIds(users, UserEmail) }

  // ---------------------------------------------------------------------
  // create

  /** Registers a user unless the email is already taken; the password is
      stored only as its hash and no session is open yet. */
  function Create(db: Db, input: NewUser, hash: string -> string): (r: Result<Stored<UserView>>)
    ensures r.Err? <==> exists i :: 0 <= i < |db.users| && db.users[i].email == input.email
    ensures r.Err? ==> r.error == HttpError(400, EmailExists)
    ensures r.Ok? ==>
      && r.value.value.id !in UserIds(db)
      && r.value.value == UserView(r.value.value.id, input.email, input.name)
      && r.value.db == db.(users := db.users + [User(r.value.value.id, input.email, input.name, hash(input.password), None, None)])
  {
    match FindFirst(db.users, (u: User) => u.email == input.email)
    case Some(_) => Err(HttpError(400, EmailExists))
    case None =>
      var u := User(FreshId(UserIds(db)), input.email, input.name, hash(input.password), None, None);
      Ok(Stored(db.(users := db.users + [u]), View(u)))
  }

  /** `create` keeps both keys of the table unique. */
  lemma CreateKeepsKeysUnique(db: Db, input: NewUser, hash: string -> string)
    requires UniqueIds(db.users, UserId) && EmailsUnique(db.users)
    requires Create(db, input, hash).Ok?
    ensures var s := Create(db, input, hash).value;
      UniqueIds(s.db.users, UserId) && EmailsUnique(s.db.users)
  {
    var s := Create(db, input, hash).value;
    var u := s.db.users[|db.users|];
    assert s.db.users == db.users + [u];
    AppendFresh(db.users, UserId, u);
    forall i | 0 <= i < |db.users| ensures db.users[i].email != u.email {
    }
  }

  /** A second registration with the same email is refused. */
  lemma CreateTwiceFails(db: Db, input: NewUser, other: NewUser, hash: string -> string)
    requires Create(db, input, hash).Ok?
    requires other.email == input.email
    ensures Create(Create(db, input, hash).value.db, other, hash) == Err(HttpError(400, EmailExists))
  {
    var after := Create(db, input, hash).value.db;
    assert after.users[|db.users|].email == other.email;
  }

  // ---------------------------------------------------------------------
  // update

  /** The row after the patch: every present field replaces the column, the
      password only when it is a non-empty string, and then as its hash. */
  function Patched(u: User, p: UserPatch, hash: string -> string): (v: User)
    ensures v.id == u.id
    ensures p == UserPatch(None, None, None, None, None) ==> v == u
  {
    u.(email := p.email.GetOr(u.email),
       name := p.name.GetOr(u.name),
       password := if Truthy(p.password) then hash(p.password.value) else u.password,
       refreshToken := if p.refreshToken.Some? then p.refreshToken else u.refreshToken,
       tokenExpiration := if p.tokenExpiration.Some? then p.tokenExpiration else u.tokenExpiration)
  }

  function PatchRow(id: string, p: UserPatch, hash: string -> string): User -> User {
    (u: User) => if u.id == id then Patched(u, p, hash) else u
  }

  /** Some user other than `id` holds `email`. */
  predicate TakenByOther(db: Db, id: string, email: string) {
    exists i :: 0 <= i < |db.users| && db.users[i].email == email && db.users[i].id != id
  }

  /** Updates a user: a missing id is a 404, an email held by somebody else
      is a conflict (the user's own email is not), and otherwise every
      column the patch leaves out keeps its value. */
  function Update(db: Db, id: string, patch: UserPatch, hash: string -> string): (r: Result<Stored<UserView>>)
    ensures (forall i :: 0 <= i < |db.users| ==> db.users[i].id != id) <==> r == Err(HttpError(404, UserNotFound))
    ensures r.Err? ==> r.error == HttpError(404, UserNotFound) || r.error == Conflict(EmailInUse)
    ensures r.Err? && r.error == Conflict(EmailInUse) ==> Truthy(patch.email) && TakenByOther(db, id, patch.email.value)
    ensures (&& EmailsUnique(db.users) && Truthy(patch.email) && TakenByOther(db, id, patch.email.value)
             && (exists i :: 0 <= i < |db.users| && db.users[i].id == id)) ==> r == Err(Conflict(EmailInUse))
    ensures r.Ok? ==>
      && (exists i :: 0 <= i < |db.users| && db.users[i].id == id && r.value.value == View(Patched(db.users[i], patch, hash)))
      && |r.value.db.users| == |db.users|
      && (forall i :: 0 <= i < |db.users| ==>
            r.value.db.users[i] == if db.users[i].id == id then Patched(db.users[i], patch, hash) else db.users[i])
      && r.value.db == db.(users := r.value.db.users)
  {
    match FindFirst(db.users, (u: User) => u.id == id)
    case None => Err(HttpError(404, UserNotFound))
    case Some(user) =>
      if EmailConflict(db, id, patch) then Err(Conflict(EmailInUse))
      else Ok(Stored(db.(users := Map(db.users, PatchRow(id, patch, hash))), View(Patched(user, patch, hash))))
  }

  /** The first user holding the patch's (truthy) email is somebody else.
      Without duplicate emails that is exactly "somebody else holds it". */
  predicate EmailConflict(db: Db, id: string, patch: UserPatch)
    ensures EmailConflict(db, id, patch) ==> Truthy(patch.email) && TakenByOther(db, id, patch.email.value)
    ensures EmailsUnique(db.users) && Truthy(patch.email) && TakenByOther(db, id, patch.email.value)
      ==> EmailConflict(db, id, patch)
  {
    var holder := if Truthy(patch.email) then FindFirst(db.users, (u: User) => u.email == patch.email.value) else None;
    holder.Some? && holder.value.id != id
  }

  /** A user may keep (re-send) their own email. */
  lemma OwnEmailAllowed(db: Db, k: nat, patch: UserPatch, hash: string -> string)
    requires EmailsUnique(db.users)
    requires k < |db.users| && patch.email == Some(db.users[k].email)
    ensures Update(db, db.users[k].id, patch, hash).Ok?
  {
    var id := db.users[k].id;
    forall i | 0 <= i < |db.users| && db.users[i].email == patch.email.value ensures db.users[i].id == id {
      assert i == k;
    }
  }

  /** An empty patch writes nothing and returns the user as stored. */
  lemma EmptyPatchChangesNothing(db: Db, k: nat, hash: string -> string)
    requires UniqueIds(db.users, UserId)
    requires k < |db.users|
    ensures Update(db, db.users[k].id, UserPatch(None, None, None, None, None), hash)
      == Ok(Stored(db, View(db.users[k])))
  {
    var id := db.users[k].id;
    var p := UserPatch(None, None, None, None, None);
    var r := Update(db, id, p, hash);
    assert r.Ok? by {
      assert !Truthy(p.email);
    }
    var users := r.value.db.users;
    assert users == db.users by {
      forall j | 0 <= j < |db.users| ensures users[j] == db.users[j] {
        assert Patched(db.users[j], p, hash) == db.users[j];
      }
    }
    var i :| 0 <= i < |db.users| && db.users[i].id == id && r.value.value == View(Patched(db.users[i], p, hash));
    assert i == k by {
      assert UserId(db.users[i]) == UserId(db.users[k]);
    }
  }

  /** An update keeps emails unique, except that an empty email is not
      checked against the others. */
  lemma UpdateKeepsEmailsUnique(db: Db, id: string, patch: UserPatch, hash: string -> string)
    requires UniqueIds(db.users, UserId) && EmailsUnique(db.users)
    requires patch.email != Some("")
    requires Update(db, id, patch, hash).Ok?
    ensures var after := Update(db, id, patch, hash).value.db.users;
      UniqueIds(after, UserId) && EmailsUnique(after)
  {
    var after := Update(db, id, patch, hash).value.db.users;
    forall i, j | 0 <= i < j < |after| ensures after[i].id != after[j].id && after[i].email != after[j].email {
      assert after[i].id == db.users[i].id && after[j].id == db.users[j].id;
      if db.users[i].id == id {
        PatchedEmailIsFree(db, id, patch, hash, i, j);
      } else if db.users[j].id == id {
        PatchedEmailIsFree(db, id, patch, hash, j, i);
      }
    }
  }

  /** The patched row's email differs from every other row's. */
  lemma PatchedEmailIsFree(db: Db, id: string, patch: UserPatch, hash: string -> string, k: nat, m: nat)
    requires UniqueIds(db.users, UserId) && EmailsUnique(db.users)
    requires patch.email != Some("")
    requires Update(db, id, patch, hash).Ok?
    requires k < |db.users| && m < |db.users| && k != m && db.users[k].id == id
    ensures Patched(db.users[k], patch, hash).email != db.users[m].email
  {
    assert db.users[m].id != id;
    if patch.email.Some? {
      assert Truthy(patch.email);
      assert !TakenByOther(db, id, patch.email.value);
    }
  }

  // ---------------------------------------------------------------------
  // remove

  function OtherUser(id: string): User -> bool {
    (u: User) => u.id != id
  }

  /** Deletes an existing user and returns the deleted row; a missing id is
      a 404. */
  function Remove(db: Db, id: string): (r: Result<Stored<User>>)
    ensures r.Err? <==> forall i :: 0 <= i < |db.users| ==> db.users[i].id != id
    ensures r.Err? ==> r.error == HttpError(404, UserNotFound)
    ensures r.Ok? ==>
      && r.value.value in db.users && r.value.value.id == id
      && (forall u :: u in r.value.db.users <==> u in db.users && u.id != id)
      && r.value.db == db.(users := r.value.db.users)
  {
    match FindFirst(db.users, (u: User) => u.id == id)
    case None => Err(HttpError(404, UserNotFound))
    case Some(u) => Ok(Stored(db.(users := Filter(db.users, OtherUser(id))), u))
  }

  /** Registering a user and removing them again gives back the store as it
      was. */
  lemma {:induction false} CreateThenRemove(db: Db, input: NewUser, hash: string -> string)
    requires Create(db, input, hash).Ok?
    ensures var s := Create(db, input, hash).value;
      && Remove(s.db, s.value.id).Ok?
      && Remove(s.db, s.value.id).value.db == db
  {
    var s := Create(db, input, hash).value;
    var id := s.value.id;
    var u := User(id, input.email, input.name, hash(input.password), None, None);
    assert s.db.users == db.users + [u];
    forall i | 0 <= i < |db.users| ensures OtherUser(id)(db.users[i]) {
      assert UserIds(db)[i] == db.users[i].id;
    }
    FilterDropsAppended(db.users, u, OtherUser(id));
    assert s.db.users[|db.users|].id == id;
    var removed := Remove(s.db, id);
    assert removed.Ok?;
  }

  /** A removed user cannot be removed again. */
  lemma RemoveTwiceFails(db: Db, id: string)
    requires Remove(db, id).Ok?
    ensures Remove(Remove(db, id).value.db, id) == Err(HttpError(404, UserNotFound))
  {
    var after := Remove(db, id).value.db.users;
    forall i | 0 <= i < |after| ensures after[i].id != id {
      assert after[i] in after;
    }
  }
}
